=== FILE: README.md ===
# Telegram channel downloaders, modelled in Dafny

This project models the download logic of four Telegram channel downloaders:

- **The two-phase incremental downloader.** Phase 1 streams every message's text to CSV, JSON and HTML files while recording which messages carry media. Phase 2 fetches the missing media files later. A progress file lets a run resume where the last one stopped.
- **The single-phase incremental downloader.** It runs the same batch loop, but writes CSV and JSON only and always mints a fresh job name.
- **The advanced and basic downloaders.** They page through a channel collecting every message, then save the whole list as JSON and/or CSV.

The Telegram client is replaced by data:

- The message iterator is a list of responses, one per request. Each response holds the messages the server would deliver and how the request ends: normally, with a rate limit, with an error, or with the user's interrupt.
- Media fetches are a function from message id to outcome.
- The entity lookup is a function from key to outcome.
- The dialog list is a sequence.
- The directory of progress files is a list of named records.
- The media directory is a list of file names.
- Timestamps are opaque strings. The JSON text of one record is a function parameter `enc`.

Modules (one per concern; the two identical copies of each incremental file and of the advanced file are modelled once):

| module | file | what it holds |
|---|---|---|
| `Wrappers` | wrappers.dfy | `Option` and `Result` |
| `Text` | text.dfy | ASCII readings of `\w`, `\s`, `str.lower`, `strip`, `split`, `str(int)`, `int(str)` |
| `Messages` | messages.dfy | messages, records, and the four `_parse_message` variants |
| `Html` | html.dfy | `html.escape`, the per-message HTML block and its media choice |
| `Sinks` | sinks.dfy | the CSV/JSON/HTML files as accumulators, format selection, finalisation |
| `Inventory` | inventory.dfy | the append-if-absent media inventory and Phase-2 reconciliation |
| `ProgressStore` | progress.dfy | the progress record, load and save |
| `FetchLoop` | fetch_loop.dfy | the batch loop shared by both incremental downloaders |
| `Writing` | writing.dfy | what the loop does with each message, and the record a save writes |
| `Resume` | resume.dfy | safe titles, base names, and the fuzzy search for earlier jobs |
| `Incremental` | incremental.dfy | the single-phase `download_messages_incremental` |
| `TwoPhaseDownload` | incremental_v2.dfy | phase gating, Phase 1, Phase 2, and the whole call |
| `ChannelInput` | channel_input.dfy | `get_entity_from_input` and `search_channels` |
| `Bulk` | bulk.dfy | the pagination fold, output naming and save selection of the advanced and basic downloaders |

Three behaviours that look like mistakes are modelled as written:

- A resumed two-phase run starts with `is_first` false even though the JSON file is rewritten from scratch. Its file therefore begins `[`, newline, `,` (`Sinks.JsonFraming`).
- In Phase 2, a rate-limited item is skipped and not retried (`TwoPhaseDownload.PhaseTwo`, `TwoPhaseDownload.NextRemaining`).
- In Phase 2, a message with media is counted as soon as its download returns, even if no file was written (a web preview, a poll or a location). A pass can therefore set `media_downloaded` while such an id stays missing on disk (`TwoPhaseDownload.CompleteWithoutFile`).

## Model

| member | source | states |
|---|---|---|
| Messages.SenderFieldsOf | telegram-chat-downloader/telegram_downloader_incremental.py:186-192 | A user's sender name is the first and last names joined by a space and stripped. A channel's or chat's name is its title. Any other sender, or none, leaves both sender keys absent. |
| Messages.ParseTwoPhase | telegram-chat-downloader/telegram_downloader_incremental_v2.py:181-231 | `has_media` is true exactly when the message has media. The kind is set exactly when there is media. The path is `media/<basename>` exactly when a download was asked for and returned a non-empty path. |
| Messages.ParseLegacy | telegram-chat-downloader/telegram_downloader_incremental.py:171-211 | The kind is classified whenever media is present, whether or not anything is downloaded. The path is set only when a download was asked for. No `has_media` key. |
| Messages.ParseAdvanced | telegram-chat-download/telegram_downloader_advanced.py:199-232 | Kind and path both stay `None` unless media is present and a download was asked for. Sender keys follow the user/channel/chat rules. |
| Messages.ParseBasic | telegram-chat-downloader/telegram_downloader.py:72-96 | Kind and path stay `None` unless media is present and a download was asked for. The record never has sender keys. |
| Messages.ParsersAgree | telegram-chat-downloader/telegram_downloader_advanced.py:199-232 | The basic record is the advanced one without sender keys. With downloads on, the single-phase and advanced records coincide. Both incremental parsers classify media alike. |
| Html.EscapeChar | telegram-chat-downloader/telegram_downloader_incremental_v2.py:413 | Exactly `&`, `<`, `>`, `"` and `'` are replaced, and never by text holding a markup character. |
| Html.EscapeRoundTrip | telegram-chat-downloader/telegram_downloader_incremental_v2.py:413 | Escaped text reads back as the original, so escaping loses nothing. |
| Html.SenderDisplay | telegram-chat-downloader/telegram_downloader_incremental_v2.py:396-401 | The display is `name (@username)` when a non-empty username exists, else the name. It is `Unknown` when the record has no sender keys. |
| Html.ChooseMedia | telegram-chat-download/telegram_downloader_incremental_v2.py:425-460 | With a non-empty path, the block is an image for a photo or an image extension, else a video for `.mp4`/`.webm`/`.mov`, else an attachment. With media but no path, it is the not-downloaded placeholder. Otherwise there is no block. Each case is an if-and-only-if. |
| Html.FooterMarkup | telegram-chat-download/telegram_downloader_incremental_v2.py:463-474 | The footer is present exactly when views or forwards is non-zero. |
| Html.TextIsEscapedInBlock | telegram-chat-downloader/telegram_downloader_incremental_v2.py:413-421 | The block contains the escaped text and the escaped sender display. Both read back as the originals. |
| Html.MediaPathIsEscaped | telegram-chat-downloader/telegram_downloader_incremental_v2.py:425-460 | A message with a non-empty media path has that path, escaped, in its block: as the image or video source, or as the attachment link. |
| Sinks.FormatSelection | telegram-chat-download/telegram_downloader_incremental_v2.py:233-251 | The two-phase downloader opens CSV exactly for csv/both/all, JSON exactly for json/both/all, and HTML exactly for html/all. The single-phase one opens CSV exactly for csv/both and JSON exactly for json/both, and never HTML. So the two differ only on `all`. |
| Sinks.WriteRecord | telegram-chat-download/telegram_downloader_incremental_v2.py:365-389 | A record goes to every open file and to no closed one. JSON gets `,\n` before it unless `is_first`. |
| Sinks.WriteAll | telegram-chat-download/telegram_downloader_incremental.py:229-249 | After a run, the CSV and HTML files hold exactly their earlier records plus the run's records, in order. |
| Sinks.Finalize | telegram-chat-download/telegram_downloader_incremental_v2.py:514-527 | The JSON array gets `\n]`, and the page gets its closing tags after the blocks of its records. The CSV file has one row per record written. The first record fixes the header to its own keys, and each row holds that record's value, or an empty cell, for each header column. |
| Sinks.JsonFraming | telegram-chat-download/telegram_downloader_incremental_v2.py:244 | The JSON file is `[\n`, then the records joined by `,\n`, then `\n]` for a run from a zero count. A resumed run puts `,\n` before every record, so its file starts `[\n,\n`. |
| Sinks.JsonBody | telegram-chat-download/telegram_downloader_incremental.py:245-249 | The open array after a run is the opening bracket plus the records joined, or each prefixed, by the separator, by `is_first`. |
| Sinks.CsvSchema | telegram-chat-download/telegram_downloader_incremental_v2.py:369-377 | The first record fixes the header to its keys. Every record becomes one row with its value, or an empty cell, per header column. Keys outside the header are dropped. The first row is exactly the first record's values. |
| Sinks.RowOfOwnKeys | telegram-chat-download/telegram_downloader_incremental.py:232-242 | A record written under its own keys gives back its values in order. |
| Inventory.Track | telegram-chat-download/telegram_downloader_incremental_v2.py:215-216 | The id is in the result, and the old inventory is a prefix of it. |
| Inventory.TrackIsIdempotent | telegram-chat-download/telegram_downloader_incremental_v2.py:215-216 | Recording an id twice equals recording it once, and a known id changes nothing. The inventory stays duplicate-free and grows by one exactly for a new id. |
| Inventory.TrackAllKeepsDistinct | telegram-chat-download/telegram_downloader_incremental_v2.py:215-216 | Recording many ids never creates a duplicate and keeps the old inventory as a prefix. The result holds exactly the old and the recorded ids. |
| Inventory.TrackAllIsFirstDiscovery | telegram-chat-download/telegram_downloader_incremental_v2.py:215-216 | The inventory lists the distinct ids in the order each was first seen. |
| Inventory.ExistingIds | telegram-chat-download/telegram_downloader_incremental_v2.py:745-752 | An id is on disk exactly when some file name contains `_` and its text before the first `_` parses as that integer. Other names are ignored. |
| Inventory.Remaining | telegram-chat-download/telegram_downloader_incremental_v2.py:757 | The remaining ids are exactly the inventory's ids not on disk. A duplicate-free inventory gives a duplicate-free list. |
| Inventory.RemainingKeepsOrder | telegram-chat-download/telegram_downloader_incremental_v2.py:757 | Filtering is taken piece by piece, so the remaining list keeps inventory order. |
| Inventory.MediaNameAnnouncesId | telegram-chat-download/telegram_downloader_incremental_v2.py:745-752 | A file named `<id>_<anything>` is recognised as the file of that id. |
| ProgressStore.LoadLegacy | telegram-chat-download/telegram_downloader_incremental.py:157-163 | With no file, the record is offset 0 and count 0. Otherwise it is the stored record. An unreadable file is an error. |
| ProgressStore.LoadTwoPhase | telegram-chat-download/telegram_downloader_incremental_v2.py:163-172 | With no file, the record is offset 0, count 0, media not downloaded, and an empty list, with the in-memory inventory untouched. Otherwise the stored record is returned, and its `messages_with_media` (empty if missing) replaces the inventory. |
| ProgressStore.WithInventory | telegram-chat-download/telegram_downloader_incremental_v2.py:174-179 | A save overwrites the inventory field with the current inventory and keeps every other field. |
| ProgressStore.Store | telegram-chat-download/telegram_downloader_incremental.py:165-169 | Saving replaces the whole file under that name and leaves every other file as it was. |
| ProgressStore.SaveLoadRoundTrip | telegram-chat-download/telegram_downloader_incremental_v2.py:163-179 | Loading after a save gives back the saved record. The two-phase load restores exactly the saved inventory. |
| FetchLoop.BatchLimit | telegram-chat-download/telegram_downloader_incremental_v2.py:615-620 | The request size is the batch size, cut to `max_messages - total` when a truthy cap is set. |
| FetchLoop.After | telegram-chat-download/telegram_downloader_incremental_v2.py:640-645 | Each delivered message adds exactly one to the count and moves the offset to its id. |
| FetchLoop.ConsumeBatch | telegram-chat-downloader/telegram_downloader_incremental_v2.py:654-661 | Within a batch, a snapshot is taken after every 25th message, and only then. |
| FetchLoop.Round | telegram-chat-downloader/telegram_downloader_incremental_v2.py:613-684 | A request starts at the current offset and count, with the capped size. A batch that ends normally with messages is saved at the current counters. An empty batch changes nothing. |
| FetchLoop.NextRequestContinues | telegram-chat-downloader/telegram_downloader_incremental_v2.py:663-666 | After any request, a rate-limited one included, the next starts at the count and offset the messages already delivered left. Nothing is asked for or counted twice. |
| FetchLoop.RunLoop | telegram-chat-download/telegram_downloader_incremental_v2.py:613-684 | The run is what the answers made of the starting counters. Every request but the last let the loop go on. The loop stops with the cap exactly when a truthy cap was reached; then every request let it go on. Otherwise the last request ended it: an empty batch, an error or an interrupt. It makes no request exactly when it starts at a truthy cap. After an empty batch or the cap, with no rate limit on the way, the last save covers every message. |
| Writing.Write | telegram-chat-download/telegram_downloader_incremental_v2.py:633-638 | One message goes to every open file with the current `is_first`, which is then false. The two-phase downloader also records a media message's id. |
| Writing.Snapshot | telegram-chat-downloader/telegram_downloader_incremental_v2.py:672-679 | A save in the loop holds exactly the current offset and count. For the two-phase downloader, it also holds `media_downloaded` false and the current inventory. |
| Writing.Start | telegram-chat-download/telegram_downloader_incremental_v2.py:608-610 | The loop starts from the stored offset and count, with `is_first` exactly when the count is zero. |
| Writing.AfterWrites | telegram-chat-download/telegram_downloader_incremental_v2.py:630-645 | After the loop, the files hold exactly the delivered records, written with the starting `is_first`, and the inventory holds their media ids in order. |
| Resume.Sanitize | telegram-chat-downloader/telegram_downloader_incremental_v2.py:506 | Only word characters, whitespace and `-` are kept, and never more characters than the title had. |
| Resume.SanitizeOne | telegram-chat-downloader/telegram_downloader_incremental_v2.py:506 | One character is kept exactly when it is a word character, whitespace or `-`, and dropped otherwise. With `Resume.SanitizeAppend` this fixes the result for every title. |
| Resume.SanitizeIsIdempotent | telegram-chat-downloader/telegram_downloader_incremental_v2.py:506 | Sanitizing a sanitized title changes nothing. |
| Resume.SafeTitle | telegram-chat-downloader/telegram_downloader_incremental_v2.py:577 | The safe title is a prefix of the sanitized title, at most 50 characters long, and the whole sanitized title when that fits. |
| Resume.BaseNameOfProgressName | telegram-chat-downloader/telegram_downloader_incremental_v2.py:502 | Removing `_progress.json` from a job's progress-file name gives back the job's base name. |
| Resume.EmptyTitleMatchesAll | telegram-chat-downloader/telegram_downloader_incremental_v2.py:507 | An empty safe title matches every file. |
| Resume.FindExisting | telegram-chat-downloader/telegram_downloader_incremental_v2.py:488-509 | Jobs are offered exactly for the listed, readable progress files whose base name matches the title, the whole safe title or one of its words, case-insensitively. |
| Resume.ChooseBase | telegram-chat-downloader/telegram_downloader_incremental_v2.py:565-581 | A number naming an offered job with a non-empty base, counting from 1, resumes that job's base name. Any other answer mints the new name: "Start new download", a non-number, or a number out of range. |
| Resume.OwnJobIsOffered | telegram-chat-downloader/telegram_downloader_incremental_v2.py:488-509 | A job started under a minted name is offered again to a later run for the same title. |
| Incremental.Download | telegram-chat-download/telegram_downloader_incremental.py:257-382 | The single-phase call names the job afresh, so resume loads only that new name. It fails exactly when that file is unreadable. The loop's run is what the server's answers made of the loaded counters. On every way out, it closes the array and saves the current offset and count. The files hold exactly the delivered records. |
| TwoPhaseDownload.LoopLeaves | telegram-chat-downloader/telegram_downloader_incremental_v2.py:654-679 | The last saved record counts the messages up to the last snapshot and points at the last of them, or is the loaded record. The inventory and files hold everything delivered. |
| TwoPhaseDownload.FinalRecord | telegram-chat-downloader/telegram_downloader_incremental_v2.py:704-718 | The final block marks `text_complete` when the last batch was empty, sets `media_downloaded` to `not download_media_later`, and stores the inventory. |
| TwoPhaseDownload.PhaseOne | telegram-chat-downloader/telegram_downloader_incremental_v2.py:593-718 | Phase 1 runs the loop from the loaded record, and the run is what the server's answers made of it. It closes the files on every way out, holding every delivered record, and the inventory holds every delivered media id. The final block fails exactly when no request was made, which is exactly when the loaded count is already at a truthy cap. Otherwise it saves the last snapshot, marked up. After a normal end, that record holds the current counters. |
| TwoPhaseDownload.NextPhaseOne | telegram-chat-downloader/telegram_downloader_incremental_v2.py:593-596 | Whether the next run repeats Phase 1 depends on the offset heuristic and `media_downloaded` only. `text_complete` is never read. |
| TwoPhaseDownload.MediaName | telegram-chat-download/telegram_downloader_incremental_v2.py:766-786 | A saved media file's name announces its message id. |
| TwoPhaseDownload.IdsWhere | telegram-chat-download/telegram_downloader_incremental_v2.py:766-786 | The ids picked out are exactly the remaining ids with the wanted fetch outcome. They are all of them exactly when every fetch had that outcome. |
| TwoPhaseDownload.WrittenAreCounted | telegram-chat-download/telegram_downloader_incremental_v2.py:772-776 | Every fetch that wrote a file was counted, so a pass never names more files than it counts. |
| TwoPhaseDownload.PassIsSaved | telegram-chat-download/telegram_downloader_incremental_v2.py:766-786 | The pass counts exactly the ids whose message had media and whose download returned. It names exactly the files of those that wrote one. |
| TwoPhaseDownload.FetchMedia | telegram-chat-download/telegram_downloader_incremental_v2.py:766-786 | Each remaining id is requested once, in order. A message with media counts once its download returns, whether or not a file was written. A missing message, a rate limit or an error skips the id without retrying it. Only written files are added. |
| TwoPhaseDownload.PhaseTwo | telegram-chat-download/telegram_downloader_incremental_v2.py:727-800 | Phase 2 is declined exactly when it is not offered (later, non-empty inventory, media not downloaded; `text_complete` unchecked) or the answer is not `y`. Otherwise it fetches exactly the inventory's ids not on disk, and the new files are added to the media directory. It completes exactly when nothing remains or every fetch was counted, even if some wrote no file. Only completion saves the record with `media_downloaded` set. |
| TwoPhaseDownload.NextRemaining | telegram-chat-download/telegram_downloader_incremental_v2.py:742-762 | After a pass, the next run's remaining list holds exactly the ids this pass wrote no file for. That includes ids that were counted without a file. |
| TwoPhaseDownload.CompleteWithoutFile | telegram-chat-download/telegram_downloader_incremental_v2.py:772-800 | A pass whose only fetch returned without writing a file completes, yet that id is still remaining afterwards. |
| TwoPhaseDownload.JobBase | telegram-chat-downloader/telegram_downloader_incremental_v2.py:540-581 | Without resuming, or when nothing matches, the base is the minted one. Otherwise the menu answer decides, as in `Resume.ChooseBase`: an answer naming an offered job resumes its base, and any other answer mints a new one. |
| TwoPhaseDownload.Download | telegram-chat-downloader/telegram_downloader_incremental_v2.py:529-806 | An unreadable record fails the call. Phase 1 runs exactly when the loaded record calls for it. Its final block raises exactly when Phase 1 starts from a count already at a truthy cap, after closing files that hold no record. Otherwise the saved record is stored, and Phase 2 runs with it and the inventory Phase 1 left, or with the loaded ones when Phase 1 did not run. The outcome carries both phases' results as `TwoPhaseDownload.PhaseOne` and `TwoPhaseDownload.PhaseTwo` state them. |
| ChannelInput.TokenHere | telegram-chat-downloader/telegram_downloader_incremental_v2.py:100 | The pattern matches at a position exactly when `t.me/` starts there and is followed by a character of `[A-Za-z0-9_-]`. The capture is a non-empty run of those characters after `t.me/` or after `t.me/joinchat/`, and no such character follows it (the run is maximal). When `t.me/joinchat/` is followed by such a character, the capture is the run after `joinchat/`. A bare `t.me/joinchat` captures `joinchat`. |
| ChannelInput.LinkTokenIsLeftmost | telegram-chat-downloader/telegram_downloader_incremental_v2.py:100 | The search finds nothing exactly when no position matches. Otherwise it gives the capture at a position before which none matches. |
| ChannelInput.LinkTokenIsToken | telegram-chat-downloader/telegram_downloader_incremental_v2.py:100 | A captured token is a non-empty run of `[A-Za-z0-9_-]`, so it never starts with `@`. |
| ChannelInput.Reduce | telegram-chat-download/telegram_downloader_advanced.py:90-104 | When a link matches, the plan is an invite exactly when `joinchat` occurs anywhere in the input, and its URL carries the link's token. Without `joinchat`, the query is the token itself. Input without a link loses only a leading `@`. |
| ChannelInput.InviteLinkIsKept | telegram-chat-download/telegram_downloader_advanced.py:92-97 | `https://t.me/joinchat/<hash>` resolves as `https://t.me/joinchat/<hash>`. This also holds when a path that does not extend the hash follows it. |
| ChannelInput.LinkIsReducedToName | telegram-chat-download/telegram_downloader_advanced.py:92-100 | `https://t.me/<name>` without `joinchat` is reduced to the name. So is a post link `https://t.me/<name>/<n>`, or the name followed by anything that does not extend it. |
| ChannelInput.AtIsDropped | telegram-chat-download/telegram_downloader_advanced.py:103-104 | A leading `@` is dropped from input that holds no link. |
| ChannelInput.AtIsDroppedWithoutT | telegram-chat-download/telegram_downloader_advanced.py:103-104 | A name with no `t` holds no link, so its leading `@` is dropped. |
| ChannelInput.NumberInputIsAnId | telegram-chat-download/telegram_downloader_advanced.py:106-112 | A number typed as text passes the reduction unchanged and parses back to itself, so it is looked up as an id. |
| ChannelInput.ChannelId | telegram-chat-download/telegram_downloader_advanced.py:107-112 | A positive number maps to a negative multiple of 100. Any other number is kept. |
| ChannelInput.ChannelIdIsNotPrefixed | telegram-chat-download/telegram_downloader_advanced.py:111 | For every positive number, the formula differs from the `-100` prefix convention, by exactly `99 * n`. |
| ChannelInput.ChannelIdExample | telegram-chat-download/telegram_downloader_advanced.py:111 | 1234 maps to -1123400. |
| ChannelInput.Attempt | telegram-chat-downloader/telegram_downloader_advanced.py:106-121 | A number is looked up first as the formula's channel id, and a found entity is returned. On a `ValueError` or `TypeError`, the string is looked up instead. Any other error gives no entity, so the dialogs are searched. Text that is not a number is looked up only as a string. A found entity always came from one of these lookups. |
| ChannelInput.Search | telegram-chat-downloader/telegram_downloader_advanced.py:62-78 | The results are exactly the dialogs whose lowercased title contains the lowercased term. |
| ChannelInput.SearchAppend | telegram-chat-downloader/telegram_downloader_advanced.py:62-78 | The search keeps dialog order. |
| ChannelInput.Fallback | telegram-chat-downloader/telegram_downloader_advanced.py:124-135 | The result is the first dialog whose id string equals the input or whose title contains it case-insensitively, and none exactly when no dialog does. |
| ChannelInput.FallbackIsFirstSearchResult | telegram-chat-downloader/telegram_downloader_advanced.py:124-135 | When no id spells the input, the fallback is the first search result. |
| ChannelInput.Resolve | telegram-chat-downloader/telegram_downloader_advanced.py:80-135 | An entity the direct lookup finds is returned: the invite URL's for an invite, else the reduced input's. Otherwise the fallback's entity is returned, searched with the original input for an invite and the reduced input otherwise. When neither finds one, the call raises `Could not find channel: <input>`. The message quotes the original input for an invite and the reduced input otherwise. |
| Bulk.Paginate | telegram-chat-download/telegram_downloader_advanced.py:254-279 | The first offset is 0, and each next offset is the id of the previous batch's last item. The fold stops exactly at the first empty batch. The result is the earlier batches concatenated in order, and the last offset is the last item's id. |
| Bulk.InConcat | telegram-chat-downloader/telegram_downloader_advanced.py:270-274 | A record is collected exactly when some batch before the first empty one holds it. |
| Bulk.DownloadAll | telegram-chat-downloader/telegram_downloader.py:58-140 | `download_all_messages` pages by record id: the first offset is 0, and each next one is the previous batch's last id. It stops at the first request that brings nothing or raises. The call fails exactly when that request raised, and then with the same error. Otherwise it returns the earlier batches concatenated. |
| Bulk.Finish | telegram-chat-downloader/telegram_downloader.py:241-259 | An exception out of the download saves nothing. Otherwise JSON is saved exactly for `json`/`both` and CSV exactly for `csv`/`both`, provided something was collected. |
| Bulk.Take | telegram-chat-download/telegram_downloader_advanced.py:187-197 | A request yields the first messages of the answer, at most the limit. |
| Bulk.OutputBase | telegram-chat-download/telegram_downloader_advanced.py:473-474 | The advanced base is exactly the minted name of the incremental downloaders: the safe title (`unknown` without one), `_`, and the timestamp. The basic base is exactly the username, `_` and the timestamp (telegram-chat-downloader/telegram_downloader.py line 245). |
| Bulk.Save | telegram-chat-downloader/telegram_downloader.py:241-250 | Nothing is saved without messages. JSON is saved exactly for `json`/`both` and CSV exactly for `csv`/`both`, read case-insensitively, under the base name. |
| Bulk.SaveIgnoresCase | telegram-chat-downloader/telegram_downloader_advanced.py:470 | The answer is lower-cased before it is read. |
| Bulk.SaveMatchesSinglePhase | telegram-chat-downloader/telegram_downloader_advanced.py:476-479 | Apart from case, the bulk save picks the same files as the single-phase format selection. |

## Left out

- Telegram client calls (`start`, `get_me`, `iter_messages`, `iter_dialogs`, `get_entity`, `download_media`, `GetFullChannelRequest`) are given data or oracles, not behaviour. This also covers `get_channel_info`, whose title is an input.
- A channel title is either a string or absent. An absent title becomes `unknown`. A title that is present but `None` would make `re.sub` raise `TypeError` when the safe title is built; that case is not modelled.
- File and directory I/O, `glob`, `listdir` and `makedirs` are left out, and so are the JSON/CSV library serialisations. One record's JSON text is an opaque parameter, and the CSV file is rows of cells.
- `pandas` `save_to_csv` and `json.dump` of whole lists in the advanced and basic downloaders are library wrappers. Only the files' names and the choice of files are modelled.
- `asyncio` sleeps, the async structure and `KeyboardInterrupt` mechanics are left out. An interrupt is a request ending with `Interrupt`, after which the final block runs.
- Elapsed-time and rate arithmetic (floats, printing only), `datetime` timestamps, and ISO parsing and formatting are opaque strings. All `print` output, the static CSS/HTML page head, and `.env` credential loading are left out.
- Interactive menus in `main()` are given answers: the resume menu, the Phase-2 confirmation, and the save format. The "recent messages", "search messages" and channel-selection menu options are not modelled.
- `search_messages` and `list_all_dialogs` are client queries with no logic of their own beyond parsing.
- `update_html_message_media` is never called by the download path.
- `Text`: `\w`, `\s`, `str.lower`, `strip`, `split` and `int()` are read on ASCII only, because full Unicode classes are outside the model. `int()` accepts an optional sign, surrounding whitespace and single underscores between digits.
- `ProgressStore.LoadTwoPhase`: a readable progress file is taken to hold integer offset and count keys. A stored file missing them makes the source raise `KeyError` later. The model treats that file as unreadable only if it cannot be parsed at all.
- `ProgressStore.LoadLegacy` and `Incremental.Download`: the same holds for the single-phase downloader. It reads `total_downloaded` and `last_message_id` straight after loading (telegram-chat-downloader/telegram_downloader_incremental.py lines 282-289). So "fails exactly when that file is unreadable" assumes a readable file has both keys.
- `ChannelInput.Resolve`: the input is always a string. An integer argument is modelled as its decimal text (`ChannelInput.NumberInputIsAnId`), which is how it reaches the lookup.
- `ChannelInput.Attempt`: the entity lookup's answer for a key is given, not computed. Telethon's own parsing of names and links is not part of this model.
- `FetchLoop.RunLoop`: the server's answer to a request is taken by position in the list of responses, not by the offset asked for. The offsets the loop asks for are stated instead (`FetchLoop.NextRequestContinues`).
- `Bulk.DownloadAll`: as for the incremental loop, the replies are given per request, and the offsets asked for are returned and stated. The opening `get_channel_info` call only prints. Its failure, like a reply that raised, ends the call with nothing saved, and is not modelled separately.
- `TwoPhaseDownload.FetchMedia`: a media fetch's outcome is a function of the message id alone, and a saved file's name after `<id>_` is a given function of the id.
- `TwoPhaseDownload.NextPhaseOne`: states only what the saved record decides for the next run. The menu and progress printing are left out.
- `Html.ChooseMedia`: requires a record flagged as having media to carry its kind. Otherwise the source would call `capitalize()` on `None` and fail. Phase 1 records always meet this (`Writing.TwoPhaseRecordsRender`).
- The single-phase downloader's final speed printout divides floats and is left out.

=== FILE: bulk.dfy ===
/**
 * The advanced and the basic downloaders: `download_all_messages` pages through the channel,
 * each request asking for the messages before the id of the last one received, and stops at
 * the first request that brings nothing; `main` then names the output after the channel and
 * the time and writes the JSON and/or CSV file the user asks for.
 */
module Bulk {
  import opened Wrappers
  import opened Text
  import opened Messages
  import opened Sinks
  import opened Resume

  /** The two downloaders that collect everything before saving. */
  datatype Downloader = Advanced | Basic

  function Parse(d: Downloader, m: Message, downloadMedia: bool): Record {
    match d
    case Advanced => ParseAdvanced(m, downloadMedia)
    case Basic => ParseBasic(m, downloadMedia)
  }

  /** What `iter_messages(limit=…)` yields of the server's answer: at most `limit` messages. */
  function Take<T>(xs: seq<T>, limit: nat): (ys: seq<T>)
    ensures |ys| <= limit && |ys| <= |xs|
    ensures |ys| == limit || ys == xs
    ensures ys == xs[..|ys|]
  {
    if |xs| <= limit then xs else xs[..limit]
  }

  /** `download_messages`: the records of one request's messages, in the order received. */
  function ParseAll(d: Downloader, downloadMedia: bool, ms: seq<Message>): (rs: seq<Record>)
    ensures |rs| == |ms|
    ensures forall i :: 0 <= i < |ms| ==> rs[i] == Parse(d, ms[i], downloadMedia) && rs[i].id == ms[i].id
  {
    seq(|ms|, i requires 0 <= i < |ms| => Parse(d, ms[i], downloadMedia))
  }

  /** What the i-th request brings when `bs` lists the answers in order: a request past the
      last answer brings nothing. */
  function At<T>(bs: seq<seq<T>>, i: nat): seq<T> {
    if i < |bs| then bs[i] else []
  }

  /** The number of requests that bring something before the first that brings nothing. */
  function Rounds<T>(bs: seq<seq<T>>, from: nat): (k: nat)
    requires from <= |bs|
    ensures from <= k <= |bs|
    ensures forall i :: from <= i < k ==> |bs[i]| > 0
    ensures |At(bs, k)| == 0
    decreases |bs| - from
  {
    if |At(bs, from)| == 0 then from else Rounds(bs, from + 1)
  }

  /** The batches one after another. */
  function Concat<T>(bs: seq<seq<T>>): seq<T> {
    if |bs| == 0 then [] else Concat(bs[..|bs| - 1]) + bs[|bs| - 1]
  }

  lemma ConcatStep<T>(bs: seq<seq<T>>, i: nat)
    requires i < |bs|
    ensures Concat(bs[..i + 1]) == Concat(bs[..i]) + bs[i]
  {
    assert bs[..i + 1][..i] == bs[..i];
  }

  /** The last item of the concatenation is the last item of the last batch, when that batch
      is not empty. */
  lemma ConcatLast<T>(bs: seq<seq<T>>)
    requires |bs| > 0 && |bs[|bs| - 1]| > 0
    ensures |Concat(bs)| >= |bs[|bs| - 1]|
    ensures Concat(bs)[|Concat(bs)| - 1] == bs[|bs| - 1][|bs[|bs| - 1]| - 1]
  {
  }

  /** An item is collected exactly when some batch holds it. */
  lemma {:induction false} InConcat<T>(bs: seq<seq<T>>, x: T)
    ensures x in Concat(bs) <==> exists i :: 0 <= i < |bs| && x in bs[i]
  {
    if |bs| > 0 {
      var pre := bs[..|bs| - 1];
      InConcat(pre, x);
      if x in Concat(pre) {
        var i :| 0 <= i < |pre| && x in pre[i];
        assert bs[i] == pre[i];
      }
      if exists i :: 0 <= i < |bs| && x in bs[i] {
        var i :| 0 <= i < |bs| && x in bs[i];
        if i < |bs| - 1 {
          assert pre[i] == bs[i];
        }
      }
    }
  }

  /** The pagination fold over answers `bs`. `offsets` are the `offset_id`s of the requests
      made: the first is 0, each next one the id of the last item of the batch before, and
      the last request is the first that brings nothing; the result is the batches before
      it, in order. */
  method Paginate<T>(bs: seq<seq<T>>, idOf: T -> int) returns (all: seq<T>, offsets: seq<int>)
    ensures var k := Rounds(bs, 0);
      && all == Concat(bs[..k])
      && |offsets| == k + 1
      && offsets[0] == 0
      && forall i :: 0 <= i < k ==> offsets[i + 1] == idOf(bs[i][|bs[i]| - 1])
    ensures |all| == 0 <==> Rounds(bs, 0) == 0
    ensures |all| > 0 ==> offsets[|offsets| - 1] == idOf(all[|all| - 1])
  {
    all := [];
    offsets := [0];
    var offset := 0;
    var i: nat := 0;
    ghost var k := Rounds(bs, 0);
    while true
      invariant i <= k
      invariant all == Concat(bs[..i])
      invariant |offsets| == i + 1 && offsets[0] == 0 && offsets[i] == offset
      invariant forall j :: 0 <= j < i ==> offsets[j + 1] == idOf(bs[j][|bs[j]| - 1])
      decreases k - i
    {
      var batch := At(bs, i);
      if |batch| == 0 {
        break;
      }
      ConcatStep(bs, i);
      all := all + batch;
      offset := idOf(batch[|batch| - 1]);
      offsets := offsets + [offset];
      i := i + 1;
    }
    if i > 0 {
      ConcatLast(bs[..i]);
    }
  }

  /** What one `download_messages` call comes back with: the messages of the server's answer,
      or the exception the call raised (the entity lookup it repeats failing, a flood wait, any
      other RPC error); nothing in the fold catches it. */
  datatype Reply = Batch(messages: seq<Message>) | Raised(error: string)

  /** The records of every reply, as each request of at most `limit` messages yields them; a
      reply that raised brings nothing, so the paging stops there. */
  function Answers(d: Downloader, downloadMedia: bool, limit: nat, replies: seq<Reply>): (bs: seq<seq<Record>>)
    ensures |bs| == |replies|
    ensures forall i :: 0 <= i < |replies| && replies[i].Batch? ==>
      bs[i] == ParseAll(d, downloadMedia, Take(replies[i].messages, limit))
    ensures forall i :: 0 <= i < |replies| && replies[i].Raised? ==> bs[i] == []
  {
    seq(|replies|, i requires 0 <= i < |replies| =>
      match replies[i]
      case Batch(ms) => ParseAll(d, downloadMedia, Take(ms, limit))
      case Raised(_) => [])
  }

  /** `download_all_messages`: the pagination fold over the parsed replies, paging by record id.
      The fold ends at the first request that brings nothing or raises; when it raised, the
      call raises the same exception and what was collected is lost. */
  method DownloadAll(d: Downloader, replies: seq<Reply>, limit: nat, downloadMedia: bool)
    returns (r: Result<seq<Record>, string>, offsets: seq<int>)
    ensures var bs := Answers(d, downloadMedia, limit, replies);
      var k := Rounds(bs, 0);
      && |offsets| == k + 1
      && offsets[0] == 0
      && forall i :: 0 <= i < k ==> offsets[i + 1] == bs[i][|bs[i]| - 1].id
    ensures var k := Rounds(Answers(d, downloadMedia, limit, replies), 0);
      r.Failure? <==> k < |replies| && replies[k].Raised?
    ensures var k := Rounds(Answers(d, downloadMedia, limit, replies), 0);
      r.Failure? ==> k < |replies| && r.error == replies[k].error
    ensures var bs := Answers(d, downloadMedia, limit, replies);
      r.Success? ==> r.value == Concat(bs[..Rounds(bs, 0)])
  {
    var bs := Answers(d, downloadMedia, limit, replies);
    var all;
    all, offsets := Paginate(bs, (rec: Record) => rec.id);
    var k := |offsets| - 1;
    assert k == Rounds(bs, 0);
    if k < |replies| && replies[k].Raised? {
      r := Failure(replies[k].error);
    } else {
      r := Success(all);
    }
  }

  /** The output base of `main`: the advanced downloader uses the safe channel title (`unknown`
      when the channel information has none), the basic one the username as typed; both then
      add `_` and the timestamp. */
  function OutputBase(d: Downloader, title: Option<string>, username: string, stamp: string): (b: string)
    ensures EndsWith(b, "_" + stamp)
    ensures d.Basic? ==> StartsWith(b, username) && |b| == |username| + 1 + |stamp|
    ensures d.Advanced? ==> StartsWith(b, SafeTitle(title.GetOr("unknown"))) && |b| <= TitleLimit + 1 + |stamp|
    ensures d.Advanced? ==> forall i :: 0 <= i < |b| - 1 - |stamp| ==> Kept(b[i])
    ensures d.Advanced? ==> b == FreshBase(title.GetOr("unknown"), stamp)
    ensures d.Basic? ==> b == username + "_" + stamp
  {
    var stem := if d.Advanced? then SafeTitle(title.GetOr("unknown")) else username;
    assert (stem + "_" + stamp)[..|stem|] == stem;
    assert (stem + "_" + stamp)[|stem|..] == "_" + stamp;
    stem + "_" + stamp
  }

  /** The files `main` writes, by name. */
  datatype Saved = Saved(json: Option<string>, csv: Option<string>)

  /** Saving `count` collected records: nothing when there are none; otherwise the answer,
      lower-cased, picks JSON for `json` or `both` and CSV for `csv` or `both`. */
  function Save(answer: string, base: string, count: nat): (s: Saved)
    ensures count == 0 ==> s == Saved(None, None)
    ensures s.json.Some? <==> count > 0 && (Lower(answer) == "json" || Lower(answer) == "both")
    ensures s.csv.Some? <==> count > 0 && (Lower(answer) == "csv" || Lower(answer) == "both")
    ensures s.json.Some? ==> s.json.value == base + ".json"
    ensures s.csv.Some? ==> s.csv.value == base + ".csv"
  {
    if count == 0 then Saved(None, None)
    else
      var a := Lower(answer);
      Saved(if a in ["json", "both"] then Some(base + ".json") else None,
            if a in ["csv", "both"] then Some(base + ".csv") else None)
  }

  /** The end of `main`: an exception out of the download is reported and nothing is saved;
      otherwise the collected records are saved as the answer asks. */
  function Finish(r: Result<seq<Record>, string>, answer: string, base: string): (s: Saved)
    ensures r.Failure? ==> s == Saved(None, None)
    ensures s.json.Some? <==> r.Success? && |r.value| > 0 && (Lower(answer) == "json" || Lower(answer) == "both")
    ensures s.csv.Some? <==> r.Success? && |r.value| > 0 && (Lower(answer) == "csv" || Lower(answer) == "both")
    ensures s.json.Some? ==> s.json.value == base + ".json"
    ensures s.csv.Some? ==> s.csv.value == base + ".csv"
  {
    match r
    case Failure(_) => Saved(None, None)
    case Success(all) => Save(answer, base, |all|)
  }

  /** The answer is read case-insensitively: answering `Both` saves what `both` saves. */
  lemma SaveIgnoresCase(answer: string, base: string, count: nat)
    ensures Save(answer, base, count) == Save(Lower(answer), base, count)
  {
    LowerIsIdempotent(answer);
  }

  /** Apart from case, the formats name the same files the single-phase downloader opens:
      `all` and `html`, which it also ignores, save nothing here. */
  lemma SaveMatchesSinglePhase(answer: string, base: string, count: nat)
    requires count > 0
    ensures Save(answer, base, count).json.Some? <==> OpenLegacy(Lower(answer)).json.Some?
    ensures Save(answer, base, count).csv.Some? <==> OpenLegacy(Lower(answer)).csv.Some?
  {
  }
}

=== FILE: channel_input.dfy ===
/**
 * `get_entity_from_input` and `search_channels`: what the user typed to name a channel is
 * reduced (a `t.me` link to its token, a leading `@` dropped, a positive number turned into a
 * channel id by the downloader's own formula), resolved through the client, and, when that
 * fails, looked up among the user's dialogs. The client's lookup is a parameter.
 */
module ChannelInput {
  import opened Wrappers
  import opened Text

  /** The characters of `[a-zA-Z0-9_\-]`. */
  predicate TokenChar(c: char) {
    IsAsciiLetter(c) || IsDigit(c) || c == '_' || c == '-'
  }

  /** The length of the run of token characters at the front of `s`. */
  function TokenLength(s: string): (n: nat)
    ensures n <= |s|
    ensures forall i :: 0 <= i < n ==> TokenChar(s[i])
    ensures n < |s| ==> !TokenChar(s[n])
  {
    if |s| > 0 && TokenChar(s[0]) then 1 + TokenLength(s[1..]) else 0
  }

  lemma {:induction false} TokenLengthOfToken(t: string, rest: string)
    requires forall i :: 0 <= i < |t| ==> TokenChar(t[i])
    requires |rest| > 0 ==> !TokenChar(rest[0])
    ensures TokenLength(t + rest) == |t|
  {
    if |t| > 0 {
      assert (t + rest)[1..] == t[1..] + rest;
      TokenLengthOfToken(t[1..], rest);
    } else {
      assert t + rest == rest;
    }
  }

  const Scheme := "https://"
  const LinkPrefix := "t.me/"
  const InviteWord := "joinchat"
  const InvitePath := InviteWord + "/"
  const InviteUrl := Scheme + LinkPrefix + InvitePath

  /** A run of token characters that ends at position `n` of `s` cannot be extended. */
  predicate RunEndsAt(s: string, n: nat) {
    n <= |s| && (n < |s| ==> !TokenChar(s[n]))
  }

  /** The capture of `t\.me/(?:joinchat/)?([a-zA-Z0-9_\-]+)` when it matches at the front of
      `s`: the optional `joinchat/` is tried first, and the token is the longest run, never empty.
      The pattern matches exactly when `t.me/` is followed by a token character (`j` is one, so a
      `joinchat/` with nothing after it still matches, capturing `joinchat`). */
  function TokenHere(s: string): (t: Option<string>)
    ensures t.None? <==> !StartsWith(s, LinkPrefix) || |s| == |LinkPrefix| || !TokenChar(s[|LinkPrefix|])
    ensures t.Some? ==> |t.value| > 0 && forall i :: 0 <= i < |t.value| ==> TokenChar(t.value[i])
    ensures t.Some? ==>
      (StartsWith(s, LinkPrefix + t.value) && RunEndsAt(s, |LinkPrefix| + |t.value|)) ||
      (StartsWith(s, LinkPrefix + InvitePath + t.value) && RunEndsAt(s, |LinkPrefix + InvitePath| + |t.value|))
    ensures StartsWith(s, LinkPrefix + InvitePath) && |s| > |LinkPrefix + InvitePath| && TokenChar(s[|LinkPrefix + InvitePath|]) ==>
      t.Some? && StartsWith(s, LinkPrefix + InvitePath + t.value) && RunEndsAt(s, |LinkPrefix + InvitePath| + |t.value|)
  {
    if !StartsWith(s, LinkPrefix) then None
    else
      var k := |LinkPrefix + InvitePath|;
      if StartsWith(s, LinkPrefix + InvitePath) && TokenLength(s[k..]) > 0 then
        RunAfter(s, LinkPrefix + InvitePath);
        assert s[|LinkPrefix|] == (LinkPrefix + InvitePath)[|LinkPrefix|];
        Some(s[k..][..TokenLength(s[k..])])
      else if TokenLength(s[|LinkPrefix|..]) > 0 then
        RunAfter(s, LinkPrefix);
        Some(s[|LinkPrefix|..][..TokenLength(s[|LinkPrefix|..])])
      else
        assert |s| > |LinkPrefix| ==> s[|LinkPrefix|..][0] == s[|LinkPrefix|];
        None
  }

  /** The longest run of token characters right after a prefix `p`, when there is one. */
  lemma RunAfter(s: string, p: string)
    requires StartsWith(s, p) && TokenLength(s[|p|..]) > 0
    ensures |s| > |p| && TokenChar(s[|p|])
    ensures var v := s[|p|..][..TokenLength(s[|p|..])];
      StartsWith(s, p + v) && RunEndsAt(s, |p| + |v|)
  {
    var a := s[|p|..];
    var v := a[..TokenLength(a)];
    assert s[..|p + v|] == p + v;
    assert |p| + |v| < |s| ==> s[|p| + |v|] == a[TokenLength(a)];
  }

  /** `re.search`: the capture at the leftmost position where the pattern matches. */
  function LinkToken(s: string): Option<string>
    decreases |s|
  {
    if TokenHere(s).Some? then TokenHere(s)
    else if |s| == 0 then None
    else LinkToken(s[1..])
  }

  /** The search finds nothing exactly when the pattern matches nowhere, and otherwise the
      capture at a position before which it matches nowhere. */
  lemma {:induction false} LinkTokenIsLeftmost(s: string)
    ensures LinkToken(s).None? <==> forall k :: 0 <= k <= |s| ==> TokenHere(s[k..]).None?
    ensures LinkToken(s).Some? ==>
      exists k :: 0 <= k <= |s| && TokenHere(s[k..]) == LinkToken(s) &&
                  forall j :: 0 <= j < k ==> TokenHere(s[j..]).None?
    decreases |s|
  {
    assert s[0..] == s;
    if TokenHere(s).None? && |s| > 0 {
      LinkTokenIsLeftmost(s[1..]);
      assert forall k :: 1 <= k <= |s| ==> s[1..][k - 1..] == s[k..];
      if LinkToken(s).Some? {
        var k :| 0 <= k <= |s[1..]| && TokenHere(s[1..][k..]) == LinkToken(s[1..]) &&
                 forall j :: 0 <= j < k ==> TokenHere(s[1..][j..]).None?;
        assert TokenHere(s[k + 1..]) == LinkToken(s);
        forall j | 0 <= j < k + 1
          ensures TokenHere(s[j..]).None?
        {
          if j > 0 {
            assert s[1..][j - 1..] == s[j..];
          }
        }
      }
    }
  }

  /** What the search captures is a non-empty run of token characters. */
  lemma {:induction false} LinkTokenIsToken(s: string)
    ensures LinkToken(s).Some? ==>
      |LinkToken(s).value| > 0 && forall i :: 0 <= i < |LinkToken(s).value| ==> TokenChar(LinkToken(s).value[i])
    decreases |s|
  {
    if TokenHere(s).None? && |s| > 0 {
      LinkTokenIsToken(s[1..]);
    }
  }

  /** What the direct resolution asks the client for: an invite link, or the reduced input. */
  datatype Plan = Invite(url: string) | Direct(query: string)

  /** The reduction of the input: a link with a token becomes the invite URL when `joinchat`
      occurs anywhere in the input, else its token; then a leading `@` is dropped. */
  function Reduce(input: string): (p: Plan)
    ensures p.Invite? ==> Contains(input, InviteWord) && LinkToken(input).Some? && p.url == InviteUrl + LinkToken(input).value
    ensures p.Direct? && LinkToken(input).None? ==>
      p.query == (if |input| > 0 && input[0] == '@' then input[1..] else input)
    ensures LinkToken(input).Some? ==> (p.Invite? <==> Contains(input, InviteWord))
    ensures p.Direct? && LinkToken(input).Some? ==> p.query == LinkToken(input).value
  {
    LinkTokenIsToken(input);
    var s := match LinkToken(input) case Some(t) => if Contains(input, InviteWord) then "" else t case None => input;
    if LinkToken(input).Some? && Contains(input, InviteWord) then Invite(InviteUrl + LinkToken(input).value)
    else Direct(if |s| > 0 && s[0] == '@' then s[1..] else s)
  }

  function Pow10(d: nat): (p: nat)
    ensures p >= 1
  {
    if d == 0 then 1 else 10 * Pow10(d - 1)
  }

  /** A positive number `n` of `d` digits becomes `-100 * (10^d + n)`; any other number is kept.
      This is not the usual convention of writing `-100` in front of the digits. */
  function ChannelId(n: int): (id: int)
    ensures n > 0 ==> id < 0 && id % 100 == 0
    ensures n <= 0 ==> id == n
  {
    if n > 0 then -100 * (Pow10(|IntToString(n)|) + n) else n
  }

  /** For every positive number the id differs from the one the `-100` prefix would give. */
  lemma ChannelIdIsNotPrefixed(n: int)
    requires n > 0
    ensures ChannelId(n) != -(100 * Pow10(|IntToString(n)|) + n)
    ensures ChannelId(n) == -(100 * Pow10(|IntToString(n)|) + n) - 99 * n
  {
  }

  /** The number 1234 becomes -1123400, where the prefix convention would give -1001234. */
  lemma ChannelIdExample()
    ensures ChannelId(1234) == -1123400
  {
    assert IntToString(1234) == "1234";
  }

  /** The name the client is asked for: an id or a string. */
  datatype Key = IdKey(id: int) | NameKey(name: string)

  /** What the client answers: the entity, a `ValueError` or `TypeError`, or any other error. */
  datatype Lookup<E> = Found(entity: E) | BadValue | LookupError

  /** The entity the client finds under a string, if it finds one. */
  function Named<E>(name: string, lookup: Key -> Lookup<E>): Option<E> {
    match lookup(NameKey(name)) case Found(e) => Some(e) case _ => None
  }

  /** The direct resolution of the reduced input: a number is looked up as a channel id, and
      on a `ValueError` or `TypeError` the string is tried; anything else is looked up as a
      string. `None` means the lookup raised and the dialogs are searched. */
  function Attempt<E>(query: string, lookup: Key -> Lookup<E>): (r: Option<E>)
    ensures r.Some? ==> (exists n :: ParseInt(query) == Some(n) && lookup(IdKey(ChannelId(n))) == Found(r.value))
                        || lookup(NameKey(query)) == Found(r.value)
    ensures ParseInt(query).None? ==> (r.Some? <==> lookup(NameKey(query)).Found?)
    ensures ParseInt(query).Some? && lookup(IdKey(ChannelId(ParseInt(query).value))).Found? ==>
      r == Some(lookup(IdKey(ChannelId(ParseInt(query).value))).entity)
    ensures ParseInt(query).Some? && lookup(IdKey(ChannelId(ParseInt(query).value))).BadValue? ==>
      r == Named(query, lookup)
    ensures ParseInt(query).Some? && lookup(IdKey(ChannelId(ParseInt(query).value))).LookupError? ==>
      r.None?
  {
    var byName := Named(query, lookup);
    match ParseInt(query)
    case Some(n) =>
      (match lookup(IdKey(ChannelId(n)))
       case Found(e) => Some(e)
       case BadValue => byName
       case LookupError => None)
    case None => byName
  }

  /** A dialog: its id, title, name and entity. */
  datatype Dialog<E> = Dialog(id: int, title: Option<string>, name: Option<string>, entity: E)

  /** `dialog.title or dialog.name or ""`: the empty string counts as missing. */
  function DialogTitle<E>(d: Dialog<E>): string {
    if d.title.Some? && d.title.value != "" then d.title.value
    else if d.name.Some? && d.name.value != "" then d.name.value
    else ""
  }

  /** The search filter: the lowercased term occurs in the lowercased title. */
  predicate TitleMatches<E>(d: Dialog<E>, term: string) {
    Contains(Lower(DialogTitle(d)), Lower(term))
  }

  /** `search_channels`: the dialogs whose title matches, in dialog order. */
  function Search<E(==, !new)>(dialogs: seq<Dialog<E>>, term: string): (r: seq<Dialog<E>>)
    ensures |r| <= |dialogs|
    ensures forall d :: d in r <==> d in dialogs && TitleMatches(d, term)
  {
    if |dialogs| == 0 then []
    else
      var rest := Search(dialogs[1..], term);
      assert forall d :: d in dialogs <==> d == dialogs[0] || d in dialogs[1..];
      if TitleMatches(dialogs[0], term) then [dialogs[0]] + rest else rest
  }

  /** Searching a list is searching its parts, so the results keep the dialogs' order. */
  lemma {:induction false} SearchAppend<E(!new)>(a: seq<Dialog<E>>, b: seq<Dialog<E>>, term: string)
    ensures Search(a + b, term) == Search(a, term) + Search(b, term)
  {
    if |a| > 0 {
      assert (a + b)[1..] == a[1..] + b;
      SearchAppend(a[1..], b, term);
    } else {
      assert a + b == b;
    }
  }

  /** The fallback's test: the dialog's id printed equals the query, or its title matches. */
  predicate Picks<E>(d: Dialog<E>, query: string) {
    IntToString(d.id) == query || TitleMatches(d, query)
  }

  /** The dialog fallback: the entity of the first dialog that `Picks` the query. */
  function Fallback<E>(dialogs: seq<Dialog<E>>, query: string): (r: Option<E>)
    ensures r.None? <==> forall i :: 0 <= i < |dialogs| ==> !Picks(dialogs[i], query)
    ensures r.Some? ==> exists i :: 0 <= i < |dialogs| && Picks(dialogs[i], query) &&
                                   r.value == dialogs[i].entity &&
                                   forall j :: 0 <= j < i ==> !Picks(dialogs[j], query)
  {
    if |dialogs| == 0 then None
    else if Picks(dialogs[0], query) then Some(dialogs[0].entity)
    else
      var r := Fallback(dialogs[1..], query);
      assert forall i :: 1 <= i < |dialogs| ==> dialogs[1..][i - 1] == dialogs[i];
      r
  }

  /** When no dialog's id spells the query, the fallback picks the first search result. */
  lemma {:induction false} FallbackIsFirstSearchResult<E(!new)>(dialogs: seq<Dialog<E>>, query: string)
    requires forall i :: 0 <= i < |dialogs| ==> IntToString(dialogs[i].id) != query
    ensures Fallback(dialogs, query) ==
      (if |Search(dialogs, query)| == 0 then None else Some(Search(dialogs, query)[0].entity))
  {
    if |dialogs| > 0 && !Picks(dialogs[0], query) {
      FallbackIsFirstSearchResult(dialogs[1..], query);
    }
  }

  /** An empty query picks the first dialog: every title contains the empty string. */
  lemma EmptyQueryPicksFirst<E>(dialogs: seq<Dialog<E>>)
    requires |dialogs| > 0
    ensures Fallback(dialogs, "") == Some(dialogs[0].entity)
  {
    assert Lower("") == "";
    assert Lower(DialogTitle(dialogs[0]))[..0] == "";
  }

  /** The message of the exception raised when nothing names the channel; it quotes the input
      as it stood when the direct lookup failed. */
  function NotFound(query: string): (m: string)
    ensures StartsWith(m, NotFoundPrefix) && m[|NotFoundPrefix|..] == query
  {
    NotFoundPrefix + query
  }

  const NotFoundPrefix := "Could not find channel: "

  /** `get_entity_from_input`: the direct resolution of the reduced input, else the dialog
      fallback with the reduced input (the original input, for an invite link); no match raises. */
  function Resolve<E>(input: string, lookup: Key -> Lookup<E>, dialogs: seq<Dialog<E>>): (r: Result<E, string>)
    ensures Reduce(input).Invite? && r.Failure? ==> r.error == NotFound(input)
    ensures Reduce(input).Direct? && r.Failure? ==> r.error == NotFound(Reduce(input).query)
    ensures Reduce(input).Invite? ==>
      (r.Success? <==> lookup(NameKey(Reduce(input).url)).Found? || Fallback(dialogs, input).Some?)
    ensures Reduce(input).Direct? ==>
      (r.Success? <==> Attempt(Reduce(input).query, lookup).Some? || Fallback(dialogs, Reduce(input).query).Some?)
    ensures Reduce(input).Invite? && lookup(NameKey(Reduce(input).url)).Found? ==>
      r == Success(lookup(NameKey(Reduce(input).url)).entity)
    ensures Reduce(input).Invite? && !lookup(NameKey(Reduce(input).url)).Found? && Fallback(dialogs, input).Some? ==>
      r == Success(Fallback(dialogs, input).value)
    ensures Reduce(input).Direct? && Attempt(Reduce(input).query, lookup).Some? ==>
      r == Success(Attempt(Reduce(input).query, lookup).value)
    ensures Reduce(input).Direct? && Attempt(Reduce(input).query, lookup).None? && Fallback(dialogs, Reduce(input).query).Some? ==>
      r == Success(Fallback(dialogs, Reduce(input).query).value)
  {
    var plan := Reduce(input);
    var direct := if plan.Invite? then Named(plan.url, lookup) else Attempt(plan.query, lookup);
    var query := if plan.Invite? then input else plan.query;
    if direct.Some? then Success(direct.value)
    else match Fallback(dialogs, query)
      case Some(e) => Success(e)
      case None => Failure(NotFound(query))
  }

  /** Positions where `t.me/` does not start do not matter to the search. */
  lemma {:induction false} LinkTokenSkip(s: string, k: int)
    requires 0 <= k <= |s|
    requires forall j :: 0 <= j < k ==> !StartsWith(s[j..], LinkPrefix)
    ensures LinkToken(s) == LinkToken(s[k..])
    decreases k
  {
    if k > 0 {
      assert s[0..] == s;
      assert forall j :: 0 <= j < k - 1 ==> s[1..][j..] == s[j + 1..];
      LinkTokenSkip(s[1..], k - 1);
      assert s[1..][k - 1..] == s[k..];
    }
  }

  /** Text with no `t` holds no link. */
  lemma NoLinkWithoutT(s: string)
    requires 't' !in s
    ensures LinkToken(s) == None
  {
    forall j | 0 <= j < |s|
      ensures !StartsWith(s[j..], LinkPrefix)
    {
      assert s[j] in s;
      if |s[j..]| >= |LinkPrefix| {
        assert s[j..][..|LinkPrefix|][0] == s[j];
      }
    }
    LinkTokenSkip(s, |s|);
    assert !StartsWith(s[|s|..], LinkPrefix);
  }

  /** Input without a link and without a leading `@` is asked for as it is. */
  lemma ReducePlain(s: string)
    requires LinkToken(s) == None && (|s| == 0 || s[0] != '@')
    ensures Reduce(s) == Direct(s)
  {
  }

  /** A number typed as text is resolved like the number itself: its decimal form is looked
      up first as the channel id the formula gives. */
  lemma NumberInputIsAnId(n: int)
    ensures Reduce(IntToString(n)) == Direct(IntToString(n))
    ensures ParseInt(IntToString(n)) == Some(n)
  {
    var s := IntToString(n);
    IntToStringRoundTrip(n);
    assert forall i :: 0 <= i < |s| ==> s[i] != 't';
    NoLinkWithoutT(s);
    ReducePlain(s);
  }

  /** A leading `@` is dropped from input that holds no link. */
  lemma AtIsDropped(name: string)
    requires LinkToken("@" + name).None?
    ensures Reduce("@" + name) == Direct(name)
  {
    assert ("@" + name)[1..] == name;
  }

  /** A name that holds no `t` holds no link, so its leading `@` is dropped. */
  lemma AtIsDroppedWithoutT(name: string)
    requires 't' !in name
    ensures Reduce("@" + name) == Direct(name)
  {
    var s := "@" + name;
    assert forall c :: c in s ==> c == '@' || c in name;
    NoLinkWithoutT(s);
    AtIsDropped(name);
  }

  /** No `t.me/` starts inside `https://`. */
  lemma SchemeHoldsNoLink(s: string)
    requires StartsWith(s, "https://t")
    ensures forall j :: 0 <= j < |Scheme| ==> !StartsWith(s[j..], LinkPrefix)
  {
    assert s[..9] == "https://t";
    forall j | 0 <= j < |Scheme|
      ensures !StartsWith(s[j..], LinkPrefix)
    {
      assert s[j..][1] == s[j + 1] == s[..9][j + 1];
    }
  }

  /** The search starts its match at the `t.me/` after the scheme. */
  lemma LinkAfterScheme(rest: string)
    ensures LinkToken(Scheme + LinkPrefix + rest) == LinkToken(LinkPrefix + rest)
  {
    var s := Scheme + LinkPrefix + rest;
    assert s == Scheme + (LinkPrefix + rest);
    assert s[..9] == "https://t";
    SchemeHoldsNoLink(s);
    LinkTokenSkip(s, |Scheme|);
  }

  /** The pattern matched at `t.me/<name>`, followed by anything that does not extend the name
      and does not make it `joinchat/`, captures the whole name. */
  lemma TokenAfterPrefix(name: string, rest: string)
    requires |name| > 0 && forall i :: 0 <= i < |name| ==> TokenChar(name[i])
    requires |rest| > 0 ==> !TokenChar(rest[0])
    requires !StartsWith(name + rest, InvitePath)
    ensures TokenHere(LinkPrefix + (name + rest)) == Some(name)
  {
    var u := name + rest;
    var t := LinkPrefix + u;
    assert t[|LinkPrefix|..] == u;
    assert StartsWith(t, LinkPrefix);
    assert !StartsWith(t, LinkPrefix + InvitePath);
    TokenLengthOfToken(name, rest);
    assert u[..|name|] == name;
  }

  /** The pattern matched at `t.me/joinchat/<hash>`, followed by anything that does not extend
      the hash, captures the hash. */
  lemma TokenAfterInvitePath(hash: string, rest: string)
    requires |hash| > 0 && forall i :: 0 <= i < |hash| ==> TokenChar(hash[i])
    requires |rest| > 0 ==> !TokenChar(rest[0])
    ensures TokenHere(LinkPrefix + (InvitePath + hash + rest)) == Some(hash)
  {
    var t := LinkPrefix + (InvitePath + hash + rest);
    assert t[|LinkPrefix + InvitePath|..] == hash + rest;
    assert t[..|LinkPrefix|] == LinkPrefix;
    assert t[..|LinkPrefix + InvitePath|] == LinkPrefix + InvitePath;
    TokenLengthOfToken(hash, rest);
    assert (hash + rest)[..|hash|] == hash;
  }

  /** The search in a `t.me/<name>` link, bare or followed by a path such as the `/<n>` of a
      post link, finds the name, unless the name and path spell `joinchat/`. */
  lemma NameLinkToken(name: string, rest: string)
    requires |name| > 0 && forall i :: 0 <= i < |name| ==> TokenChar(name[i])
    requires |rest| > 0 ==> !TokenChar(rest[0])
    requires !StartsWith(name + rest, InvitePath)
    ensures LinkToken(Scheme + LinkPrefix + (name + rest)) == Some(name)
  {
    NameLinkAtFront(name, rest);
    LinkAfterScheme(name + rest);
  }

  /** The search in `t.me/<name>`, bare or followed by a path, finds the name there. */
  lemma NameLinkAtFront(name: string, rest: string)
    requires |name| > 0 && forall i :: 0 <= i < |name| ==> TokenChar(name[i])
    requires |rest| > 0 ==> !TokenChar(rest[0])
    requires !StartsWith(name + rest, InvitePath)
    ensures LinkToken(LinkPrefix + (name + rest)) == Some(name)
  {
    TokenAfterPrefix(name, rest);
    LinkAtFront(LinkPrefix + (name + rest));
  }

  /** The search in a `t.me/joinchat/<hash>` link, bare or followed by a path, finds the hash. */
  lemma InviteLinkToken(hash: string, rest: string)
    requires |hash| > 0 && forall i :: 0 <= i < |hash| ==> TokenChar(hash[i])
    requires |rest| > 0 ==> !TokenChar(rest[0])
    ensures LinkToken(Scheme + LinkPrefix + (InvitePath + hash + rest)) == Some(hash)
  {
    InviteLinkAtFront(hash, rest);
    LinkAfterScheme(InvitePath + hash + rest);
  }

  /** The search in `t.me/joinchat/<hash>`, bare or followed by a path, finds the hash there. */
  lemma InviteLinkAtFront(hash: string, rest: string)
    requires |hash| > 0 && forall i :: 0 <= i < |hash| ==> TokenChar(hash[i])
    requires |rest| > 0 ==> !TokenChar(rest[0])
    ensures LinkToken(LinkPrefix + (InvitePath + hash + rest)) == Some(hash)
  {
    TokenAfterInvitePath(hash, rest);
    LinkAtFront(LinkPrefix + (InvitePath + hash + rest));
  }

  /** Where the pattern matches at the front, the search captures there. */
  lemma LinkAtFront(t: string)
    requires TokenHere(t).Some?
    ensures LinkToken(t) == TokenHere(t)
  {
  }

  /** Text that starts with `joinchat/` holds `joinchat`, whatever comes before it. */
  lemma InvitePathHoldsWord(pre: string, u: string)
    requires StartsWith(u, InvitePath)
    ensures Contains(pre + u, InviteWord)
  {
    assert u == InviteWord + u[|InviteWord|..];
    ContainsMiddle(pre, InviteWord, u[|InviteWord|..]);
    assert pre + InviteWord + u[|InviteWord|..] == pre + u;
  }

  /** A `t.me/<name>` link without `joinchat`, bare or followed by a path such as the `/<n>` of a
      post link, is reduced to the name. */
  lemma LinkIsReducedToName(name: string, rest: string)
    requires |name| > 0 && forall i :: 0 <= i < |name| ==> TokenChar(name[i])
    requires |rest| > 0 ==> !TokenChar(rest[0])
    requires !Contains(Scheme + LinkPrefix + (name + rest), InviteWord)
    ensures Reduce(Scheme + LinkPrefix + (name + rest)) == Direct(name)
  {
    var u := name + rest;
    if StartsWith(u, InvitePath) {
      InvitePathHoldsWord(Scheme + LinkPrefix, u);
      assert false;
    }
    NameLinkToken(name, rest);
  }

  /** A `t.me/joinchat/<hash>` link, bare or followed by a path, is resolved as the invite link
      of the hash. */
  lemma InviteLinkIsKept(hash: string, rest: string)
    requires |hash| > 0 && forall i :: 0 <= i < |hash| ==> TokenChar(hash[i])
    requires |rest| > 0 ==> !TokenChar(rest[0])
    ensures Reduce(Scheme + LinkPrefix + (InvitePath + hash + rest)) == Invite(InviteUrl + hash)
  {
    var u := InvitePath + hash + rest;
    InviteLinkToken(hash, rest);
    assert u[..|InvitePath|] == InvitePath;
    InvitePathHoldsWord(Scheme + LinkPrefix, u);
  }
}

=== FILE: fetch_loop.dfy ===
/**
 * The batch loop both incremental downloaders run (the single-phase downloader's whole job and
 * Phase 1 of the two-phase one): ask for the next batch below the current offset, write every
 * message the moment it arrives, snapshot the counters every 25th message of a batch and after
 * every non-empty batch, retry after a rate limit, and stop on an empty batch, on the message cap,
 * or when an error or an interrupt ends the run.
 *
 * The remote iterator is a list of responses, one per request: the messages the server would
 * deliver and what happens once they are used up. Past the end of the list every request gets
 * nothing. What a message does to the downloader's inventory and files is the parameter `step`,
 * and the record a save writes is the parameter `snap`; the loop itself owns the count and the
 * offset.
 */
module FetchLoop {
  import opened Wrappers
  import opened ProgressStore

  /** How a request ends once its messages are used up: normally, with a rate-limit error, with
      any other error, or with the user's interrupt. */
  datatype Signal = Done | FloodWait(seconds: int) | Error | Interrupt

  datatype Response<M> = Response(messages: seq<M>, signal: Signal)

  /** The response to the `i`-th request; past the end of the list, an empty batch. */
  function ResponseAt<M>(responses: seq<Response<M>>, i: nat): Response<M> {
    if i < |responses| then responses[i] else Response([], Done)
  }

  /** What the iterator yields for a request with the given limit: the first messages, at most
      `limit` of them. */
  function Yielded<M>(r: Response<M>, limit: int): (ys: seq<M>)
    ensures |ys| <= |r.messages|
    ensures limit <= 0 ==> |ys| == 0
    ensures limit > 0 ==> |ys| <= limit
    ensures ys == r.messages[..|ys|]
    ensures |ys| < |r.messages| ==> limit <= |ys|
  {
    var n := if limit <= 0 then 0 else if limit < |r.messages| then limit else |r.messages|;
    r.messages[..n]
  }

  /** The signal the request ends with: an iterator that stops at its limit never reaches it. */
  function Raised<M>(r: Response<M>, limit: int): (s: Signal)
    ensures s != Done ==> |Yielded(r, limit)| == |r.messages| < limit
  {
    if |r.messages| < limit then r.signal else Done
  }

  /** Batch size and cap. A cap of `None` or `0` means no cap (the source tests it for truth). */
  datatype LoopConfig = LoopConfig(batchSize: int, maxMessages: Option<int>)

  predicate Capped(cfg: LoopConfig) {
    cfg.maxMessages.Some? && cfg.maxMessages.value != 0
  }

  /** The size of the next request: the batch size, cut down to what the cap still allows. */
  function BatchLimit(cfg: LoopConfig, total: int): (n: int)
    ensures n <= cfg.batchSize
    ensures Capped(cfg) ==> n <= cfg.maxMessages.value - total
    ensures n == cfg.batchSize || (Capped(cfg) && n == cfg.maxMessages.value - total)
  {
    if Capped(cfg) && cfg.maxMessages.value - total < cfg.batchSize then cfg.maxMessages.value - total
    else cfg.batchSize
  }

  /** The loop's running variables: the count, the offset of the next request, and the state
      `W` of whatever the messages are written to. */
  datatype Counters<W> = Counters(total: int, offset: int, writer: W)

  /** What the loop needs of a downloader: a message's id, what a message does to the writer,
      and the record a save writes. */
  datatype Hooks<!M, !W> = Hooks(idOf: M -> int, step: (W, M) -> W, snap: Counters<W> -> Progress)

  function LastIdOr<M>(idOf: M -> int, ms: seq<M>, otherwise: int): int {
    if |ms| == 0 then otherwise else idOf(ms[|ms| - 1])
  }

  /** One message through the loop: the loop counts it and moves the offset to its id; `step`
      says what becomes of the writer. */
  function Advance<M, W>(h: Hooks<M, W>, c: Counters<W>, m: M): (d: Counters<W>)
    ensures d.total == c.total + 1 && d.offset == h.idOf(m) && d.writer == h.step(c.writer, m)
  {
    Counters(c.total + 1, h.idOf(m), h.step(c.writer, m))
  }

  /** The counters after the messages `ms`, one by one. */
  function After<M, W>(h: Hooks<M, W>, start: Counters<W>, ms: seq<M>): (c: Counters<W>)
    ensures c.total == start.total + |ms|
    ensures c.offset == LastIdOr(h.idOf, ms, start.offset)
  {
    if |ms| == 0 then start else Advance(h, After(h, start, ms[..|ms| - 1]), ms[|ms| - 1])
  }

  lemma AfterSnoc<M, W>(h: Hooks<M, W>, start: Counters<W>, ms: seq<M>, m: M)
    ensures After(h, start, ms + [m]) == Advance(h, After(h, start, ms), m)
  {
    assert (ms + [m])[..|ms|] == ms;
  }

  const SaveEvery := 25

  /** The loop's saved `progress`: the loaded record until the first snapshot, then the snapshot
      of the counters after the first `covered` messages. */
  function SavedProgress<M, W>(loaded: Progress, start: Counters<W>, ms: seq<M>, covered: nat,
                            h: Hooks<M, W>): Progress
    requires covered <= |ms|
  {
    if covered == 0 then loaded else h.snap(After(h, start, ms[..covered]))
  }

  /** A message after the last snapshot leaves the saved progress as it was. */
  lemma SavedProgressLags<M, W>(loaded: Progress, start: Counters<W>, ms: seq<M>, m: M, covered: nat,
                             h: Hooks<M, W>)
    requires covered <= |ms|
    ensures SavedProgress(loaded, start, ms + [m], covered, h) == SavedProgress(loaded, start, ms, covered, h)
  {
    assert (ms + [m])[..covered] == ms[..covered];
  }

  /** A snapshot taken now covers everything delivered so far. */
  lemma SavedProgressNow<M, W>(loaded: Progress, start: Counters<W>, ms: seq<M>,
                            h: Hooks<M, W>)
    requires |ms| > 0
    ensures SavedProgress(loaded, start, ms, |ms|, h) == h.snap(After(h, start, ms))
  {
    assert ms[..|ms|] == ms;
  }

  /** The bookkeeping of the saves: `covered` messages are in the last of `saves` snapshots. */
  predicate Saved(covered: nat, saves: nat) {
    saves == 0 <==> covered == 0
  }

  /** The state of a batch after its first `j` messages, `j == 25 * q + r`: the messages delivered
      so far, the counters, the saved progress, how many messages it covers and how many saves. */
  datatype Batch<M, W> = Batch(j: nat, q: nat, r: nat, done: seq<M>, c: Counters<W>, p: Progress,
                            covered: nat, saves: nat)

  /** `b` is what the batch `ys` has made, after the messages `ms` of earlier batches, of the
      counters, progress and save count it started from. */
  predicate BatchInv<M(==), W(==)>(loaded: Progress, start: Counters<W>, ms: seq<M>, ys: seq<M>,
                            p0: Progress, covered0: nat, saves0: nat,
                            h: Hooks<M, W>, b: Batch<M, W>) {
    && b.j <= |ys| && b.done == ms + ys[..b.j]
    && b.j == SaveEvery * b.q + b.r && b.r < SaveEvery
    && b.c == After(h, start, b.done)
    && b.covered <= |b.done| && b.p == SavedProgress(loaded, start, b.done, b.covered, h)
    && Saved(b.covered, b.saves)
    && (b.q > 0 ==> b.covered == |ms| + SaveEvery * b.q)
    && (b.q == 0 ==> b.covered == covered0 && b.p == p0)
    && b.saves == saves0 + b.q
  }

  /** One message of a batch: consume it and, when it is the 25th, 50th, ... of the batch,
      snapshot the counters. */
  method ConsumeOne<M(==), W(==)>(loaded: Progress, start: Counters<W>, ms: seq<M>, ys: seq<M>,
                           p0: Progress, covered0: nat, saves0: nat,
                           h: Hooks<M, W>, b: Batch<M, W>)
    returns (b': Batch<M, W>)
    requires BatchInv(loaded, start, ms, ys, p0, covered0, saves0, h, b) && b.j < |ys|
    ensures BatchInv(loaded, start, ms, ys, p0, covered0, saves0, h, b') && b'.j == b.j + 1
    ensures b'.c == Advance(h, b.c, ys[b.j])
    ensures b'.j % SaveEvery == 0 ==> b'.p == h.snap(b'.c) && b'.saves == b.saves + 1
    ensures b'.j % SaveEvery != 0 ==> b'.p == b.p && b'.saves == b.saves
  {
    var y := ys[b.j];
    AfterSnoc(h, start, b.done, y);
    SavedProgressLags(loaded, start, b.done, y, b.covered, h);
    SliceSnoc(ms, ys, b.j);
    var j, q, r := b.j + 1, b.q, b.r + 1;
    if r == SaveEvery {
      q, r := q + 1, 0;
    }
    DivMod(j, q, r);
    var done := b.done + [y];
    var c := Advance(h, b.c, y);
    b' := Batch(j, q, r, done, c, b.p, b.covered, b.saves);
    if j % SaveEvery == 0 {
      SavedProgressNow(loaded, start, done, h);
      b' := b'.(p := h.snap(c), covered := |done|, saves := b.saves + 1);
    }
  }

  /** The messages of one request, one by one, with a snapshot after every 25th of the batch. */
  method ConsumeBatch<M(==), W(==)>(loaded: Progress, start: Counters<W>, c0: Counters<W>, p0: Progress,
                             ms: seq<M>, ys: seq<M>, covered0: nat, saves0: nat,
                             h: Hooks<M, W>)
    returns (c: Counters<W>, p: Progress, covered: nat, saves: nat)
    requires c0 == After(h, start, ms)
    requires covered0 <= |ms| && p0 == SavedProgress(loaded, start, ms, covered0, h)
    requires Saved(covered0, saves0)
    ensures c == After(h, start, ms + ys)
    ensures covered <= |ms + ys| && p == SavedProgress(loaded, start, ms + ys, covered, h)
    ensures Saved(covered, saves)
    ensures |ys| >= SaveEvery ==> covered == |ms| + |ys| - |ys| % SaveEvery
    ensures |ys| < SaveEvery ==> covered == covered0 && p == p0
    ensures saves == saves0 + |ys| / SaveEvery
    ensures covered0 == |ms| ==> |ms + ys| - covered < SaveEvery
  {
    assert ms + ys[..0] == ms;
    var b := Batch(0, 0, 0, ms, c0, p0, covered0, saves0);
    while b.j < |ys|
      invariant BatchInv(loaded, start, ms, ys, p0, covered0, saves0, h, b)
      decreases |ys| - b.j
    {
      b := ConsumeOne(loaded, start, ms, ys, p0, covered0, saves0, h, b);
    }
    DivMod(|ys|, b.q, b.r);
    assert ys[..|ys|] == ys;
    c, p, covered, saves := b.c, b.p, b.covered, b.saves;
  }

  lemma SliceSnoc<T>(ms: seq<T>, ys: seq<T>, j: int)
    requires 0 <= j < |ys|
    ensures ms + ys[..j] + [ys[j]] == ms + ys[..j + 1]
  {
    assert ys[..j + 1] == ys[..j] + [ys[j]];
  }

  /** `j == 25 * q + r` with `0 <= r < 25` is the division of `j` by 25. */
  lemma DivMod(j: int, q: int, r: int)
    requires j == SaveEvery * q + r && 0 <= r < SaveEvery
    ensures j / SaveEvery == q && j % SaveEvery == r
  {
  }

  /** How the loop ends. */
  datatype Exit = CapReached | Exhausted | Failed | Interrupted

  /** One request as the loop issued it, and what came of it. */
  datatype Request = Request(offset: int, limit: int, totalBefore: int, yielded: nat, raised: Signal)

  /** All messages the requests yielded, in order. */
  function Deliveries<M>(responses: seq<Response<M>>, reqs: seq<Request>): seq<M> {
    if |reqs| == 0 then []
    else
      var last := reqs[|reqs| - 1];
      Deliveries(responses, reqs[..|reqs| - 1]) + Yielded(ResponseAt(responses, |reqs| - 1), last.limit)
  }

  /** A request that starts where the deliveries `before` it left off, asks for the batch size
      the cap allows, and gets what the iterator gives for that limit. */
  predicate RequestFits<M, W>(cfg: LoopConfig, start: Counters<W>, responses: seq<Response<M>>, h: Hooks<M, W>,
                              before: seq<Request>, r: Request) {
    && r.totalBefore == start.total + |Deliveries(responses, before)|
    && r.offset == LastIdOr(h.idOf, Deliveries(responses, before), start.offset)
    && r.limit == BatchLimit(cfg, r.totalBefore)
    && r.yielded == |Yielded(ResponseAt(responses, |before|), r.limit)|
    && r.raised == Raised(ResponseAt(responses, |before|), r.limit)
  }

  /** Every request fits the ones before it. */
  predicate Chained<M, W>(cfg: LoopConfig, start: Counters<W>, responses: seq<Response<M>>, h: Hooks<M, W>,
                          reqs: seq<Request>) {
    |reqs| == 0 ||
    (Chained(cfg, start, responses, h, reqs[..|reqs| - 1]) &&
     RequestFits(cfg, start, responses, h, reqs[..|reqs| - 1], reqs[|reqs| - 1]))
  }

  lemma {:induction false} ChainedAt<M, W>(cfg: LoopConfig, start: Counters<W>, responses: seq<Response<M>>,
                                           h: Hooks<M, W>, reqs: seq<Request>, i: int)
    requires Chained(cfg, start, responses, h, reqs)
    requires 0 <= i < |reqs|
    ensures RequestFits(cfg, start, responses, h, reqs[..i], reqs[i])
  {
    var pre := reqs[..|reqs| - 1];
    if i < |reqs| - 1 {
      ChainedAt(cfg, start, responses, h, pre, i);
      assert pre[..i] == reqs[..i];
    }
  }

  lemma ChainExtend<M, W>(cfg: LoopConfig, start: Counters<W>, responses: seq<Response<M>>, h: Hooks<M, W>,
                          reqs: seq<Request>, r: Request)
    requires Chained(cfg, start, responses, h, reqs)
    requires RequestFits(cfg, start, responses, h, reqs, r)
    ensures Chained(cfg, start, responses, h, reqs + [r])
    ensures Deliveries(responses, reqs + [r]) == Deliveries(responses, reqs) + Yielded(ResponseAt(responses, |reqs|), r.limit)
  {
    assert (reqs + [r])[..|reqs|] == reqs;
  }

  /** Consecutive requests: the next one starts exactly where the previous one's messages
      left the count and the offset, whatever that request ended with, a rate limit included;
      nothing it delivered is asked for or counted again. */
  lemma NextRequestContinues<M, W>(cfg: LoopConfig, start: Counters<W>, responses: seq<Response<M>>, h: Hooks<M, W>,
                                   reqs: seq<Request>, i: int)
    requires Chained(cfg, start, responses, h, reqs)
    requires 0 <= i < |reqs| - 1
    ensures reqs[i + 1].totalBefore == reqs[i].totalBefore + reqs[i].yielded
    ensures reqs[i + 1].offset == LastIdOr(h.idOf, Yielded(ResponseAt(responses, i), reqs[i].limit), reqs[i].offset)
  {
    ChainedAt(cfg, start, responses, h, reqs, i);
    ChainedAt(cfg, start, responses, h, reqs, i + 1);
    var pre := reqs[..i];
    assert reqs[..i + 1][..i] == pre;
    assert Deliveries(responses, reqs[..i + 1]) ==
      Deliveries(responses, pre) + Yielded(ResponseAt(responses, i), reqs[i].limit);
  }

  /** A request after which the loop goes on: a rate limit, or a normal end with messages. */
  predicate Continued(r: Request) {
    r.raised.FloodWait? || (r.raised == Done && r.yielded > 0)
  }

  predicate AllContinued(reqs: seq<Request>) {
    forall i :: 0 <= i < |reqs| ==> Continued(reqs[i])
  }

  predicate NoFlood(reqs: seq<Request>) {
    forall i :: 0 <= i < |reqs| ==> !reqs[i].raised.FloodWait?
  }

  lemma Appended(reqs: seq<Request>, r: Request)
    ensures (reqs + [r])[..|reqs|] == reqs && (reqs + [r])[|reqs|] == r
    ensures AllContinued(reqs + [r]) <==> AllContinued(reqs) && Continued(r)
    ensures NoFlood(reqs + [r]) <==> NoFlood(reqs) && !r.raised.FloodWait?
  {
    assert forall i :: 0 <= i < |reqs| ==> (reqs + [r])[i] == reqs[i];
  }

  /** How the loop ends after a request that does not let it go on. */
  function Ending(r: Request): (e: Exit)
    requires !Continued(r)
    ensures e != CapReached
    ensures e == Exhausted <==> r.raised == Done
    ensures e == Failed <==> r.raised == Error
    ensures e == Interrupted <==> r.raised == Interrupt
  {
    match r.raised
    case Error => Failed
    case Interrupt => Interrupted
    case _ => Exhausted
  }

  /** The loop's variables between requests: the counters, the saved progress, the requests made,
      every message delivered, how many of them the saved progress covers, how many saves were
      made, and the last batch count (`None` before the first request, where the source leaves
      the variable unassigned). */
  datatype Run<M, W> = Run(c: Counters<W>, p: Progress, requests: seq<Request>, delivered: seq<M>,
                        covered: nat, saves: nat, batchCount: Option<nat>)

  /** `run` is what the requests it lists have made of `start` and the `loaded` record. */
  predicate RunInv<M(==), W(==)>(cfg: LoopConfig, loaded: Progress, start: Counters<W>, responses: seq<Response<M>>,
                          h: Hooks<M, W>, run: Run<M, W>) {
    && run.c == After(h, start, run.delivered)
    && run.covered <= |run.delivered| && run.p == SavedProgress(loaded, start, run.delivered, run.covered, h)
    && Saved(run.covered, run.saves)
    && run.delivered == Deliveries(responses, run.requests)
    && Chained(cfg, start, responses, h, run.requests)
    && (run.batchCount.None? <==> |run.requests| == 0)
    && (run.batchCount.Some? ==> run.batchCount.value == run.requests[|run.requests| - 1].yielded)
    && (Capped(cfg) && start.total <= cfg.maxMessages.value ==> run.c.total <= cfg.maxMessages.value)
    && (NoFlood(run.requests) ==> |run.delivered| - run.covered < SaveEvery)
  }

  /** One pass of the loop after the cap check: request the next batch, consume it, and save
      after a batch that ended normally with messages. */
  method Round<M(==), W(==)>(cfg: LoopConfig, loaded: Progress, start: Counters<W>, responses: seq<Response<M>>,
                      h: Hooks<M, W>, run: Run<M, W>)
    returns (run': Run<M, W>, req: Request)
    requires RunInv(cfg, loaded, start, responses, h, run)
    requires NoFlood(run.requests) ==> run.covered == |run.delivered|
    requires Capped(cfg) ==> run.c.total < cfg.maxMessages.value
    ensures RunInv(cfg, loaded, start, responses, h, run')
    ensures run'.requests == run.requests + [req]
    ensures req.offset == run.c.offset && req.totalBefore == run.c.total
    ensures |run.requests| >= |responses| ==> req.yielded == 0 && req.raised == Done
    ensures req.raised == Done && req.yielded > 0 ==> run'.covered == |run'.delivered| && run'.p == h.snap(run'.c)
    ensures req.yielded == 0 ==> run'.c == run.c && run'.covered == run.covered && run'.p == run.p
    ensures Capped(cfg) && !Continued(req) ==> run'.c.total < cfg.maxMessages.value
  {
    var limit := BatchLimit(cfg, run.c.total);
    var resp := ResponseAt(responses, |run.requests|);
    var ys := Yielded(resp, limit);
    req := Request(run.c.offset, limit, run.c.total, |ys|, Raised(resp, limit));
    ChainExtend(cfg, start, responses, h, run.requests, req);
    Appended(run.requests, req);
    var c, p, covered, saves := ConsumeBatch(loaded, start, run.c, run.p, run.delivered, ys, run.covered, run.saves, h);
    var delivered := run.delivered + ys;
    if req.raised == Done && |ys| > 0 {
      SavedProgressNow(loaded, start, delivered, h);
      p, covered, saves := h.snap(c), |delivered|, saves + 1;
    }
    if |ys| == 0 {
      assert delivered == run.delivered;
    }
    run' := Run(c, p, run.requests + [req], delivered, covered, saves, Some(|ys|));
  }

  /** How a finished loop stands: every request but the last let it go on, and `exit` is the cap
      exactly when the count reached it (the cap is checked before each request, so then every
      request let the loop go on), otherwise what the last request raised; after a normal end
      without rate limits, the last save covers every message. */
  predicate Finished<M, W>(cfg: LoopConfig, responses: seq<Response<M>>, run: Run<M, W>, exit: Exit) {
    && |run.requests| <= |responses| + 1
    && (forall i :: 0 <= i < |run.requests| - 1 ==> Continued(run.requests[i]))
    && (exit == CapReached <==> Capped(cfg) && run.c.total >= cfg.maxMessages.value)
    && (exit == CapReached ==> AllContinued(run.requests))
    && (exit != CapReached ==>
          |run.requests| > 0 && !Continued(run.requests[|run.requests| - 1]) &&
          exit == Ending(run.requests[|run.requests| - 1]))
    && (NoFlood(run.requests) && (exit == Exhausted || exit == CapReached) ==> run.covered == |run.delivered|)
  }

  /** The loop between passes: `exit` is set once it has ended. */
  datatype Loop<M, W> = Loop(run: Run<M, W>, exit: Option<Exit>)

  predicate LoopInv<M(==), W(==)>(cfg: LoopConfig, loaded: Progress, start: Counters<W>, responses: seq<Response<M>>,
                           h: Hooks<M, W>, lp: Loop<M, W>) {
    && RunInv(cfg, loaded, start, responses, h, lp.run)
    && (Capped(cfg) && start.total >= cfg.maxMessages.value ==> |lp.run.requests| == 0)
    && (lp.exit.None? ==>
          && AllContinued(lp.run.requests)
          && (NoFlood(lp.run.requests) ==> lp.run.covered == |lp.run.delivered|)
          && |lp.run.requests| <= |responses|)
    && (lp.exit.Some? ==> Finished(cfg, responses, lp.run, lp.exit.value))
  }

  /** The cap check's way out: once the count has reached a truthy cap the loop ends with no
      further request. */
  method Stop<M(==), W(==)>(cfg: LoopConfig, loaded: Progress, start: Counters<W>, responses: seq<Response<M>>,
                     h: Hooks<M, W>, lp: Loop<M, W>)
    returns (lp': Loop<M, W>)
    requires LoopInv(cfg, loaded, start, responses, h, lp) && lp.exit.None?
    requires Capped(cfg) && lp.run.c.total >= cfg.maxMessages.value
    ensures LoopInv(cfg, loaded, start, responses, h, lp')
    ensures lp'.run == lp.run && lp'.exit == Some(CapReached)
  {
    lp' := Loop(lp.run, Some(CapReached));
  }

  /** A pass under the cap: one request, after which the loop goes on exactly when the request
      let it. */
  method Proceed<M(==), W(==)>(cfg: LoopConfig, loaded: Progress, start: Counters<W>, responses: seq<Response<M>>,
                         h: Hooks<M, W>, lp: Loop<M, W>)
    returns (lp': Loop<M, W>)
    requires LoopInv(cfg, loaded, start, responses, h, lp) && lp.exit.None?
    requires Capped(cfg) ==> lp.run.c.total < cfg.maxMessages.value
    ensures LoopInv(cfg, loaded, start, responses, h, lp')
    ensures |lp'.run.requests| == |lp.run.requests| + 1
  {
    var run := lp.run;
    assert |run.requests| == 0 ==> run.delivered == [] && run.c == start;
    var run', req := Round(cfg, loaded, start, responses, h, run);
    Appended(run.requests, req);
    if Continued(req) {
      lp' := Loop(run', None);
    } else {
      lp' := Loop(run', Some(Ending(req)));
    }
  }

  /** One pass of the loop: the cap check, then a request unless the cap is reached. */
  method Turn<M(==), W(==)>(cfg: LoopConfig, loaded: Progress, start: Counters<W>, responses: seq<Response<M>>,
                     h: Hooks<M, W>, lp: Loop<M, W>)
    returns (lp': Loop<M, W>)
    requires LoopInv(cfg, loaded, start, responses, h, lp) && lp.exit.None?
    ensures LoopInv(cfg, loaded, start, responses, h, lp')
    ensures |lp.run.requests| <= |lp'.run.requests| <= |lp.run.requests| + 1
    ensures lp'.exit.None? ==> |lp'.run.requests| == |lp.run.requests| + 1
  {
    if Capped(cfg) && lp.run.c.total >= cfg.maxMessages.value {
      lp' := Stop(cfg, loaded, start, responses, h, lp);
    } else {
      lp' := Proceed(cfg, loaded, start, responses, h, lp);
    }
  }

  /** The loop of `download_messages_incremental`, from the counters `start` and the `loaded`
      progress record until it ends. It makes no request at all exactly when the count it starts
      from is already at a truthy cap. */
  method RunLoop<M(==), W(==)>(cfg: LoopConfig, loaded: Progress, start: Counters<W>, responses: seq<Response<M>>,
                        h: Hooks<M, W>)
    returns (run: Run<M, W>, exit: Exit)
    ensures RunInv(cfg, loaded, start, responses, h, run)
    ensures Finished(cfg, responses, run, exit)
    ensures |run.requests| == 0 <==> Capped(cfg) && start.total >= cfg.maxMessages.value
  {
    var lp := Loop(Run(start, loaded, [], [], 0, 0, None), None);
    while lp.exit.None?
      invariant LoopInv(cfg, loaded, start, responses, h, lp)
      decreases |responses| - |lp.run.requests| + (if lp.exit.None? then 1 else 0)
    {
      lp := Turn(cfg, loaded, start, responses, h, lp);
    }
    run, exit := lp.run, lp.exit.value;
  }
}

=== FILE: html.dfy ===
/**
 * The HTML block the two-phase downloader writes for one record (`write_message_to_html`):
 * escaped sender and text, a media block chosen from the path's extension or the pending
 * flag, and a footer with the non-zero counters.
 */
module Html {
  import opened Wrappers
  import opened Text
  import opened Messages

  /** `html.escape` with quoting on: the five markup-significant characters become entities. */
  function EscapeChar(c: char): (r: string)
    ensures |r| > 0
    ensures forall i :: 0 <= i < |r| ==> !Markup(r[i])
    ensures r != [c] <==> c == '&' || Markup(c)
  {
    if c == '&' then "&amp;"
    else if c == '<' then "&lt;"
    else if c == '>' then "&gt;"
    else if c == '"' then "&quot;"
    else if c == '\'' then "&#x27;"
    else [c]
  }

  predicate Markup(c: char) { c == '<' || c == '>' || c == '"' || c == '\'' }

  function Escape(s: string): (r: string)
    ensures forall i :: 0 <= i < |r| ==> !Markup(r[i])
  {
    if |s| == 0 then []
    else EscapeChar(s[0]) + Escape(s[1..])
  }

  /** Reads the five entities back; any other character stands for itself. */
  function Unescape(s: string): string
    decreases |s|
  {
    if |s| == 0 then []
    else if s[0] == '&' && StartsWith(s, "&amp;") then "&" + Unescape(s[5..])
    else if s[0] == '&' && StartsWith(s, "&lt;") then "<" + Unescape(s[4..])
    else if s[0] == '&' && StartsWith(s, "&gt;") then ">" + Unescape(s[4..])
    else if s[0] == '&' && StartsWith(s, "&quot;") then "\"" + Unescape(s[6..])
    else if s[0] == '&' && StartsWith(s, "&#x27;") then "'" + Unescape(s[6..])
    else [s[0]] + Unescape(s[1..])
  }

  /** Escaping loses nothing: the escaped text reads back as the original. */
  lemma {:induction false} EscapeRoundTrip(s: string)
    ensures Unescape(Escape(s)) == s
  {
    if |s| > 0 {
      EscapeRoundTrip(s[1..]);
      UnescapeEntity(s[0], Escape(s[1..]));
      assert s == [s[0]] + s[1..];
    }
  }

  lemma UnescapeEntity(c: char, t: string)
    ensures Unescape(EscapeChar(c) + t) == [c] + Unescape(t)
  {
    var e := EscapeChar(c);
    assert (e + t)[..|e|] == e;
    assert (e + t)[|e|..] == t;
    if c == '&' {
      assert StartsWith(e + t, "&amp;");
    } else if c == '<' {
      assert (e + t)[1] == 'l';
      assert !StartsWith(e + t, "&amp;");
      assert StartsWith(e + t, "&lt;");
    } else if c == '>' {
      assert (e + t)[1] == 'g';
      assert !StartsWith(e + t, "&amp;") && !StartsWith(e + t, "&lt;");
      assert StartsWith(e + t, "&gt;");
    } else if c == '"' {
      assert (e + t)[1] == 'q';
      assert !StartsWith(e + t, "&amp;") && !StartsWith(e + t, "&lt;") && !StartsWith(e + t, "&gt;");
      assert StartsWith(e + t, "&quot;");
    } else if c == '\'' {
      assert (e + t)[1] == '#';
      assert !StartsWith(e + t, "&amp;") && !StartsWith(e + t, "&lt;") && !StartsWith(e + t, "&gt;");
      assert !StartsWith(e + t, "&quot;");
      assert StartsWith(e + t, "&#x27;");
    } else {
      assert (e + t)[0] == c;
    }
  }

  /** `"name (@username)"` when the record has a non-empty username, else the name, `Unknown`
      when the record has no sender keys. */
  function SenderDisplay(r: Record): (d: string)
    ensures r.sender.None? ==> d == "Unknown"
    ensures r.sender.Some? && r.sender.value.username.Some? && r.sender.value.username.value != "" ==>
      d == r.sender.value.name + " (@" + r.sender.value.username.value + ")"
    ensures r.sender.Some? && (r.sender.value.username.None? || r.sender.value.username.value == "") ==>
      d == r.sender.value.name
  {
    match r.sender
    case None => "Unknown"
    case Some(f) =>
      match f.username
      case Some(u) => if u != "" then f.name + " (@" + u + ")" else f.name
      case None => f.name
  }

  function DateDisplay(r: Record): string {
    match r.date
    case Some(t) => if t.iso != "" then t.display else "Unknown date"
    case None => "Unknown date"
  }

  predicate EndsWithAny(s: string, suffixes: seq<string>) {
    exists i :: 0 <= i < |suffixes| && EndsWith(s, suffixes[i])
  }

  const ImageExtensions: seq<string> := [".jpg", ".jpeg", ".png", ".gif", ".webp"]
  const VideoExtensions: seq<string> := [".mp4", ".webm", ".mov"]

  datatype MediaBlock =
    | NoMediaBlock
    | ImageBlock(src: string)
    | VideoBlock(src: string)
    | AttachmentBlock(href: string)
    | PendingBlock(kind: MediaKind)

  /** A record the renderer accepts: one flagged as having media carries its kind
      (the source would fail on `None.capitalize()` otherwise). */
  predicate Renderable(r: Record) {
    r.hasMedia == Some(true) ==> r.mediaType.Some?
  }

  /** The media block: with a non-empty path, an image for a photo or an image extension,
      a video for a video extension, an attachment link otherwise; with media but no path,
      the pending placeholder; nothing else. */
  function ChooseMedia(r: Record): (b: MediaBlock)
    requires Renderable(r)
    ensures b.ImageBlock? <==>
      (r.mediaPath.Some? && r.mediaPath.value != "" &&
       (r.mediaType == Some(Photo) || EndsWithAny(Lower(r.mediaPath.value), ImageExtensions)))
    ensures b.VideoBlock? <==>
      (r.mediaPath.Some? && r.mediaPath.value != "" &&
       r.mediaType != Some(Photo) && !EndsWithAny(Lower(r.mediaPath.value), ImageExtensions) &&
       EndsWithAny(Lower(r.mediaPath.value), VideoExtensions))
    ensures b.AttachmentBlock? <==>
      (r.mediaPath.Some? && r.mediaPath.value != "" &&
       r.mediaType != Some(Photo) && !EndsWithAny(Lower(r.mediaPath.value), ImageExtensions) &&
       !EndsWithAny(Lower(r.mediaPath.value), VideoExtensions))
    ensures b.PendingBlock? <==> (r.mediaPath.None? || r.mediaPath.value == "") && r.hasMedia == Some(true)
    ensures b.ImageBlock? || b.VideoBlock? || b.AttachmentBlock? ==> MediaSource(b) == r.mediaPath.value
  {
    match r.mediaPath
    case Some(p) =>
      if p != "" then
        if r.mediaType == Some(Photo) || EndsWithAny(Lower(p), ImageExtensions) then ImageBlock(p)
        else if EndsWithAny(Lower(p), VideoExtensions) then VideoBlock(p)
        else AttachmentBlock(p)
      else if r.hasMedia == Some(true) then PendingBlock(r.mediaType.value)
      else NoMediaBlock
    case None =>
      if r.hasMedia == Some(true) then PendingBlock(r.mediaType.value) else NoMediaBlock
  }

  function MediaSource(b: MediaBlock): string
    requires b.ImageBlock? || b.VideoBlock? || b.AttachmentBlock?
  {
    match b
    case ImageBlock(s) => s
    case VideoBlock(s) => s
    case AttachmentBlock(s) => s
  }

  /** `str.capitalize()` of the three kind names. */
  function KindLabel(k: MediaKind): string {
    match k
    case Photo => "Photo"
    case Document => "Document"
    case OtherMedia => "Other"
  }

  const MediaOpen := "\n            <div class=\"message-media\">\n"
  const MediaEnd := "            </div>\n"
  const ImageOpen := MediaOpen + "                <img src=\""
  const ImageClose := "\" alt=\"Image\" loading=\"lazy\">\n" + MediaEnd
  const VideoOpen := MediaOpen + "                <video controls>\n                    <source src=\""
  const VideoClose := "\" type=\"video/mp4\">\n                    Your browser does not support the video tag.\n"
    + "                </video>\n" + MediaEnd
  const PlaceholderOpen := MediaOpen + "                <div class=\"media-placeholder\">\n                    \U{1F4CE} "
  const PlaceholderClose := "\n                </div>\n" + MediaEnd
  const AttachmentOpen := PlaceholderOpen + "Attachment: <a href=\""

  function MediaMarkup(b: MediaBlock): string {
    match b
    case NoMediaBlock => ""
    case ImageBlock(p) => ImageOpen + Escape(p) + ImageClose
    case VideoBlock(p) => VideoOpen + Escape(p) + VideoClose
    case AttachmentBlock(p) => AttachmentOpen + Escape(p) + ("\">" + Escape(Basename(p)) + "</a>" + PlaceholderClose)
    case PendingBlock(k) => PlaceholderOpen + KindLabel(k) + " (not downloaded yet)" + PlaceholderClose
  }

  /** The counters footer: present exactly when views or forwards is non-zero, with one line
      per non-zero counter. */
  function FooterMarkup(r: Record): (f: string)
    ensures f != "" <==> r.views.GetOr(0) != 0 || r.forwards.GetOr(0) != 0
  {
    var views := r.views.GetOr(0);
    var forwards := r.forwards.GetOr(0);
    if views != 0 || forwards != 0 then
      "\n            <div class=\"message-footer\">\n"
      + (if views != 0 then "                <span>\U{1F441} " + IntToString(views) + " views</span>\n" else "")
      + (if forwards != 0 then "                <span>\U{2197}\U{FE0F} " + IntToString(forwards) + " forwards</span>\n" else "")
      + "            </div>\n"
    else ""
  }

  function TextDiv(r: Record): string {
    "<div class=\"message-text\">" + Escape(r.text.GetOr("")) + "</div>"
  }

  function SenderSpan(r: Record): string {
    "<span class=\"sender\">" + Escape(SenderDisplay(r)) + "</span>"
  }

  function HeaderLines(r: Record): string {
    "\n        <div class=\"message\" data-message-id=\"" + IntToString(r.id) + "\">\n"
    + "            <div class=\"message-header\">\n"
    + ("                " + SenderSpan(r) + "\n")
    + ("                <span class=\"date\">" + DateDisplay(r) + "</span>\n"
    + "            </div>\n")
  }

  /** The whole block of one record. */
  function RenderBlock(r: Record): string
    requires Renderable(r)
  {
    HeaderLines(r) + ("            " + TextDiv(r) + "\n") + MediaMarkup(ChooseMedia(r)) + FooterMarkup(r) + "        </div>\n"
  }

  /** The block carries the message text and the sender display only in escaped form, and
      each escaped form reads back as the original. */
  lemma TextIsEscapedInBlock(r: Record)
    requires Renderable(r)
    ensures Contains(RenderBlock(r), TextDiv(r))
    ensures Contains(RenderBlock(r), SenderSpan(r))
    ensures Unescape(Escape(r.text.GetOr(""))) == r.text.GetOr("")
    ensures Unescape(Escape(SenderDisplay(r))) == SenderDisplay(r)
  {
    var media := MediaMarkup(ChooseMedia(r));
    var footer := FooterMarkup(r);
    var end := "        </div>\n";
    ContainsItself(TextDiv(r));
    ContainsLeft("            ", TextDiv(r), TextDiv(r));
    ContainsRight("            " + TextDiv(r), "\n", TextDiv(r));
    ContainsLeft(HeaderLines(r), "            " + TextDiv(r) + "\n", TextDiv(r));
    ContainsRight(HeaderLines(r) + ("            " + TextDiv(r) + "\n"), media, TextDiv(r));
    ContainsRight(HeaderLines(r) + ("            " + TextDiv(r) + "\n") + media, footer, TextDiv(r));
    ContainsRight(HeaderLines(r) + ("            " + TextDiv(r) + "\n") + media + footer, end, TextDiv(r));

    var open := "\n        <div class=\"message\" data-message-id=\"" + IntToString(r.id) + "\">\n"
      + "            <div class=\"message-header\">\n";
    var date := "                <span class=\"date\">" + DateDisplay(r) + "</span>\n" + "            </div>\n";
    ContainsItself(SenderSpan(r));
    ContainsLeft("                ", SenderSpan(r), SenderSpan(r));
    ContainsRight("                " + SenderSpan(r), "\n", SenderSpan(r));
    ContainsLeft(open, "                " + SenderSpan(r) + "\n", SenderSpan(r));
    ContainsRight(open + ("                " + SenderSpan(r) + "\n"), date, SenderSpan(r));
    var rest := ("            " + TextDiv(r) + "\n");
    ContainsRight(HeaderLines(r), rest, SenderSpan(r));
    ContainsRight(HeaderLines(r) + rest, media, SenderSpan(r));
    ContainsRight(HeaderLines(r) + rest + media, footer, SenderSpan(r));
    ContainsRight(HeaderLines(r) + rest + media + footer, end, SenderSpan(r));
    EscapeRoundTrip(r.text.GetOr(""));
    EscapeRoundTrip(SenderDisplay(r));
  }

  /** A file's markup carries the escaped path as its source or link. */
  lemma MediaMarkupHasSource(b: MediaBlock)
    requires b.ImageBlock? || b.VideoBlock? || b.AttachmentBlock?
    ensures Contains(MediaMarkup(b), Escape(MediaSource(b)))
  {
    match b
    case ImageBlock(p) => ContainsMiddle(ImageOpen, Escape(p), ImageClose);
    case VideoBlock(p) => ContainsMiddle(VideoOpen, Escape(p), VideoClose);
    case AttachmentBlock(p) =>
      ContainsMiddle(AttachmentOpen, Escape(p), "\">" + Escape(Basename(p)) + "</a>" + PlaceholderClose);
  }

  /** A message with a downloaded file links that file's path, escaped, from its block. */
  lemma MediaPathIsEscaped(r: Record)
    requires Renderable(r)
    requires r.mediaPath.Some? && r.mediaPath.value != ""
    ensures Contains(RenderBlock(r), Escape(r.mediaPath.value))
  {
    var b := ChooseMedia(r);
    var e := Escape(r.mediaPath.value);
    MediaMarkupHasSource(b);
    var front := HeaderLines(r) + ("            " + TextDiv(r) + "\n");
    ContainsLeft(front, MediaMarkup(b), e);
    ContainsRight(front + MediaMarkup(b), FooterMarkup(r), e);
    ContainsRight(front + MediaMarkup(b) + FooterMarkup(r), "        </div>\n", e);
  }
}

=== FILE: incremental.dfy ===
/**
 * `download_messages_incremental` of the single-phase downloader: name the job afresh, load
 * its progress record, open the CSV and JSON files, run the batch loop, and on every way out
 * close the array and save the current offset and count.
 */
module Incremental {
  import opened Wrappers
  import opened Messages
  import opened Sinks
  import opened ProgressStore
  import opened FetchLoop
  import opened Writing
  import opened Resume

  /** The arguments of one call. */
  datatype Options = Options(format: string, downloadMedia: bool, batchSize: int, maxMessages: Option<int>, resume: bool)

  /** What a call leaves behind: the closed files, the progress directory, and the loop's run. */
  datatype Outcome = Outcome(files: Files, dir: seq<ProgressFile>, run: Run<Message, Writer>, exit: Exit)

  /** The job's base name: the safe form of the channel title (`unknown` without one), then the
      timestamp of this call. */
  function JobBase(title: Option<string>, stamp: string): string {
    FreshBase(title.GetOr("unknown"), stamp)
  }

  /** The record the job starts from: the stored one when resuming, else the zero record. */
  function Loaded(dir: seq<ProgressFile>, name: string, resume: bool): Result<Progress, LoadError> {
    if resume then LoadLegacy(dir, name) else Success(LegacyStart)
  }

  /** The run. `responses` is what the server answers to each request, `enc` the JSON text of a
      record. The loop's run is what those answers made of the loaded counters; it makes no
      request exactly when the loaded count is already at a truthy cap. */
  method Download(title: Option<string>, stamp: string, dir: seq<ProgressFile>, opts: Options,
                  responses: seq<Response<Message>>, enc: Record -> string)
    returns (r: Result<Outcome, LoadError>)
    ensures r.Failure? <==> Loaded(dir, ProgressName(JobBase(title, stamp)), opts.resume).Failure?
    ensures r.Success? ==>
      var name := ProgressName(JobBase(title, stamp));
      var loaded := Loaded(dir, name, opts.resume).value;
      var o := r.value;
      var ms := o.run.delivered;
      && o.run.c.total == loaded.totalDownloaded + |ms|
      && o.run.c.offset == LastIdOr((m: Message) => m.id, ms, loaded.lastMessageId)
      && Find(o.dir, name) == Some(ProgressFile(name, Some(Progress(o.run.c.offset, o.run.c.total, None, None, None))))
      && (forall n :: n != name ==> Find(o.dir, n) == Find(dir, n))
      && o.files == Finalize(WriteAll(OpenLegacy(opts.format), Records(SinglePhase(opts.downloadMedia), ms),
                                      loaded.totalDownloaded == 0, enc))
      && RunInv(LoopConfig(opts.batchSize, opts.maxMessages), loaded, Start(loaded, [], OpenLegacy(opts.format)),
                responses, HooksOf(SinglePhase(opts.downloadMedia), enc), o.run)
      && Finished(LoopConfig(opts.batchSize, opts.maxMessages), responses, o.run, o.exit)
      && (|o.run.requests| == 0 <==> Capped(LoopConfig(opts.batchSize, opts.maxMessages)) && loaded.totalDownloaded >= opts.maxMessages.value)
  {
    var name := ProgressName(JobBase(title, stamp));
    var ld := Loaded(dir, name, opts.resume);
    if ld.Failure? {
      return Failure(ld.error);
    }
    var loaded := ld.value;
    var v := SinglePhase(opts.downloadMedia);
    var h := HooksOf(v, enc);
    var start := Start(loaded, [], OpenLegacy(opts.format));
    var cfg := LoopConfig(opts.batchSize, opts.maxMessages);
    var run, exit := RunLoop(cfg, loaded, start, responses, h);
    AfterWrites(v, enc, start, run.delivered);
    var files := Finalize(run.c.writer.sinks);
    var dir' := Store(dir, name, Progress(run.c.offset, run.c.total, None, None, None));
    r := Success(Outcome(files, dir', run, exit));
  }
}

=== FILE: incremental_v2.dfy ===
/**
 * `download_messages_incremental` of the two-phase downloader. Phase 1 streams the text of
 * every message to the open files and records which messages carry media; Phase 2, when the
 * user asks for it, fetches the media those messages still lack. A progress record ties runs
 * together: its `media_downloaded` flag and the offset heuristic decide which phases run.
 */
module TwoPhaseDownload {
  import opened Wrappers
  import opened Text
  import opened Messages
  import opened Inventory
  import opened Sinks
  import opened ProgressStore
  import opened FetchLoop
  import opened Writing
  import opened Resume

  /** The arguments of one call; `later` is `download_media_later`. */
  datatype Options = Options(format: string, later: bool, batchSize: int, maxMessages: Option<int>, resume: bool)

  /** `text_download_complete`: a stored offset of at most 10 with messages already counted is
      taken to mean the oldest messages were reached. */
  predicate TextAlreadyDone(p: Progress) {
    p.lastMessageId <= 10 && p.totalDownloaded > 0
  }

  /** Phase 1 runs unless the media are marked downloaded or the text is taken to be complete. */
  predicate RunsPhaseOne(p: Progress) {
    !p.mediaDownloaded.GetOr(false) && !TextAlreadyDone(p)
  }

  /** Phase 2 is offered when media are wanted later, some were recorded, and they are not
      marked downloaded. */
  predicate OffersPhaseTwo(later: bool, inv: seq<int>, p: Progress) {
    later && |inv| > 0 && !p.mediaDownloaded.GetOr(false)
  }

  /** How Phase 1 ends: the closed files, the loop's run and why it stopped; `saved` is the
      record the final block writes, or `None` when that block fails because no batch was ever
      requested and the batch count it reads was never set. */
  datatype PhaseOneEnd = PhaseOneEnd(files: Files, run: Run<Message, Writer>, exit: Exit, saved: Option<Progress>)

  /** The closed files after the records of `ms`: Phase 1 records always render. */
  function Closed(format: string, ms: seq<Message>, fromZero: bool, enc: Record -> string): Files {
    var rs := Records(TwoPhase, ms);
    TwoPhaseRecordsRender(ms);
    assert [] + rs == rs;
    Finalize(WriteAll(OpenTwoPhase(format), rs, fromZero, enc))
  }

  /** What the loop leaves for the final block: the last saved record counts the messages up
      to the last snapshot and moves the offset to the last of them (it is the loaded record when
      there was none), the inventory has recorded every delivered media id in order, and the files
      hold every delivered record. */
  lemma LoopLeaves(loaded: Progress, inv: seq<int>, format: string, enc: Record -> string, run: Run<Message, Writer>)
    requires run.c == After(HooksOf(TwoPhase, enc), Start(loaded, inv, OpenTwoPhase(format)), run.delivered)
    requires run.covered <= |run.delivered|
    requires run.p == SavedProgress(loaded, Start(loaded, inv, OpenTwoPhase(format)), run.delivered, run.covered, HooksOf(TwoPhase, enc))
    ensures run.p.totalDownloaded == loaded.totalDownloaded + run.covered
    ensures run.p.lastMessageId == LastIdOr((m: Message) => m.id, run.delivered[..run.covered], loaded.lastMessageId)
    ensures run.covered == 0 ==> run.p == loaded
    ensures run.covered > 0 ==> run.p.textComplete.None?
    ensures run.c.writer.inventory == TrackAll(inv, MediaIds(run.delivered))
    ensures run.c.writer.sinks == WriteAll(OpenTwoPhase(format), Records(TwoPhase, run.delivered), loaded.totalDownloaded == 0, enc)
  {
    var h := HooksOf(TwoPhase, enc);
    var start := Start(loaded, inv, OpenTwoPhase(format));
    AfterWrites(TwoPhase, enc, start, run.delivered);
    if run.covered > 0 {
      assert run.p == Snapshot(TwoPhase, After(h, start, run.delivered[..run.covered]));
    }
  }

  /** The record Phase 1's final block saves from the loop's last saved record: `text_complete`
      when the last batch was empty, `media_downloaded` when media are not wanted later, and
      the current inventory. */
  function FinalRecord(p: Progress, batchCount: nat, later: bool, inv: seq<int>): (q: Progress)
    ensures q.totalDownloaded == p.totalDownloaded && q.lastMessageId == p.lastMessageId
    ensures q.mediaIds == Some(inv) && q.mediaDownloaded == Some(!later)
    ensures batchCount == 0 ==> q.textComplete == Some(true)
    ensures batchCount != 0 ==> q.textComplete == p.textComplete
  {
    WithInventory(p.(textComplete := if batchCount == 0 then Some(true) else p.textComplete,
                     mediaDownloaded := Some(!later)), inv)
  }

  /** What Phase 1 leaves, from the loaded record `loaded` and inventory `inv`: the loop's run
      is what the server's `responses` made of the starting counters, the closed files hold
      every delivered record, and the inventory every delivered media id. The final block fails
      exactly when no request was made, which happens exactly when the loaded count is already
      at a truthy cap; otherwise it saves the last saved record, marked up. */
  predicate PhaseOneDone(cfg: LoopConfig, loaded: Progress, inv: seq<int>, format: string, later: bool,
                         responses: seq<Response<Message>>, enc: Record -> string, e: PhaseOneEnd) {
    var ms := e.run.delivered;
    && RunInv(cfg, loaded, Start(loaded, inv, OpenTwoPhase(format)), responses, HooksOf(TwoPhase, enc), e.run)
    && Finished(cfg, responses, e.run, e.exit)
    && e.run.c.total == loaded.totalDownloaded + |ms|
    && e.run.c.offset == LastIdOr((m: Message) => m.id, ms, loaded.lastMessageId)
    && e.run.c.writer.inventory == TrackAll(inv, MediaIds(ms))
    && e.files == Closed(format, ms, loaded.totalDownloaded == 0, enc)
    && (e.saved.None? <==> |e.run.requests| == 0)
    && (e.saved.None? <==> Capped(cfg) && loaded.totalDownloaded >= cfg.maxMessages.value)
    && (e.saved.Some? ==>
          var p := e.saved.value;
          && p.totalDownloaded == loaded.totalDownloaded + e.run.covered
          && p.lastMessageId == LastIdOr((m: Message) => m.id, ms[..e.run.covered], loaded.lastMessageId)
          && p.mediaIds == Some(TrackAll(inv, MediaIds(ms)))
          && p.mediaDownloaded == Some(!later)
          && (e.run.batchCount == Some(0) ==> p.textComplete == Some(true))
          && (e.run.batchCount != Some(0) && e.run.covered > 0 ==> p.textComplete.None?)
          && (e.run.batchCount != Some(0) && e.run.covered == 0 ==> p.textComplete == loaded.textComplete))
    && (e.saved.Some? && NoFlood(e.run.requests) && (e.exit == Exhausted || e.exit == CapReached) ==>
          e.saved.value.totalDownloaded == e.run.c.total && e.saved.value.lastMessageId == e.run.c.offset)
  }

  /** Phase 1. Whatever ends the loop, the files are closed; then the final block saves. */
  method PhaseOne(cfg: LoopConfig, loaded: Progress, inv: seq<int>, format: string, later: bool,
                  responses: seq<Response<Message>>, enc: Record -> string)
    returns (e: PhaseOneEnd)
    ensures PhaseOneDone(cfg, loaded, inv, format, later, responses, enc, e)
  {
    var h := HooksOf(TwoPhase, enc);
    var start := Start(loaded, inv, OpenTwoPhase(format));
    var run, exit := RunLoop(cfg, loaded, start, responses, h);
    LoopLeaves(loaded, inv, format, enc, run);
    var files := Closed(format, run.delivered, loaded.totalDownloaded == 0, enc);
    if run.batchCount.None? {
      return PhaseOneEnd(files, run, exit, None);
    }
    if run.covered == |run.delivered| {
      assert run.delivered[..run.covered] == run.delivered;
    }
    e := PhaseOneEnd(files, run, exit, Some(FinalRecord(run.p, run.batchCount.value, later, run.c.writer.inventory)));
  }

  /** A record Phase 1 saved decides the next run's Phase 1 by the offset heuristic alone:
      `text_complete` is never consulted, and media not wanted later stop it for good. */
  lemma NextPhaseOne(e: PhaseOneEnd, later: bool)
    requires e.saved.Some? && e.saved.value.mediaDownloaded == Some(!later)
    ensures RunsPhaseOne(e.saved.value) <==> later && !TextAlreadyDone(e.saved.value)
    ensures forall b: Option<bool> :: RunsPhaseOne(e.saved.value.(textComplete := b)) == RunsPhaseOne(e.saved.value)
  {
  }

  /** What a request for one message's media comes to: a saved file; media the download
      returned from without writing a file (a web preview, a poll, a location); a message that
      has no media or is gone; a rate limit; or any other error. */
  datatype MediaFetch = MediaSaved | NothingWritten | NoMedia | RateLimited | FetchError

  /** The pass counts a fetch when the message had media and the download returned. */
  predicate Counted(f: MediaFetch) {
    f.MediaSaved? || f.NothingWritten?
  }

  /** A fetch leaves a file in the media directory only when it saved one. */
  predicate Written(f: MediaFetch) {
    f.MediaSaved?
  }

  /** The name a saved media file gets: the message id, `_`, and the rest (the timestamp and
      the extension the client adds). */
  function MediaName(id: int, rest: string): (name: string)
    ensures LeadingId(name) == Some(id)
  {
    MediaNameAnnouncesId(id, rest);
    IntToString(id) + "_" + rest
  }

  /** The ids of `rs` whose fetch outcome is `wanted`, in order. */
  function IdsWhere(rs: seq<int>, fetch: int -> MediaFetch, wanted: MediaFetch -> bool): (ids: seq<int>)
    ensures |ids| <= |rs|
    ensures forall x :: x in ids <==> x in rs && wanted(fetch(x))
    ensures |ids| == |rs| <==> forall i :: 0 <= i < |rs| ==> wanted(fetch(rs[i]))
  {
    if |rs| == 0 then []
    else
      var pre := rs[..|rs| - 1];
      var x := rs[|rs| - 1];
      var ids := IdsWhere(pre, fetch, wanted);
      assert rs == pre + [x];
      assert forall i :: 0 <= i < |pre| ==> pre[i] == rs[i];
      if wanted(fetch(x)) then ids + [x] else ids
  }

  /** Every written id is counted, so a pass never names more files than it counts. */
  lemma {:induction false} WrittenAreCounted(rs: seq<int>, fetch: int -> MediaFetch)
    ensures |IdsWhere(rs, fetch, Written)| <= |IdsWhere(rs, fetch, Counted)|
  {
    if |rs| > 0 {
      WrittenAreCounted(rs[..|rs| - 1], fetch);
    }
  }

  /** The file names of the written ids. */
  function NamesOf(ids: seq<int>, rest: int -> string): (names: seq<string>)
    ensures |names| == |ids|
    ensures forall i :: 0 <= i < |ids| ==> names[i] == MediaName(ids[i], rest(ids[i]))
  {
    seq(|ids|, i requires 0 <= i < |ids| => MediaName(ids[i], rest(ids[i])))
  }

  lemma NamesOfSnoc(ids: seq<int>, id: int, rest: int -> string)
    ensures NamesOf(ids + [id], rest) == NamesOf(ids, rest) + [MediaName(id, rest(id))]
  {
  }

  /** The pass over `rs` as it goes: the count so far and the names of the files written. */
  function Pass(rs: seq<int>, fetch: int -> MediaFetch, rest: int -> string): (nat, seq<string>) {
    if |rs| == 0 then (0, [])
    else
      var before := Pass(rs[..|rs| - 1], fetch, rest);
      var id := rs[|rs| - 1];
      var f := fetch(id);
      (if Counted(f) then before.0 + 1 else before.0,
       if Written(f) then before.1 + [MediaName(id, rest(id))] else before.1)
  }

  lemma PassStep(rs: seq<int>, i: int, fetch: int -> MediaFetch, rest: int -> string)
    requires 0 <= i < |rs|
    ensures Pass(rs[..i + 1], fetch, rest).0 == Pass(rs[..i], fetch, rest).0 + (if Counted(fetch(rs[i])) then 1 else 0)
    ensures Written(fetch(rs[i])) ==>
      Pass(rs[..i + 1], fetch, rest).1 == Pass(rs[..i], fetch, rest).1 + [MediaName(rs[i], rest(rs[i]))]
    ensures !Written(fetch(rs[i])) ==> Pass(rs[..i + 1], fetch, rest).1 == Pass(rs[..i], fetch, rest).1
  {
    assert rs[..i + 1][..i] == rs[..i];
  }

  /** The pass counts exactly the counted ids and names exactly the files of the written ones. */
  lemma {:induction false} PassIsSaved(rs: seq<int>, fetch: int -> MediaFetch, rest: int -> string)
    ensures Pass(rs, fetch, rest).0 == |IdsWhere(rs, fetch, Counted)|
    ensures Pass(rs, fetch, rest).1 == NamesOf(IdsWhere(rs, fetch, Written), rest)
  {
    if |rs| > 0 {
      var pre := rs[..|rs| - 1];
      PassIsSaved(pre, fetch, rest);
      NamesOfSnoc(IdsWhere(pre, fetch, Written), rs[|rs| - 1], rest);
    }
  }

  /** The Phase-2 pass over the remaining ids: each is requested once, in order; a fetch of a
      message with media counts whether or not a file was written, anything else is skipped and
      never retried. Returns the count and the names of the files written. */
  method FetchMedia(remaining: seq<int>, fetch: int -> MediaFetch, rest: int -> string)
    returns (count: nat, files: seq<string>)
    ensures count == |IdsWhere(remaining, fetch, Counted)|
    ensures files == NamesOf(IdsWhere(remaining, fetch, Written), rest)
  {
    count, files := 0, [];
    var i := 0;
    while i < |remaining|
      invariant 0 <= i <= |remaining|
      invariant count == Pass(remaining[..i], fetch, rest).0
      invariant files == Pass(remaining[..i], fetch, rest).1
    {
      var id := remaining[i];
      PassStep(remaining, i, fetch, rest);
      if Written(fetch(id)) {
        files := files + [MediaName(id, rest(id))];
      }
      if Counted(fetch(id)) {
        count := count + 1;
      }
      i := i + 1;
    }
    assert remaining[..i] == remaining;
    PassIsSaved(remaining, fetch, rest);
  }

  /** Every written id is recognised on disk by its file's name, and no other id is. */
  lemma ExistingIdsOfNames(ids: seq<int>, rest: int -> string, x: int)
    ensures x in ExistingIds(NamesOf(ids, rest)) <==> x in ids
  {
    var names := NamesOf(ids, rest);
    if x in ids {
      var i :| 0 <= i < |ids| && ids[i] == x;
      assert LeadingId(names[i]) == Some(x);
    }
    if x in ExistingIds(names) {
      var i :| 0 <= i < |names| && LeadingId(names[i]) == Some(x);
      assert x == ids[i];
    }
  }

  /** An id is found on disk in two listings together when it is found in either. */
  lemma ExistingIdsAppend(a: seq<string>, b: seq<string>, x: int)
    ensures x in ExistingIds(a + b) <==> x in ExistingIds(a) || x in ExistingIds(b)
  {
    var ab := a + b;
    if x in ExistingIds(ab) {
      var i :| 0 <= i < |ab| && LeadingId(ab[i]) == Some(x);
      if i < |a| {
        assert ab[i] == a[i];
      } else {
        assert ab[i] == b[i - |a|];
      }
    }
    if x in ExistingIds(a) {
      var i :| 0 <= i < |a| && LeadingId(a[i]) == Some(x);
      assert ab[i] == a[i];
    }
    if x in ExistingIds(b) {
      var i :| 0 <= i < |b| && LeadingId(b[i]) == Some(x);
      assert ab[|a| + i] == b[i];
    }
  }

  /** How Phase 2 ends: not offered or declined, nothing left to fetch, or a pass over the
      remaining ids that counted `count` fetches and wrote the files `files`. */
  datatype PhaseTwoEnd = Declined | NothingLeft | Fetched(remaining: seq<int>, count: nat, files: seq<string>)

  /** Phase 2 is done when there was nothing left or the count reached the number of remaining
      ids. */
  predicate MediaComplete(e: PhaseTwoEnd) {
    e.NothingLeft? || (e.Fetched? && e.count == |e.remaining|)
  }

  /** What Phase 2 leaves, given the current record `p`, inventory `inv`, the confirmation
      `answer` and the names `media` in the media directory: it is declined unless offered and
      confirmed; otherwise it fetches the ids not on disk, counting those whose message had
      media and adding the files written. It completes exactly when nothing was left or every
      remaining id was counted, and only then saves the record with `media_downloaded` set. */
  predicate PhaseTwoDone(later: bool, inv: seq<int>, p: Progress, answer: string, media: seq<string>,
                         dir: seq<ProgressFile>, name: string, fetch: int -> MediaFetch, rest: int -> string,
                         e: PhaseTwoEnd, dir': seq<ProgressFile>, media': seq<string>) {
    && (e.Declined? <==> !OffersPhaseTwo(later, inv, p) || Lower(answer) != "y")
    && (e.NothingLeft? <==> !e.Declined? && |Remaining(inv, ExistingIds(media))| == 0)
    && (e.Fetched? ==>
          && e.remaining == Remaining(inv, ExistingIds(media)) && |e.remaining| > 0
          && e.count == |IdsWhere(e.remaining, fetch, Counted)|
          && e.files == NamesOf(IdsWhere(e.remaining, fetch, Written), rest)
          && |e.files| <= e.count
          && media' == media + e.files)
    && (!e.Fetched? ==> media' == media)
    && (MediaComplete(e) <==>
          e.NothingLeft? || (e.Fetched? && forall i :: 0 <= i < |e.remaining| ==> Counted(fetch(e.remaining[i]))))
    && (MediaComplete(e) ==> dir' == Store(dir, name, WithInventory(p.(mediaDownloaded := Some(true)), inv)))
    && (!MediaComplete(e) ==> dir' == dir)
  }

  /** Phase 2. When it completes, the record is saved with `media_downloaded` set; otherwise
      the directory of progress files is left as it was. */
  method PhaseTwo(later: bool, inv: seq<int>, p: Progress, answer: string, media: seq<string>,
                  dir: seq<ProgressFile>, name: string, fetch: int -> MediaFetch, rest: int -> string)
    returns (e: PhaseTwoEnd, dir': seq<ProgressFile>, media': seq<string>)
    ensures PhaseTwoDone(later, inv, p, answer, media, dir, name, fetch, rest, e, dir', media')
  {
    dir', media' := dir, media;
    if !OffersPhaseTwo(later, inv, p) || Lower(answer) != "y" {
      return Declined, dir', media';
    }
    var remaining := Remaining(inv, ExistingIds(media));
    var done := WithInventory(p.(mediaDownloaded := Some(true)), inv);
    if |remaining| == 0 {
      return NothingLeft, Store(dir, name, done), media';
    }
    var count, files := FetchMedia(remaining, fetch, rest);
    WrittenAreCounted(remaining, fetch);
    e := Fetched(remaining, count, files);
    media' := media + files;
    if count == |remaining| {
      dir' := Store(dir, name, done);
    }
  }

  /** After a pass, the next run's remaining list holds exactly the ids this pass wrote no file
      for: a rate-limited or failed id stays to be fetched, and so does one that was counted
      without a file; a written one is found on disk. */
  lemma NextRemaining(inv: seq<int>, media: seq<string>, fetch: int -> MediaFetch, rest: int -> string)
    ensures var remaining := Remaining(inv, ExistingIds(media));
      var media' := media + NamesOf(IdsWhere(remaining, fetch, Written), rest);
      forall x :: x in Remaining(inv, ExistingIds(media')) <==> x in remaining && !Written(fetch(x))
  {
    var remaining := Remaining(inv, ExistingIds(media));
    var written := IdsWhere(remaining, fetch, Written);
    var media' := media + NamesOf(written, rest);
    forall x
      ensures x in Remaining(inv, ExistingIds(media')) <==> x in remaining && !Written(fetch(x))
    {
      ExistingIdsAppend(media, NamesOf(written, rest), x);
      ExistingIdsOfNames(written, rest, x);
    }
  }

  /** A pass can complete, and so mark the media downloaded, while an id it counted without
      writing a file stays in the remaining list. */
  lemma CompleteWithoutFile(id: int, rest: int -> string)
    ensures var fetch := (x: int) => NothingWritten;
      var written := IdsWhere([id], fetch, Written);
      && MediaComplete(Fetched([id], |IdsWhere([id], fetch, Counted)|, NamesOf(written, rest)))
      && Remaining([id], ExistingIds(NamesOf(written, rest))) == [id]
  {
    var fetch := (x: int) => NothingWritten;
    assert IdsWhere([id], fetch, Written) == [];
    assert NamesOf([], rest) == [];
  }

  /** Where the files of a call come from: whether to resume, the server's answers to the
      text batches and to media requests, and the rest of each new media file's name. */
  datatype Server = Server(responses: seq<Response<Message>>, fetch: int -> MediaFetch, rest: int -> string)

  /** The user's answers: the resume menu and the Phase-2 confirmation. */
  datatype Answers = Answers(menu: string, confirm: string)

  /** What escapes a call: an unreadable progress file, or the failure of Phase 1's final block
      (after it closed the files). */
  datatype Raised = LoadFailed(error: LoadError) | Unassigned(files: Files)

  /** What a call leaves behind: the job's base name, the progress directory, the media names,
      and the ends of the phases that ran. */
  datatype Outcome = Outcome(base: string, dir: seq<ProgressFile>, media: seq<string>,
                             phaseOne: Option<PhaseOneEnd>, phaseTwo: PhaseTwoEnd)

  /** The base name: when resuming and earlier jobs match the title, the menu may pick one;
      otherwise the safe title and the timestamp. */
  function JobBase(title: Option<string>, stamp: string, dir: seq<ProgressFile>, resume: bool, menu: string): (base: string)
    ensures var t := title.GetOr("unknown");
      && (base == FreshBase(t, stamp) || exists e :: e in FindExisting(dir, t) && base == e.base)
      && (!resume || |FindExisting(dir, t)| == 0 ==> base == FreshBase(t, stamp))
      && (resume && |FindExisting(dir, t)| > 0 ==> base == ChooseBase(FindExisting(dir, t), menu, FreshBase(t, stamp)))
      && (resume && NamesJob(FindExisting(dir, t), menu) ==> base == FindExisting(dir, t)[ParseInt(menu).value - 1].base)
      && (!NamesJob(FindExisting(dir, t), menu) ==> base == FreshBase(t, stamp))
  {
    var t := title.GetOr("unknown");
    var minted := FreshBase(t, stamp);
    var found := FindExisting(dir, t);
    if resume && |found| > 0 then ChooseBase(found, menu, minted) else minted
  }

  /** The whole call: name the job, load its record and inventory (the zero record and an
      empty inventory when not resuming), run Phase 1 if the record calls for it and save its
      final record, then offer Phase 2 with the record and inventory as they then stand. The
      call raises from Phase 1's final block exactly when Phase 1 runs from a count already at
      a truthy cap, after closing files that hold no record. */
  method Download(title: Option<string>, stamp: string, dir: seq<ProgressFile>, media: seq<string>,
                  opts: Options, answers: Answers, server: Server, enc: Record -> string)
    returns (r: Result<Outcome, Raised>)
    ensures var base := JobBase(title, stamp, dir, opts.resume, answers.menu);
      var name := ProgressName(base);
      var ld := if opts.resume then LoadTwoPhase(dir, name, []) else Success((TwoPhaseStart, []));
      var cfg := LoopConfig(opts.batchSize, opts.maxMessages);
      && (ld.Failure? ==> r == Failure(LoadFailed(ld.error)))
      && (ld.Success? ==>
           var p0 := ld.value.0;
           var inv0 := ld.value.1;
           && (r.Failure? <==> RunsPhaseOne(p0) && Capped(cfg) && p0.totalDownloaded >= cfg.maxMessages.value)
           && (r.Failure? ==> r.error == Unassigned(Closed(opts.format, [], p0.totalDownloaded == 0, enc)))
           && (r.Success? ==>
                var o := r.value;
                && o.base == base
                && (o.phaseOne.Some? <==> RunsPhaseOne(p0))
                && (o.phaseOne.Some? ==>
                      && PhaseOneDone(cfg, p0, inv0, opts.format, opts.later, server.responses, enc, o.phaseOne.value)
                      && o.phaseOne.value.saved.Some?)
                && var p1 := if o.phaseOne.Some? then o.phaseOne.value.saved.value else p0;
                   var inv1 := if o.phaseOne.Some? then o.phaseOne.value.run.c.writer.inventory else inv0;
                   var dir1 := if o.phaseOne.Some? then Store(dir, name, p1) else dir;
                   PhaseTwoDone(opts.later, inv1, p1, answers.confirm, media, dir1, name, server.fetch, server.rest,
                                o.phaseTwo, o.dir, o.media)))
  {
    var base := JobBase(title, stamp, dir, opts.resume, answers.menu);
    var name := ProgressName(base);
    var ld := if opts.resume then LoadTwoPhase(dir, name, []) else Success((TwoPhaseStart, []));
    if ld.Failure? {
      return Failure(LoadFailed(ld.error));
    }
    var p := ld.value.0;
    var inv := ld.value.1;
    var dir' := dir;
    var one: Option<PhaseOneEnd> := None;
    if RunsPhaseOne(p) {
      var cfg := LoopConfig(opts.batchSize, opts.maxMessages);
      var e := PhaseOne(cfg, p, inv, opts.format, opts.later, server.responses, enc);
      if e.saved.None? {
        assert e.run.delivered == [];
        return Failure(Unassigned(e.files));
      }
      p := e.saved.value;
      inv := e.run.c.writer.inventory;
      dir' := Store(dir', name, p);
      one := Some(e);
    }
    var two, dir'', media' := PhaseTwo(opts.later, inv, p, answers.confirm, media, dir', name, server.fetch, server.rest);
    r := Success(Outcome(base, dir'', media', one, two));
  }
}

=== FILE: inventory.dfy ===
/**
 * The media inventory of the two-phase downloader: the ids of messages known to carry an
 * attachment, appended when first seen, and the Phase-2 reconciliation that drops the ids
 * whose files are already in the media directory.
 */
module Inventory {
  import opened Wrappers
  import opened Text
  import opened Messages

  predicate Distinct(s: seq<int>) {
    forall i, j :: 0 <= i < j < |s| ==> s[i] != s[j]
  }

  /** Appends `id` unless it is already present. */
  function Track(inv: seq<int>, id: int): (r: seq<int>)
    ensures id in r
    ensures |inv| <= |r| && r[..|inv|] == inv
  {
    if id in inv then inv else inv + [id]
  }

  /** Recording an id twice is the same as recording it once, a known id changes nothing,
      and a duplicate-free inventory stays duplicate-free, growing by one exactly for a new id. */
  lemma TrackIsIdempotent(inv: seq<int>, id: int)
    ensures Track(Track(inv, id), id) == Track(inv, id)
    ensures id in inv ==> Track(inv, id) == inv
    ensures Distinct(inv) ==> Distinct(Track(inv, id))
    ensures |Track(inv, id)| == if id in inv then |inv| else |inv| + 1
    ensures forall x :: x in Track(inv, id) <==> x in inv || x == id
  {
  }

  /** The inventory after recording `ids` one after another. */
  function TrackAll(inv: seq<int>, ids: seq<int>): seq<int> {
    if |ids| == 0 then inv else Track(TrackAll(inv, ids[..|ids| - 1]), ids[|ids| - 1])
  }

  /** The ids of the messages that carry media, in delivery order. */
  function MediaIds(ms: seq<Message>): (ids: seq<int>)
    ensures |ids| <= |ms|
  {
    if |ms| == 0 then []
    else MediaIds(ms[..|ms| - 1]) + (if ms[|ms| - 1].media.Some? then [ms[|ms| - 1].id] else [])
  }

  /** What the two-phase parser does to the inventory for one message (media tracking on). */
  function TrackMedia(inv: seq<int>, m: Message): seq<int> {
    if m.media.Some? then Track(inv, m.id) else inv
  }

  lemma MediaIdsSnoc(ms: seq<Message>, m: Message)
    ensures MediaIds(ms + [m]) == MediaIds(ms) + (if m.media.Some? then [m.id] else [])
  {
    assert (ms + [m])[..|ms|] == ms;
  }

  lemma TrackAllSnoc(inv: seq<int>, ids: seq<int>, id: int)
    ensures TrackAll(inv, ids + [id]) == Track(TrackAll(inv, ids), id)
  {
    assert (ids + [id])[..|ids|] == ids;
  }

  lemma TrackMediaStep(inv0: seq<int>, ms: seq<Message>, m: Message)
    ensures TrackAll(inv0, MediaIds(ms + [m])) == TrackMedia(TrackAll(inv0, MediaIds(ms)), m)
  {
    MediaIdsSnoc(ms, m);
    if m.media.Some? {
      TrackAllSnoc(inv0, MediaIds(ms), m.id);
    } else {
      assert MediaIds(ms + [m]) == MediaIds(ms);
    }
  }

  /** Recording a sequence of ids keeps the old inventory as a prefix, never creates a
      duplicate, and ends up holding exactly the old ids and the recorded ones. */
  lemma {:induction false} TrackAllKeepsDistinct(inv: seq<int>, ids: seq<int>)
    requires Distinct(inv)
    ensures Distinct(TrackAll(inv, ids))
    ensures |inv| <= |TrackAll(inv, ids)| && TrackAll(inv, ids)[..|inv|] == inv
    ensures forall x :: x in TrackAll(inv, ids) <==> x in inv || x in ids
  {
    if |ids| > 0 {
      var pre := ids[..|ids| - 1];
      TrackAllKeepsDistinct(inv, pre);
      var t := TrackAll(inv, pre);
      TrackIsIdempotent(t, ids[|ids| - 1]);
      assert ids == pre + [ids[|ids| - 1]];
      assert Track(t, ids[|ids| - 1])[..|inv|] == t[..|inv|];
    }
  }

  /** First-discovery order: a duplicate-free inventory extended by `ids` is the list of distinct
      ids of `inv + ids` in the order each first appears. */
  lemma {:induction false} TrackAllIsFirstDiscovery(inv: seq<int>, ids: seq<int>)
    requires Distinct(inv)
    ensures TrackAll(inv, ids) == TrackAll([], inv + ids)
  {
    if |ids| == 0 {
      assert inv + ids == inv;
      DistinctTracksToItself(inv);
    } else {
      var pre := ids[..|ids| - 1];
      TrackAllIsFirstDiscovery(inv, pre);
      assert inv + ids == (inv + pre) + [ids[|ids| - 1]];
      TrackAllSnoc([], inv + pre, ids[|ids| - 1]);
    }
  }

  lemma {:induction false} DistinctTracksToItself(inv: seq<int>)
    requires Distinct(inv)
    ensures TrackAll([], inv) == inv
  {
    if |inv| > 0 {
      var pre := inv[..|inv| - 1];
      var last := inv[|inv| - 1];
      DistinctSplit(inv);
      DistinctTracksToItself(pre);
      TrackAllSnoc([], pre, last);
    }
  }

  /** A duplicate-free sequence is a duplicate-free prefix and a last id not in it. */
  lemma DistinctSplit(inv: seq<int>)
    requires Distinct(inv) && |inv| > 0
    ensures Distinct(inv[..|inv| - 1])
    ensures inv[|inv| - 1] !in inv[..|inv| - 1]
    ensures inv == inv[..|inv| - 1] + [inv[|inv| - 1]]
  {
  }

  /** The message id a media file name announces: the text before the first `_`, when the
      name has one and that text parses as an integer. */
  function LeadingId(name: string): Option<int> {
    if '_' in name then ParseInt(BeforeFirst(name, '_')) else None
  }

  /** The ids already on disk: every file name's leading id; other names are ignored. */
  function ExistingIds(names: seq<string>): (r: set<int>)
    ensures forall n :: n in r <==> exists i :: 0 <= i < |names| && LeadingId(names[i]) == Some(n)
  {
    if |names| == 0 then {}
    else
      var pre := ExistingIds(names[..|names| - 1]);
      var last := names[|names| - 1];
      var r := pre + (match LeadingId(last) case Some(k) => {k} case None => {});
      assert forall i :: 0 <= i < |names| - 1 ==> names[..|names| - 1][i] == names[i];
      r
  }

  /** The media still to fetch: the inventory without the ids already on disk, in inventory order. */
  function Remaining(inv: seq<int>, existing: set<int>): (r: seq<int>)
    ensures |r| <= |inv|
    ensures forall x :: x in r <==> x in inv && x !in existing
    ensures Distinct(inv) ==> Distinct(r)
  {
    if |inv| == 0 then []
    else
      var rest := Remaining(inv[1..], existing);
      assert forall x :: x in inv[1..] ==> x in inv;
      if inv[0] in existing then rest else [inv[0]] + rest
  }

  /** Filtering is taken piece by piece, so the remaining list keeps the inventory's order. */
  lemma {:induction false} RemainingKeepsOrder(a: seq<int>, b: seq<int>, existing: set<int>)
    ensures Remaining(a + b, existing) == Remaining(a, existing) + Remaining(b, existing)
  {
    if |a| > 0 {
      assert (a + b)[1..] == a[1..] + b;
      RemainingKeepsOrder(a[1..], b, existing);
    } else {
      assert a + b == b;
    }
  }

  /** A media file saved under the name `<id>_<anything>` is recognised as the file of that id. */
  lemma MediaNameAnnouncesId(id: int, rest: string)
    ensures LeadingId(IntToString(id) + "_" + rest) == Some(id)
  {
    var name := IntToString(id) + "_" + rest;
    assert name[|IntToString(id)|] == '_';
    BeforeFirstPrefix(IntToString(id), rest);
    IntToStringRoundTrip(id);
  }

  lemma {:induction false} BeforeFirstPrefix(s: string, rest: string)
    requires forall i :: 0 <= i < |s| ==> s[i] != '_'
    ensures BeforeFirst(s + "_" + rest, '_') == s
  {
    if |s| > 0 {
      assert (s + "_" + rest)[1..] == s[1..] + "_" + rest;
      BeforeFirstPrefix(s[1..], rest);
    }
  }
}

=== FILE: messages.dfy ===
/**
 * Messages as the chat client delivers them and the flat records every downloader builds
 * from them (`_parse_message`). The record keeps the keys of the source's dictionary as
 * explicit optional fields: `hasMedia` is absent outside the two-phase downloader and the
 * two sender keys are absent unless the sender is a user, a channel or a chat.
 */
module Messages {
  import opened Wrappers
  import opened Text

  /** A timestamp, opaque: its ISO form and the form the HTML page displays. */
  datatype Stamp = Stamp(iso: string, display: string)

  /** The attachment classes the downloaders tell apart. */
  datatype MediaKind = Photo | Document | OtherMedia

  datatype Sender =
    | NoSender
    | UserSender(firstName: Option<string>, lastName: Option<string>, username: Option<string>)
    | ChannelSender(title: string, username: Option<string>)
    | ChatSender(title: string)
    | OtherSender

  /** One message from the remote iterator. `download` is what fetching its attachment
      yields: the saved path, or `None` when the client saves nothing or the fetch fails. */
  datatype Message = Message(
    id: int,
    date: Option<Stamp>,
    text: Option<string>,
    senderId: Option<int>,
    replyTo: Option<int>,
    forwards: Option<int>,
    views: Option<int>,
    editDate: Option<Stamp>,
    sender: Sender,
    media: Option<MediaKind>,
    download: Option<string>)

  datatype SenderFields = SenderFields(name: string, username: Option<string>)

  /** The record written to every sink. */
  datatype Record = Record(
    id: int,
    date: Option<Stamp>,
    text: Option<string>,
    senderId: Option<int>,
    replyTo: Option<int>,
    forwards: Option<int>,
    views: Option<int>,
    editDate: Option<Stamp>,
    mediaType: Option<MediaKind>,
    mediaPath: Option<string>,
    hasMedia: Option<bool>,
    sender: Option<SenderFields>)

  /** The sender keys: a user's first and last name joined by a space and stripped, a channel's
      or chat's title; no keys at all for a missing sender or any other kind. */
  function SenderFieldsOf(s: Sender): (r: Option<SenderFields>)
    ensures r.None? <==> (s.NoSender? || s.OtherSender?)
    ensures s.UserSender? ==> r == Some(SenderFields(Strip(s.firstName.GetOr("") + " " + s.lastName.GetOr("")), s.username))
    ensures s.ChannelSender? ==> r == Some(SenderFields(s.title, s.username))
    ensures s.ChatSender? ==> r == Some(SenderFields(s.title, None))
  {
    match s
    case UserSender(first, last, username) =>
      Some(SenderFields(Strip(first.GetOr("") + " " + last.GetOr("")), username))
    case ChannelSender(title, username) => Some(SenderFields(title, username))
    case ChatSender(title) => Some(SenderFields(title, None))
    case _ => None
  }

  /** The keys every variant fills the same way. */
  function BaseRecord(m: Message): Record {
    Record(m.id, m.date, m.text, m.senderId, m.replyTo, m.forwards, m.views, m.editDate,
           None, None, None, SenderFieldsOf(m.sender))
  }

  /** The two-phase downloader's record: `has_media` always present, the kind classified whenever
      there is media, and a `media/<basename>` path only when a download was asked for and
      returned a non-empty path. */
  function ParseTwoPhase(m: Message, downloadMedia: bool): (r: Record)
    ensures r.id == m.id && r.text == m.text && r.views == m.views && r.forwards == m.forwards
    ensures r.hasMedia == Some(m.media.Some?)
    ensures r.mediaType.Some? <==> m.media.Some?
    ensures r.mediaType.Some? ==> r.mediaType == m.media
    ensures r.mediaPath.Some? <==> downloadMedia && m.media.Some? && m.download.Some? && m.download.value != ""
    ensures r.mediaPath.Some? ==> r.mediaPath.value == "media/" + Basename(m.download.value)
    ensures r.sender == SenderFieldsOf(m.sender)
  {
    var path :=
      if downloadMedia && m.media.Some? && m.download.Some? && m.download.value != ""
      then Some("media/" + Basename(m.download.value))
      else None;
    BaseRecord(m).(mediaType := m.media, mediaPath := path, hasMedia := Some(m.media.Some?))
  }

  /** The single-phase incremental downloader's record: no `has_media` key, the kind classified
      whenever there is media, and the client's path stored as returned when a download was asked for. */
  function ParseLegacy(m: Message, downloadMedia: bool): (r: Record)
    ensures r.id == m.id && r.hasMedia.None?
    ensures r.mediaType == m.media
    ensures r.mediaPath == (if downloadMedia && m.media.Some? then m.download else None)
    ensures r.sender == SenderFieldsOf(m.sender)
  {
    BaseRecord(m).(mediaType := m.media, mediaPath := if downloadMedia && m.media.Some? then m.download else None)
  }

  /** The advanced downloader's record: kind and path both stay `None` unless there is media
      and a download was asked for. */
  function ParseAdvanced(m: Message, downloadMedia: bool): (r: Record)
    ensures r.id == m.id && r.hasMedia.None?
    ensures r.mediaType.Some? <==> downloadMedia && m.media.Some?
    ensures r.mediaType.Some? ==> r.mediaType == m.media
    ensures r.mediaPath.Some? ==> downloadMedia && m.media.Some? && r.mediaPath == m.download
    ensures r.sender == SenderFieldsOf(m.sender)
  {
    if m.media.Some? && downloadMedia then BaseRecord(m).(mediaType := m.media, mediaPath := m.download)
    else BaseRecord(m)
  }

  /** The basic downloader's record: as the advanced one, but with no sender keys ever. */
  function ParseBasic(m: Message, downloadMedia: bool): (r: Record)
    ensures r.id == m.id && r.hasMedia.None? && r.sender.None?
    ensures r.mediaType.Some? <==> downloadMedia && m.media.Some?
    ensures r.mediaPath.Some? ==> downloadMedia && m.media.Some? && r.mediaPath == m.download
  {
    var base := BaseRecord(m).(sender := None);
    if m.media.Some? && downloadMedia then base.(mediaType := m.media, mediaPath := m.download)
    else base
  }

  /** How the four parsers relate: the basic record is the advanced one without sender keys;
      with downloads on, the single-phase and advanced records coincide; the two incremental
      downloaders classify media the same way whether or not anything is downloaded. */
  lemma ParsersAgree(m: Message, downloadMedia: bool)
    ensures ParseBasic(m, downloadMedia) == ParseAdvanced(m, downloadMedia).(sender := None)
    ensures ParseLegacy(m, true) == ParseAdvanced(m, true)
    ensures ParseLegacy(m, downloadMedia).mediaType == ParseTwoPhase(m, downloadMedia).mediaType
    ensures !downloadMedia ==> ParseAdvanced(m, downloadMedia) == ParseBasic(m, downloadMedia).(sender := SenderFieldsOf(m.sender))
  {
  }

  /** One CSV cell: a dictionary key and the text the CSV writer emits for its value. */
  datatype Field = Field(key: string, value: string)

  function IntCell(v: Option<int>): string {
    match v
    case Some(n) => IntToString(n)
    case None => ""
  }

  function TextCell(v: Option<string>): string { v.GetOr("") }

  function StampCell(v: Option<Stamp>): string {
    match v
    case Some(t) => t.iso
    case None => ""
  }

  function KindName(k: MediaKind): string {
    match k
    case Photo => "photo"
    case Document => "document"
    case OtherMedia => "other"
  }

  function KindCell(v: Option<MediaKind>): string {
    match v
    case Some(k) => KindName(k)
    case None => ""
  }

  function BoolCell(b: bool): string { if b then "True" else "False" }

  /** The record as the source's dictionary: keys in insertion order, values as the CSV writer
      renders them (`None` as an empty cell). */
  function Fields(r: Record): seq<Field> {
    BaseFields(r) + FlagFields(r) + SenderKeys(r)
  }

  /** The ten keys every record has. */
  function BaseFields(r: Record): seq<Field> {
    [ Field("id", IntToString(r.id)),
      Field("date", StampCell(r.date)),
      Field("text", TextCell(r.text)),
      Field("sender_id", IntCell(r.senderId)),
      Field("reply_to_msg_id", IntCell(r.replyTo)),
      Field("forwards", IntCell(r.forwards)),
      Field("views", IntCell(r.views)),
      Field("edit_date", StampCell(r.editDate)),
      Field("media_type", KindCell(r.mediaType)),
      Field("media_path", TextCell(r.mediaPath)) ]
  }

  /** `has_media`, which only Phase 1 records carry. */
  function FlagFields(r: Record): seq<Field> {
    match r.hasMedia case Some(b) => [Field("has_media", BoolCell(b))] case None => []
  }

  /** The sender keys, present exactly when a sender was resolved. */
  function SenderKeys(r: Record): seq<Field> {
    match r.sender
    case Some(f) => [Field("sender_name", f.name), Field("sender_username", TextCell(f.username))]
    case None => []
  }

  function Keys(fs: seq<Field>): (ks: seq<string>)
    ensures |ks| == |fs|
    ensures forall i :: 0 <= i < |fs| ==> ks[i] == fs[i].key
  {
    if |fs| == 0 then [] else [fs[0].key] + Keys(fs[1..])
  }
}

=== FILE: progress.dfy ===
/**
 * The progress record of a job and the directory of `<base>_progress.json` files it lives in.
 * A save overwrites the whole file; a load reads it back or falls back to a zero record.
 */
module ProgressStore {
  import opened Wrappers

  /** The keys of a progress file. The single-phase downloader writes only the first two;
      the two-phase one adds the media flag and inventory, and `text_complete` at the end of Phase 1. */
  datatype Progress = Progress(
    lastMessageId: int,
    totalDownloaded: int,
    mediaDownloaded: Option<bool>,
    mediaIds: Option<seq<int>>,
    textComplete: Option<bool>)

  /** A file in the output directory; `content` is `None` when the file does not hold a readable record. */
  datatype ProgressFile = ProgressFile(name: string, content: Option<Progress>)

  datatype LoadError = Unreadable(name: string)

  /** What the single-phase downloader starts from when there is no progress file. */
  const LegacyStart := Progress(0, 0, None, None, None)

  /** What the two-phase downloader starts from when there is no progress file. */
  const TwoPhaseStart := Progress(0, 0, Some(false), Some([]), None)

  /** The first file of the directory with the given name. */
  function Find(dir: seq<ProgressFile>, name: string): (r: Option<ProgressFile>)
    ensures r.Some? ==> r.value in dir && r.value.name == name
    ensures r.None? <==> forall f :: f in dir ==> f.name != name
  {
    if |dir| == 0 then None
    else if dir[0].name == name then Some(dir[0])
    else Find(dir[1..], name)
  }

  /** `load_progress` of the single-phase downloader: the stored record, or the zero record
      when no file exists; an unreadable file raises. */
  function LoadLegacy(dir: seq<ProgressFile>, name: string): (r: Result<Progress, LoadError>)
    ensures (forall f :: f in dir ==> f.name != name) ==> r == Success(LegacyStart)
    ensures r.Failure? <==> Find(dir, name).Some? && Find(dir, name).value.content.None?
    ensures r.Success? && Find(dir, name).Some? ==> Find(dir, name).value.content == Some(r.value)
  {
    match Find(dir, name)
    case None => Success(LegacyStart)
    case Some(f) =>
      match f.content
      case Some(p) => Success(p)
      case None => Failure(Unreadable(name))
  }

  /** `load_progress` of the two-phase downloader: the stored record together with the inventory
      it replaces the in-memory one with (empty when the key is missing); with no file, the zero
      record and the in-memory inventory untouched. */
  function LoadTwoPhase(dir: seq<ProgressFile>, name: string, inv: seq<int>): (r: Result<(Progress, seq<int>), LoadError>)
    ensures (forall f :: f in dir ==> f.name != name) ==> r == Success((TwoPhaseStart, inv))
    ensures r.Failure? <==> Find(dir, name).Some? && Find(dir, name).value.content.None?
    ensures r.Success? && Find(dir, name).Some? ==>
      Find(dir, name).value.content == Some(r.value.0) && r.value.1 == r.value.0.mediaIds.GetOr([])
  {
    match Find(dir, name)
    case None => Success((TwoPhaseStart, inv))
    case Some(f) =>
      match f.content
      case Some(p) => Success((p, p.mediaIds.GetOr([])))
      case None => Failure(Unreadable(name))
  }

  /** `save_progress` of the two-phase downloader stamps the current inventory into the record. */
  function WithInventory(p: Progress, inv: seq<int>): (r: Progress)
    ensures r.mediaIds == Some(inv)
    ensures r.lastMessageId == p.lastMessageId && r.totalDownloaded == p.totalDownloaded
    ensures r.mediaDownloaded == p.mediaDownloaded && r.textComplete == p.textComplete
  {
    p.(mediaIds := Some(inv))
  }

  /** Writes a record under `name`, replacing the whole file or creating it. */
  function Store(dir: seq<ProgressFile>, name: string, p: Progress): (r: seq<ProgressFile>)
    ensures Find(r, name) == Some(ProgressFile(name, Some(p)))
    ensures forall n :: n != name ==> Find(r, n) == Find(dir, n)
  {
    if |dir| == 0 then [ProgressFile(name, Some(p))]
    else if dir[0].name == name then [ProgressFile(name, Some(p))] + dir[1..]
    else [dir[0]] + Store(dir[1..], name, p)
  }

  /** Saving then loading gives back the saved record, and the two-phase load restores exactly
      the inventory that was saved, whatever the in-memory inventory was. */
  lemma SaveLoadRoundTrip(dir: seq<ProgressFile>, name: string, p: Progress, inv: seq<int>, other: seq<int>)
    ensures LoadTwoPhase(Store(dir, name, WithInventory(p, inv)), name, other) == Success((WithInventory(p, inv), inv))
    ensures LoadLegacy(Store(dir, name, p), name) == Success(p)
  {
  }
}

=== FILE: resume.dfy ===
/**
 * Naming a job's files and finding earlier jobs to resume: the title is reduced to a safe
 * file-name stem, a progress file `<base>_progress.json` names its job's base, and an earlier
 * job is offered when its base name loosely matches the title.
 */
module Resume {
  import opened Wrappers
  import opened Text
  import opened ProgressStore

  /** The characters `re.sub(r'[^\w\s-]', '', …)` keeps (ASCII reading of `\w` and `\s`). */
  predicate Kept(c: char) { IsWordChar(c) || IsSpace(c) || c == '-' }

  /** Drops every character that is not a word character, whitespace or `-`. */
  function Sanitize(t: string): (r: string)
    ensures |r| <= |t|
    ensures forall i :: 0 <= i < |r| ==> Kept(r[i])
  {
    if |t| == 0 then "" else (if Kept(t[0]) then [t[0]] else "") + Sanitize(t[1..])
  }

  /** Sanitizing works character by character, and leaves alone a string it would not change. */
  lemma {:induction false} SanitizeAppend(a: string, b: string)
    ensures Sanitize(a + b) == Sanitize(a) + Sanitize(b)
  {
    if |a| > 0 {
      assert (a + b)[1..] == a[1..] + b;
      SanitizeAppend(a[1..], b);
    } else {
      assert a + b == b;
    }
  }

  lemma {:induction false} SanitizeKeepsKept(t: string)
    requires forall i :: 0 <= i < |t| ==> Kept(t[i])
    ensures Sanitize(t) == t
  {
    if |t| > 0 {
      SanitizeKeepsKept(t[1..]);
    }
  }

  /** One character is kept exactly when it is a word character, whitespace or `-`; with
      `SanitizeAppend` this fixes what `Sanitize` does to any string. */
  lemma SanitizeOne(c: char)
    ensures Kept(c) ==> Sanitize([c]) == [c]
    ensures !Kept(c) ==> Sanitize([c]) == ""
  {
    assert [c][1..] == "";
  }

  /** Sanitizing twice is sanitizing once. */
  lemma SanitizeIsIdempotent(t: string)
    ensures Sanitize(Sanitize(t)) == Sanitize(t)
  {
    SanitizeKeepsKept(Sanitize(t));
  }

  const TitleLimit := 50

  /** The safe title: the sanitized title cut to 50 characters. */
  function SafeTitle(title: string): (r: string)
    ensures |r| <= TitleLimit
    ensures forall i :: 0 <= i < |r| ==> Kept(r[i])
    ensures StartsWith(Sanitize(title), r)
    ensures |Sanitize(title)| <= TitleLimit ==> r == Sanitize(title)
    ensures |Sanitize(title)| > TitleLimit ==> |r| == TitleLimit
  {
    var s := Sanitize(title);
    if |s| <= TitleLimit then s else s[..TitleLimit]
  }

  /** A minted base name: the safe title, `_`, and the timestamp. */
  function FreshBase(title: string, stamp: string): string {
    SafeTitle(title) + "_" + stamp
  }

  const ProgressSuffix := "_progress.json"

  function ProgressName(base: string): string {
    base + ProgressSuffix
  }

  /** `name.replace('_progress.json', '')`: every occurrence is removed, not only the last. */
  function BaseName(name: string): (b: string)
    ensures |b| <= |name|
  {
    RemoveAll(name, ProgressSuffix)
  }

  /** The base name of a job's progress file is the job's base, when the base itself does not
      contain the suffix. */
  lemma BaseNameOfProgressName(base: string)
    requires !Contains(base, ProgressSuffix)
    ensures BaseName(ProgressName(base)) == base
  {
    RemoveAllTrailing(base, ProgressSuffix);
    RemoveAllAbsent(base, ProgressSuffix);
  }

  /** The fuzzy match: the lowercased safe title, or one of its words, occurs in the lowercased
      base name. */
  predicate Matches(safeTitle: string, base: string) {
    var b := Lower(base);
    var t := Lower(safeTitle);
    Contains(b, t) || exists k :: 0 <= k < |Words(t)| && Contains(b, Words(t)[k])
  }

  /** An empty safe title (a title made only of dropped characters) matches every file. */
  lemma EmptyTitleMatchesAll(base: string)
    ensures Matches("", base)
  {
    assert Lower("") == "";
    assert Lower(base)[..0] == "";
  }

  lemma {:induction false} LowerAppend(a: string, b: string)
    ensures Lower(a + b) == Lower(a) + Lower(b)
  {
    if |a| > 0 {
      assert (a + b)[1..] == a[1..] + b;
      LowerAppend(a[1..], b);
    } else {
      assert a + b == b;
    }
  }

  /** A job's own files are always found again: a minted base name matches its own title. */
  lemma OwnBaseMatches(title: string, stamp: string)
    ensures Matches(SafeTitle(title), FreshBase(title, stamp))
  {
    var t := SafeTitle(title);
    LowerAppend(t, "_" + stamp);
    assert FreshBase(title, stamp) == t + ("_" + stamp);
    ContainsItself(Lower(t));
    ContainsRight(Lower(t), Lower("_" + stamp), Lower(t));
  }

  /** What `glob('*_progress.json')` lists: names ending in the suffix, not hidden. */
  predicate Globbed(name: string) {
    EndsWith(name, ProgressSuffix) && name[0] != '.'
  }

  /** An earlier job: its base name and its stored progress record. */
  datatype Earlier = Earlier(base: string, progress: Progress)

  /** The earlier jobs a title is offered, in directory order: each listed progress file that
      parses and whose base name matches, with its record; unreadable files are skipped. */
  function FindExisting(dir: seq<ProgressFile>, title: string): (found: seq<Earlier>)
    ensures |found| <= |dir|
    ensures forall e :: e in found <==>
      exists f :: f in dir && Globbed(f.name) && f.content.Some? &&
        Matches(SafeTitle(title), BaseName(f.name)) && e == Earlier(BaseName(f.name), f.content.value)
  {
    if |dir| == 0 then []
    else
      var f := dir[0];
      var rest := FindExisting(dir[1..], title);
      assert forall g :: g in dir <==> g == f || g in dir[1..];
      if Globbed(f.name) && f.content.Some? && Matches(SafeTitle(title), BaseName(f.name))
      then [Earlier(BaseName(f.name), f.content.value)] + rest
      else rest
  }

  /** The menu answer names an offered job, counting from 1, whose base name is not empty
      (an empty one is false to Python). */
  predicate NamesJob(found: seq<Earlier>, answer: string) {
    ParseInt(answer).Some? && 1 <= ParseInt(answer).value <= |found| && found[ParseInt(answer).value - 1].base != ""
  }

  /** The menu answer: a number naming one of the offered jobs resumes that job's base name;
      anything else ("Start new download", a non-number, a number out of range) mints the new
      name `minted`. */
  function ChooseBase(found: seq<Earlier>, answer: string, minted: string): (base: string)
    ensures base == minted || (exists i :: 0 <= i < |found| && base == found[i].base)
    ensures NamesJob(found, answer) ==> base == found[ParseInt(answer).value - 1].base
    ensures !NamesJob(found, answer) ==> base == minted
  {
    match ParseInt(answer)
    case Some(k) =>
      if 0 <= k - 1 < |found| && found[k - 1].base != "" then found[k - 1].base else minted
    case None => minted
  }

  /** A job started under a minted name is offered again to a later run for the same title:
      its progress file is listed, its base name is the job's base, and that base matches the
      title. The timestamp is assumed free of `.`, so the base cannot contain the suffix. */
  lemma OwnJobIsOffered(dir: seq<ProgressFile>, title: string, stamp: string, p: Progress)
    requires '.' !in stamp
    requires ProgressFile(ProgressName(FreshBase(title, stamp)), Some(p)) in dir
    ensures Earlier(FreshBase(title, stamp), p) in FindExisting(dir, title)
  {
    var t := SafeTitle(title);
    var base := FreshBase(title, stamp);
    var name := ProgressName(base);
    assert !Kept('.');
    assert base == t + ("_" + stamp);
    assert '.' !in base by {
      forall i | 0 <= i < |base|
        ensures base[i] != '.'
      {
        if i < |t| {
          assert base[i] == t[i];
        } else if i > |t| {
          assert base[i] == stamp[i - |t| - 1];
        }
      }
    }
    if Contains(base, ProgressSuffix) {
      ContainsChars(base, ProgressSuffix, 9);
      assert false;
    }
    BaseNameOfProgressName(base);
    OwnBaseMatches(title, stamp);
    assert name[|name| - |ProgressSuffix|..] == ProgressSuffix;
    assert name[0] == base[0];
    assert Globbed(name);
  }
}

=== FILE: sinks.dfy ===
/**
 * The output files of the incremental downloaders: a CSV file whose columns are fixed by the
 * first record written, a JSON array written one element at a time, and the HTML page. Each run
 * opens its files afresh (mode `w`), so a resumed run starts empty files and continues the
 * separator logic from the saved count. The CSV and HTML files are kept as the records written
 * to them and rendered when the files are closed; the JSON file is kept as text because its
 * separators depend on the run's starting count.
 */
module Sinks {
  import opened Wrappers
  import opened Text
  import opened Messages
  import opened Html

  /** The files one run keeps open; `None` for a file the chosen format does not produce. */
  datatype Sinks = Sinks(csv: Option<seq<Record>>, json: Option<string>, html: Option<seq<Record>>)

  /** A CSV file: the header row, once the first record fixed it, and the data rows. */
  datatype CsvSink = CsvSink(header: Option<seq<string>>, rows: seq<seq<string>>)

  /** The finished files. `html` is the page after its static head. */
  datatype Files = Files(csv: Option<CsvSink>, json: Option<string>, html: Option<string>)

  const NoSinks := Sinks(None, None, None)
  const JsonOpen := "[\n"
  const JsonSeparator := ",\n"
  const JsonClose := "\n]"
  const HtmlClose := "\n        </div>\n    </div>\n</body>\n</html>"

  /** The files the two-phase downloader opens for a format name. */
  function OpenTwoPhase(format: string): Sinks {
    Sinks(
      if format in ["csv", "both", "all"] then Some([]) else None,
      if format in ["json", "both", "all"] then Some(JsonOpen) else None,
      if format in ["html", "all"] then Some([]) else None)
  }

  /** The files the single-phase downloader opens for a format name (it knows no HTML). */
  function OpenLegacy(format: string): Sinks {
    Sinks(
      if format in ["csv", "both"] then Some([]) else None,
      if format in ["json", "both"] then Some(JsonOpen) else None,
      None)
  }

  /** The formats: `all` is the only name the two downloaders read differently, and the
      single-phase one never opens HTML; every opened file starts empty apart from the
      array's opening bracket. */
  lemma FormatSelection(format: string)
    ensures format != "all" ==> OpenLegacy(format) == OpenTwoPhase(format).(html := None)
    ensures OpenTwoPhase("all") == Sinks(Some([]), Some(JsonOpen), Some([]))
    ensures OpenTwoPhase("both") == Sinks(Some([]), Some(JsonOpen), None)
    ensures OpenLegacy("all") == NoSinks
    ensures OpenLegacy(format).html.None?
    ensures OpenTwoPhase(format).csv.Some? <==> format == "csv" || format == "both" || format == "all"
    ensures OpenTwoPhase(format).json.Some? <==> format == "json" || format == "both" || format == "all"
    ensures OpenTwoPhase(format).html.Some? <==> format == "html" || format == "all"
    ensures OpenLegacy(format).csv.Some? <==> format == "csv" || format == "both"
    ensures OpenLegacy(format).json.Some? <==> format == "json" || format == "both"
    ensures OpenTwoPhase(format).csv.Some? ==> OpenTwoPhase(format).csv == Some([])
    ensures OpenTwoPhase(format).json.Some? ==> OpenTwoPhase(format).json == Some(JsonOpen)
  {
  }

  /** The value of `key` in a record's fields. */
  function Lookup(fs: seq<Field>, key: string): (v: Option<string>)
    ensures v.Some? <==> exists i :: 0 <= i < |fs| && fs[i].key == key
    ensures v.Some? ==> exists i :: 0 <= i < |fs| && fs[i] == Field(key, v.value)
  {
    if |fs| == 0 then None
    else if fs[0].key == key then Some(fs[0].value)
    else
      var v := Lookup(fs[1..], key);
      assert forall i :: 1 <= i < |fs| ==> fs[i] == fs[1..][i - 1];
      v
  }

  /** `DictWriter.writerow` with `extrasaction='ignore'`: one cell per header column, empty for
      a key the record lacks; keys outside the header are dropped. */
  function Row(header: seq<string>, fs: seq<Field>): (row: seq<string>)
    ensures |row| == |header|
  {
    if |header| == 0 then [] else [Lookup(fs, header[0]).GetOr("")] + Row(header[1..], fs)
  }

  /** Each cell is the record's value for that column, or empty when the record lacks the key. */
  lemma {:induction false} RowCell(header: seq<string>, fs: seq<Field>, i: int)
    requires 0 <= i < |header|
    ensures Row(header, fs)[i] == Lookup(fs, header[i]).GetOr("")
  {
    if i > 0 {
      RowCell(header[1..], fs, i - 1);
    }
  }

  predicate DistinctKeys(fs: seq<Field>) {
    forall i, j :: 0 <= i < j < |fs| ==> fs[i].key != fs[j].key
  }

  /** With no repeated key, a record written under its own keys gives back its values in order. */
  lemma RowOfOwnKeys(fs: seq<Field>)
    requires DistinctKeys(fs)
    ensures forall i :: 0 <= i < |fs| ==> Row(Keys(fs), fs)[i] == fs[i].value
  {
    forall i | 0 <= i < |fs|
      ensures Row(Keys(fs), fs)[i] == fs[i].value
    {
      LookupAt(fs, i);
      RowCell(Keys(fs), fs, i);
    }
  }

  lemma {:induction false} LookupAt(fs: seq<Field>, i: int)
    requires DistinctKeys(fs) && 0 <= i < |fs|
    ensures Lookup(fs, fs[i].key) == Some(fs[i].value)
  {
    if i > 0 {
      assert fs[0].key != fs[i].key;
      LookupAt(fs[1..], i - 1);
    }
  }

  /** Every record's dictionary has distinct keys, so the CSV row of the record that fixed the
      header is exactly its values. */
  lemma FieldsHaveDistinctKeys(r: Record)
    ensures DistinctKeys(Fields(r))
  {
    if r.hasMedia.Some? {
      if r.sender.Some? { FlaggedWithSender(r); } else { FlaggedWithoutSender(r); }
    } else {
      if r.sender.Some? { UnflaggedWithSender(r); } else { UnflaggedWithoutSender(r); }
    }
  }

  lemma FlaggedWithSender(r: Record)
    requires r.hasMedia.Some? && r.sender.Some?
    ensures DistinctKeys(Fields(r))
  {
  }

  lemma FlaggedWithoutSender(r: Record)
    requires r.hasMedia.Some? && r.sender.None?
    ensures DistinctKeys(Fields(r))
  {
  }

  lemma UnflaggedWithSender(r: Record)
    requires r.hasMedia.None? && r.sender.Some?
    ensures DistinctKeys(Fields(r))
  {
  }

  lemma UnflaggedWithoutSender(r: Record)
    requires r.hasMedia.None? && r.sender.None?
    ensures DistinctKeys(Fields(r))
  {
  }

  /** `DictWriter` with `extrasaction='ignore'`: the first record written fixes the header to its
      own keys; every record becomes one row under the current header. */
  function WriteCsv(c: CsvSink, fs: seq<Field>): CsvSink {
    match c.header
    case None => CsvSink(Some(Keys(fs)), c.rows + [Row(Keys(fs), fs)])
    case Some(h) => CsvSink(c.header, c.rows + [Row(h, fs)])
  }

  /** The CSV file after writing records with the fields `fss`, one by one. */
  function CsvFile(fss: seq<seq<Field>>): CsvSink {
    if |fss| == 0 then CsvSink(None, [])
    else WriteCsv(CsvFile(fss[..|fss| - 1]), fss[|fss| - 1])
  }

  function FieldsOf(rs: seq<Record>): (fss: seq<seq<Field>>)
    ensures |fss| == |rs|
    ensures forall i :: 0 <= i < |rs| ==> fss[i] == Fields(rs[i])
  {
    if |rs| == 0 then [] else [Fields(rs[0])] + FieldsOf(rs[1..])
  }

  /** One element of the array: the separator unless this is the first element of the run's
      count, then the record's JSON text. */
  function WriteJson(j: string, item: string, isFirst: bool): string {
    j + (if isFirst then "" else JsonSeparator) + item
  }

  /** `write_message_incremental`: the record goes to every open file. */
  function WriteRecord(s: Sinks, r: Record, isFirst: bool, enc: Record -> string): (t: Sinks)
    ensures s.csv.Some? ==> t.csv == Some(s.csv.value + [r])
    ensures s.html.Some? ==> t.html == Some(s.html.value + [r])
    ensures s.json.Some? ==> t.json == Some(s.json.value + (if isFirst then "" else JsonSeparator) + enc(r))
    ensures s.csv.None? ==> t.csv.None?
    ensures s.json.None? ==> t.json.None?
    ensures s.html.None? ==> t.html.None?
  {
    Sinks(
      match s.csv case Some(c) => Some(c + [r]) case None => None,
      match s.json case Some(j) => Some(WriteJson(j, enc(r), isFirst)) case None => None,
      match s.html case Some(h) => Some(h + [r]) case None => None)
  }

  /** The files after writing `rs` in order; only the very first record of a run that starts
      from a zero count is written without a separator. */
  function WriteAll(s: Sinks, rs: seq<Record>, fromZero: bool, enc: Record -> string): (t: Sinks)
    ensures s.csv.Some? ==> t.csv == Some(s.csv.value + rs)
    ensures s.html.Some? ==> t.html == Some(s.html.value + rs)
    ensures s.csv.None? ==> t.csv.None?
    ensures s.json.Some? <==> t.json.Some?
    ensures s.html.None? ==> t.html.None?
  {
    if |rs| == 0 then
      assert s.csv.Some? ==> s.csv.value + rs == s.csv.value;
      assert s.html.Some? ==> s.html.value + rs == s.html.value;
      s
    else
      var pre := WriteAll(s, rs[..|rs| - 1], fromZero, enc);
      assert rs == rs[..|rs| - 1] + [rs[|rs| - 1]];
      assert s.csv.Some? ==> s.csv.value + rs == (s.csv.value + rs[..|rs| - 1]) + [rs[|rs| - 1]];
      assert s.html.Some? ==> s.html.value + rs == (s.html.value + rs[..|rs| - 1]) + [rs[|rs| - 1]];
      WriteRecord(pre, rs[|rs| - 1], fromZero && |rs| == 1, enc)
  }

  lemma WriteAllSnoc(s: Sinks, rs: seq<Record>, r: Record, fromZero: bool, enc: Record -> string)
    ensures WriteAll(s, rs + [r], fromZero, enc) == WriteRecord(WriteAll(s, rs, fromZero, enc), r, fromZero && |rs| == 0, enc)
  {
    assert (rs + [r])[..|rs|] == rs;
  }

  predicate AllRenderable(rs: seq<Record>) {
    forall i :: 0 <= i < |rs| ==> Renderable(rs[i])
  }

  /** The page body: the blocks of the records, in order. */
  function Blocks(rs: seq<Record>): string
    requires AllRenderable(rs)
  {
    if |rs| == 0 then "" else RenderBlock(rs[0]) + Blocks(rs[1..])
  }

  /** `finalize_files` and closing: the array and the page are closed, the CSV file is as written. */
  function Finalize(s: Sinks): (f: Files)
    requires s.html.Some? ==> AllRenderable(s.html.value)
    ensures s.csv.Some? <==> f.csv.Some?
    ensures s.csv.Some? ==> f.csv == Some(CsvFile(FieldsOf(s.csv.value)))
    ensures s.csv.Some? ==> |f.csv.value.rows| == |s.csv.value|
    ensures s.csv.Some? && |s.csv.value| == 0 ==> f.csv.value.header.None?
    ensures s.csv.Some? && |s.csv.value| > 0 ==>
      var rs := s.csv.value;
      && f.csv.value.header == Some(Keys(Fields(rs[0])))
      && forall i :: 0 <= i < |rs| ==> f.csv.value.rows[i] == Row(Keys(Fields(rs[0])), Fields(rs[i]))
    ensures s.json.Some? ==> f.json == Some(s.json.value + JsonClose)
    ensures s.json.None? ==> f.json.None?
    ensures s.html.Some? ==> f.html == Some(Blocks(s.html.value) + HtmlClose)
    ensures s.html.None? ==> f.html.None?
  {
    Files(
      match s.csv case Some(rs) => CsvOfRecords(rs); Some(CsvFile(FieldsOf(rs))) case None => None,
      match s.json case Some(j) => Some(j + JsonClose) case None => None,
      match s.html case Some(rs) => Some(Blocks(rs) + HtmlClose) case None => None)
  }

  /** The CSV file of records: one row per record, under the first record's keys. */
  lemma CsvOfRecords(rs: seq<Record>)
    ensures |CsvFile(FieldsOf(rs)).rows| == |rs|
    ensures |rs| == 0 ==> CsvFile(FieldsOf(rs)).header.None?
    ensures |rs| > 0 ==>
      && CsvFile(FieldsOf(rs)).header == Some(Keys(Fields(rs[0])))
      && forall i :: 0 <= i < |rs| ==> CsvFile(FieldsOf(rs)).rows[i] == Row(Keys(Fields(rs[0])), Fields(rs[i]))
  {
    if |rs| > 0 {
      CsvSchema(FieldsOf(rs));
    }
  }

  // ---------------------------------------------------------------------------------------------
  // Reference forms of the finished files.

  function Encoded(rs: seq<Record>, enc: Record -> string): (xs: seq<string>)
    ensures |xs| == |rs|
    ensures forall i :: 0 <= i < |rs| ==> xs[i] == enc(rs[i])
  {
    if |rs| == 0 then [] else [enc(rs[0])] + Encoded(rs[1..], enc)
  }

  /** The items separated by `sep`. */
  function Join(xs: seq<string>, sep: string): string {
    if |xs| == 0 then ""
    else if |xs| == 1 then xs[0]
    else xs[0] + sep + Join(xs[1..], sep)
  }

  /** Every item preceded by `sep`. */
  function PrefixEach(xs: seq<string>, sep: string): string {
    if |xs| == 0 then "" else sep + xs[0] + PrefixEach(xs[1..], sep)
  }

  lemma {:induction false} JoinSnoc(xs: seq<string>, x: string, sep: string)
    requires |xs| > 0
    ensures Join(xs + [x], sep) == Join(xs, sep) + sep + x
  {
    if |xs| > 1 {
      assert (xs + [x])[1..] == xs[1..] + [x];
      JoinSnoc(xs[1..], x, sep);
    } else {
      assert (xs + [x])[1..] == [x];
    }
  }

  lemma {:induction false} PrefixEachSnoc(xs: seq<string>, x: string, sep: string)
    ensures PrefixEach(xs + [x], sep) == PrefixEach(xs, sep) + sep + x
  {
    if |xs| > 0 {
      assert (xs + [x])[1..] == xs[1..] + [x];
      PrefixEachSnoc(xs[1..], x, sep);
    } else {
      assert (xs + [x])[1..] == [];
    }
  }

  /** The JSON file of a run that wrote `rs`: a run starting from a zero count produces a
      well-formed array, the items joined by the separator; a resumed run puts the separator
      before every item, so its file begins `[`, newline, `,` as soon as one record is written. */
  lemma {:induction false} JsonFraming(s: Sinks, rs: seq<Record>, fromZero: bool, enc: Record -> string)
    requires s.json == Some(JsonOpen)
    ensures fromZero ==> WriteAll(s, rs, fromZero, enc).json.value + JsonClose == JsonOpen + Join(Encoded(rs, enc), JsonSeparator) + JsonClose
    ensures !fromZero ==> WriteAll(s, rs, fromZero, enc).json.value + JsonClose == JsonOpen + PrefixEach(Encoded(rs, enc), JsonSeparator) + JsonClose
    ensures !fromZero && |rs| > 0 ==> StartsWith(WriteAll(s, rs, fromZero, enc).json.value + JsonClose, "[\n,\n")
  {
    JsonBody(s, rs, fromZero, enc);
    if !fromZero && |rs| > 0 {
      var xs := Encoded(rs, enc);
      var doc := JsonOpen + PrefixEach(xs, JsonSeparator) + JsonClose;
      assert PrefixEach(xs, JsonSeparator) == JsonSeparator + xs[0] + PrefixEach(xs[1..], JsonSeparator);
      assert doc[..4] == "[\n,\n";
    }
  }

  lemma JsonBody(s: Sinks, rs: seq<Record>, fromZero: bool, enc: Record -> string)
    requires s.json == Some(JsonOpen)
    ensures fromZero ==> WriteAll(s, rs, fromZero, enc).json == Some(JsonOpen + Join(Encoded(rs, enc), JsonSeparator))
    ensures !fromZero ==> WriteAll(s, rs, fromZero, enc).json == Some(JsonOpen + PrefixEach(Encoded(rs, enc), JsonSeparator))
  {
    if fromZero {
      JsonJoined(s, rs, enc);
    } else {
      JsonPrefixed(s, rs, enc);
    }
  }

  /** A run from a zero count separates its records. */
  lemma {:induction false} JsonJoined(s: Sinks, rs: seq<Record>, enc: Record -> string)
    requires s.json == Some(JsonOpen)
    ensures WriteAll(s, rs, true, enc).json == Some(JsonOpen + Join(Encoded(rs, enc), JsonSeparator))
  {
    if |rs| > 0 {
      var pre := rs[..|rs| - 1];
      var last := rs[|rs| - 1];
      assert rs == pre + [last];
      WriteAllSnoc(s, pre, last, true, enc);
      JsonJoined(s, pre, enc);
      var before := WriteAll(s, pre, true, enc);
      assert WriteAll(s, rs, true, enc).json == Some(WriteJson(before.json.value, enc(last), |pre| == 0));
      var xs := Encoded(pre, enc);
      assert Encoded(rs, enc) == xs + [enc(last)];
      if |pre| > 0 {
        JoinSnoc(xs, enc(last), JsonSeparator);
        assert before.json.value == JsonOpen + Join(xs, JsonSeparator);
        assert WriteJson(before.json.value, enc(last), false) == JsonOpen + Join(xs + [enc(last)], JsonSeparator);
      } else {
        assert Encoded(rs, enc) == [enc(last)];
        assert before == s;
      }
    } else {
      assert Encoded(rs, enc) == [];
      assert JsonOpen + "" == JsonOpen;
    }
  }

  /** A resumed run puts the separator before every record. */
  lemma {:induction false} JsonPrefixed(s: Sinks, rs: seq<Record>, enc: Record -> string)
    requires s.json == Some(JsonOpen)
    ensures WriteAll(s, rs, false, enc).json == Some(JsonOpen + PrefixEach(Encoded(rs, enc), JsonSeparator))
  {
    if |rs| > 0 {
      var pre := rs[..|rs| - 1];
      var last := rs[|rs| - 1];
      assert rs == pre + [last];
      WriteAllSnoc(s, pre, last, false, enc);
      JsonPrefixed(s, pre, enc);
      var before := WriteAll(s, pre, false, enc);
      assert WriteAll(s, rs, false, enc).json == Some(WriteJson(before.json.value, enc(last), false));
      var xs := Encoded(pre, enc);
      assert Encoded(rs, enc) == xs + [enc(last)];
      PrefixEachSnoc(xs, enc(last), JsonSeparator);
      assert before.json.value == JsonOpen + PrefixEach(xs, JsonSeparator);
      assert WriteJson(before.json.value, enc(last), false) == JsonOpen + PrefixEach(xs + [enc(last)], JsonSeparator);
    } else {
      assert Encoded(rs, enc) == [];
      assert JsonOpen + "" == JsonOpen;
    }
  }

  /** The CSV file of a run: the first record fixes the columns to its own keys, and every
      record, the first included, becomes one row holding its value for each of those columns;
      when the first record has no repeated key, its row is exactly its values. */
  lemma {:induction false} CsvSchema(fss: seq<seq<Field>>)
    requires |fss| > 0
    ensures CsvFile(fss).header == Some(Keys(fss[0]))
    ensures |CsvFile(fss).rows| == |fss|
    ensures forall i :: 0 <= i < |fss| ==> CsvFile(fss).rows[i] == Row(Keys(fss[0]), fss[i])
    ensures DistinctKeys(fss[0]) ==>
      forall k :: 0 <= k < |fss[0]| ==> |CsvFile(fss).rows[0]| == |fss[0]| && CsvFile(fss).rows[0][k] == fss[0][k].value
  {
    var pre := fss[..|fss| - 1];
    var last := fss[|fss| - 1];
    var h := Keys(fss[0]);
    assert CsvFile(fss) == WriteCsv(CsvFile(pre), last);
    if |pre| > 0 {
      CsvSchema(pre);
      assert pre[0] == fss[0];
      var c := CsvFile(pre);
      assert c.header == Some(h);
      assert CsvFile(fss).rows == c.rows + [Row(h, last)];
      forall i | 0 <= i < |fss|
        ensures CsvFile(fss).rows[i] == Row(h, fss[i])
      {
        if i < |pre| {
          assert CsvFile(fss).rows[i] == c.rows[i];
          assert c.rows[i] == Row(h, pre[i]);
          assert pre[i] == fss[i];
        } else {
          assert fss[i] == last;
        }
      }
    } else {
      assert last == fss[0];
      assert CsvFile(fss).rows == [Row(h, fss[0])];
    }
    if DistinctKeys(fss[0]) {
      RowOfOwnKeys(fss[0]);
      assert CsvFile(fss).rows[0] == Row(h, fss[0]);
    }
  }
}

=== FILE: text.dfy ===
/**
 * The string operations the downloaders borrow from Python: lower-casing, `strip`,
 * whitespace `split`, `in` on strings, `str.replace`, `os.path.basename`, `str(int)`
 * and `int(str)`. Character classes are the ASCII part of Python's Unicode classes.
 */
module Text {
  import opened Wrappers

  predicate IsDigit(c: char) { '0' <= c <= '9' }

  predicate IsAsciiLetter(c: char) { 'a' <= c <= 'z' || 'A' <= c <= 'Z' }

  /** The ASCII members of the regular-expression class `\w`. */
  predicate IsWordChar(c: char) { IsAsciiLetter(c) || IsDigit(c) || c == '_' }

  /** The ASCII characters for which Python's `str.isspace` holds (also the ASCII part of `\s`). */
  predicate IsSpace(c: char) {
    c == ' ' || c == '\t' || c == '\n' || c == '\r' || c == '\U{000B}' || c == '\U{000C}'
    || ('\U{001C}' <= c <= '\U{001F}')
  }

  function LowerChar(c: char): (r: char)
    ensures IsAsciiLetter(c) ==> r != c || ('a' <= c <= 'z')
  {
    if 'A' <= c <= 'Z' then (c as int + 32) as char else c
  }

  /** `str.lower()` on ASCII letters; every other character is kept. */
  function Lower(s: string): (r: string)
    ensures |r| == |s|
    ensures forall i :: 0 <= i < |s| ==> r[i] == LowerChar(s[i])
  {
    if |s| == 0 then [] else [LowerChar(s[0])] + Lower(s[1..])
  }

  /** Lower-casing twice is lower-casing once. */
  lemma LowerIsIdempotent(s: string)
    ensures Lower(Lower(s)) == Lower(s)
  {
    forall i | 0 <= i < |s|
      ensures Lower(Lower(s))[i] == Lower(s)[i]
    {
    }
  }

  predicate StartsWith(s: string, p: string) { |p| <= |s| && s[..|p|] == p }

  predicate EndsWith(s: string, p: string) { |p| <= |s| && s[|s| - |p|..] == p }

  /** Python's `p in s` for strings: `p` occurs somewhere in `s`. */
  predicate Contains(s: string, p: string)
    decreases |s|
  {
    StartsWith(s, p) || (|s| > 0 && Contains(s[1..], p))
  }

  lemma ContainsItself(s: string)
    ensures Contains(s, s)
  {
    assert s[..|s|] == s;
  }

  /** An occurrence stays an occurrence when text is added before it. */
  lemma {:induction false} ContainsLeft(s: string, t: string, p: string)
    requires Contains(t, p)
    ensures Contains(s + t, p)
    decreases |s|
  {
    if |s| > 0 {
      assert (s + t)[1..] == s[1..] + t;
      ContainsLeft(s[1..], t, p);
    } else {
      assert s + t == t;
    }
  }

  /** An occurrence stays an occurrence when text is added after it. */
  lemma {:induction false} ContainsRight(s: string, t: string, p: string)
    requires Contains(s, p)
    ensures Contains(s + t, p)
    decreases |s|
  {
    if StartsWith(s, p) {
      assert (s + t)[..|p|] == s[..|p|];
    } else {
      assert (s + t)[1..] == s[1..] + t;
      ContainsRight(s[1..], t, p);
    }
  }

  /** A text occurs in itself with anything around it. */
  lemma ContainsMiddle(a: string, p: string, b: string)
    ensures Contains(a + p + b, p)
  {
    ContainsItself(p);
    ContainsLeft(a, p, p);
    ContainsRight(a + p, b, p);
  }

  /** Every character of an occurrence is a character of the text. */
  lemma {:induction false} ContainsChars(s: string, p: string, k: int)
    requires Contains(s, p) && 0 <= k < |p|
    ensures p[k] in s
    decreases |s|
  {
    if StartsWith(s, p) {
      assert s[k] == p[k];
    } else {
      ContainsChars(s[1..], p, k);
      assert s == [s[0]] + s[1..];
    }
  }

  /** Drops leading whitespace; the result is a suffix of `s`. */
  function TrimLeft(s: string): (r: string)
    ensures |r| <= |s| && r == s[|s| - |r|..]
    ensures |r| > 0 ==> !IsSpace(r[0])
    ensures |r| == |s| <==> (|s| == 0 || !IsSpace(s[0]))
  {
    if |s| > 0 && IsSpace(s[0]) then TrimLeft(s[1..]) else s
  }

  /** Drops trailing whitespace; the result is a prefix of `s`. */
  function TrimRight(s: string): (r: string)
    ensures |r| <= |s| && r == s[..|r|]
    ensures |r| > 0 ==> !IsSpace(r[|r| - 1])
    ensures |r| == |s| <==> (|s| == 0 || !IsSpace(s[|s| - 1]))
  {
    if |s| > 0 && IsSpace(s[|s| - 1]) then TrimRight(s[..|s| - 1]) else s
  }

  /** `str.strip()`: neither end of the result is whitespace. */
  function Strip(s: string): string {
    TrimRight(TrimLeft(s))
  }

  /** Length of the run of non-whitespace characters that starts `s`. */
  function WordLength(s: string): (n: nat)
    ensures n <= |s|
    ensures forall i :: 0 <= i < n ==> !IsSpace(s[i])
    ensures n < |s| ==> IsSpace(s[n])
    ensures Spaceless(s[..n])
    ensures |s| > 0 && !IsSpace(s[0]) ==> n > 0
  {
    if |s| == 0 || IsSpace(s[0]) then 0 else 1 + WordLength(s[1..])
  }

  predicate Spaceless(w: string) {
    forall i :: 0 <= i < |w| ==> !IsSpace(w[i])
  }

  /** Every item is a non-empty run without whitespace. */
  predicate AllWords(ws: seq<string>) {
    forall k :: 0 <= k < |ws| ==> |ws[k]| > 0 && Spaceless(ws[k])
  }

  lemma ConsWord(w: string, ws: seq<string>)
    requires |w| > 0 && Spaceless(w) && AllWords(ws)
    ensures AllWords([w] + ws)
  {
    assert forall k :: 0 < k < |[w] + ws| ==> ([w] + ws)[k] == ws[k - 1];
  }

  /** `str.split()` with no separator: the maximal whitespace-free runs, in order. */
  function Words(s: string): (ws: seq<string>)
    ensures AllWords(ws)
    decreases |s|
  {
    var t := TrimLeft(s);
    if |t| == 0 then []
    else
      var n := WordLength(t);
      var rest := Words(t[n..]);
      ConsWord(t[..n], rest);
      [t[..n]] + rest
  }

  /** A string with no whitespace splits into itself alone (or into nothing when empty). */
  lemma {:induction false} WordsOfSpaceless(s: string)
    requires Spaceless(s)
    ensures Words(s) == if |s| == 0 then [] else [s]
  {
    if |s| > 0 {
      assert !IsSpace(s[0]);
      assert TrimLeft(s) == s;
      WordLengthOfSpaceless(s);
      var e: string := [];
      assert s[|s|..] == e && s[..|s|] == s;
      assert TrimLeft(e) == e;
    }
  }

  lemma {:induction false} WordLengthOfSpaceless(s: string)
    requires Spaceless(s)
    ensures WordLength(s) == |s|
    decreases |s|
  {
    if |s| > 0 {
      WordLengthOfSpaceless(s[1..]);
    }
  }

  /** Python's `s.replace(p, "")`: removes every non-overlapping occurrence of `p`, scanning left to right. */
  function RemoveAll(s: string, p: string): (r: string)
    requires |p| > 0
    ensures |r| <= |s|
    decreases |s|
  {
    if |s| < |p| then s
    else if s[..|p|] == p then RemoveAll(s[|p|..], p)
    else [s[0]] + RemoveAll(s[1..], p)
  }

  /** Removing the occurrences of a pattern whose first character appears only at its start
      from `b + p` removes the final `p` and treats `b` as if it stood alone: no occurrence
      can straddle the boundary. */
  lemma {:induction false} RemoveAllTrailing(b: string, p: string)
    requires |p| > 0
    requires forall i :: 0 < i < |p| ==> p[i] != p[0]
    ensures RemoveAll(b + p, p) == RemoveAll(b, p)
    decreases |b|
  {
    var s := b + p;
    if |b| == 0 {
      assert s[..|p|] == p;
      assert s[|p|..] == [];
    } else if |b| < |p| {
      assert s[..|p|][|b|] == p[0];
      assert s[..|p|] != p;
      assert s[1..] == b[1..] + p;
      RemoveAllTrailing(b[1..], p);
      RemoveAllShort(b[1..], p);
      RemoveAllShort(b, p);
      assert [b[0]] + b[1..] == b;
    } else if s[..|p|] == p {
      assert b[..|p|] == p;
      assert s[|p|..] == b[|p|..] + p;
      RemoveAllTrailing(b[|p|..], p);
    } else {
      assert s[1..] == b[1..] + p;
      RemoveAllTrailing(b[1..], p);
      assert b[..|p|] == s[..|p|];
    }
  }

  lemma RemoveAllShort(s: string, p: string)
    requires 0 < |p| && |s| < |p|
    ensures RemoveAll(s, p) == s
  {
  }

  /** A string in which `p` never starts anywhere is left unchanged. */
  lemma {:induction false} RemoveAllAbsent(s: string, p: string)
    requires |p| > 0
    requires !Contains(s, p)
    ensures RemoveAll(s, p) == s
    decreases |s|
  {
    if |s| >= |p| {
      assert !StartsWith(s, p);
      RemoveAllAbsent(s[1..], p);
      assert s == [s[0]] + s[1..];
    }
  }

  function DigitChar(d: nat): (c: char)
    requires d < 10
    ensures IsDigit(c)
  {
    ('0' as int + d) as char
  }

  function DigitValue(c: char): (d: nat)
    requires IsDigit(c)
    ensures d < 10 && DigitChar(d) == c
  {
    c as int - '0' as int
  }

  /** `str(n)` for a natural number: its decimal digits without leading zeros. */
  function NatToString(n: nat): (s: string)
    ensures |s| > 0
    ensures forall i :: 0 <= i < |s| ==> IsDigit(s[i])
  {
    if n < 10 then [DigitChar(n)] else NatToString(n / 10) + [DigitChar(n % 10)]
  }

  /** `str(n)`: a minus sign before the digits of a negative number. */
  function IntToString(n: int): (s: string)
    ensures |s| > 0 && IsDigit(s[|s| - 1])
    ensures forall i :: 0 <= i < |s| ==> IsDigit(s[i]) || (i == 0 && s[i] == '-' && n < 0)
  {
    if n < 0 then "-" + NatToString(-n) else NatToString(n)
  }

  predicate DigitsOrUnderscores(s: string) {
    forall i :: 0 <= i < |s| ==> IsDigit(s[i]) || s[i] == '_'
  }

  /** The digit strings `int()` accepts: digits, with single underscores between two digits. */
  predicate ValidDigits(s: string) {
    && |s| > 0
    && IsDigit(s[0])
    && IsDigit(s[|s| - 1])
    && DigitsOrUnderscores(s)
    && forall i :: 0 <= i < |s| - 1 && s[i] == '_' ==> IsDigit(s[i + 1])
  }

  /** The number a digit string denotes, underscores ignored. */
  function DigitsValue(s: string): nat
    requires DigitsOrUnderscores(s)
  {
    if |s| == 0 then 0
    else if s[|s| - 1] == '_' then DigitsValue(s[..|s| - 1])
    else 10 * DigitsValue(s[..|s| - 1]) + DigitValue(s[|s| - 1])
  }

  function ParseDigits(s: string): Option<nat> {
    if ValidDigits(s) then Some(DigitsValue(s))
    else None
  }

  /** Python's `int(s)` in base ten: surrounding whitespace, an optional sign, then digits.
      `None` stands for the `ValueError` it raises otherwise. */
  function ParseInt(s: string): Option<int> {
    var t := Strip(s);
    if |t| > 0 && (t[0] == '-' || t[0] == '+') then
      match ParseDigits(t[1..])
      case Some(n) => Some(if t[0] == '-' then 0 - n else n)
      case None => None
    else
      match ParseDigits(t)
      case Some(n) => Some(n)
      case None => None
  }

  lemma {:induction false} NatToStringRoundTrip(n: nat)
    ensures ValidDigits(NatToString(n))
    ensures DigitsValue(NatToString(n)) == n
  {
    var s := NatToString(n);
    if n >= 10 {
      NatToStringRoundTrip(n / 10);
      assert s[..|s| - 1] == NatToString(n / 10);
    }
  }

  /** A string that neither starts nor ends with whitespace is its own strip. */
  lemma StripUnpadded(s: string)
    requires |s| > 0 && !IsSpace(s[0]) && !IsSpace(s[|s| - 1])
    ensures Strip(s) == s
  {
    assert TrimLeft(s) == s;
  }

  /** `int(str(n)) == n`: printing an integer and parsing it back gives the integer. */
  lemma IntToStringRoundTrip(n: int)
    ensures ParseInt(IntToString(n)) == Some(n)
  {
    if n < 0 {
      NegativeRoundTrip(n);
    } else {
      NaturalRoundTrip(n);
    }
  }

  lemma NegativeRoundTrip(n: int)
    requires n < 0
    ensures ParseInt(IntToString(n)) == Some(n)
  {
    var s := IntToString(n);
    var d := NatToString(-n);
    StripUnpadded(s);
    NatToStringRoundTrip(-n);
    assert ParseDigits(d) == Some(-n);
    assert s[0] == '-' && s[1..] == d;
  }

  lemma NaturalRoundTrip(n: nat)
    ensures ParseInt(IntToString(n)) == Some(n)
  {
    var s := IntToString(n);
    StripUnpadded(s);
    NatToStringRoundTrip(n);
    assert ParseDigits(s) == Some(n);
    assert IsDigit(s[0]);
  }

  /** `os.path.basename`: what follows the last `/`. */
  function Basename(p: string): (r: string)
    ensures EndsWith(p, r)
    ensures forall i :: 0 <= i < |r| ==> r[i] != '/'
  {
    if |p| == 0 || p[|p| - 1] == '/' then []
    else
      var r := Basename(p[..|p| - 1]) + [p[|p| - 1]];
      assert p[|p| - |r|..] == p[..|p| - 1][|p| - 1 - (|r| - 1)..] + [p[|p| - 1]];
      r
  }

  /** `s.split(c)[0]`: the part of `s` before the first `c` (all of `s` when there is none). */
  function BeforeFirst(s: string, c: char): (r: string)
    ensures StartsWith(s, r)
    ensures forall i :: 0 <= i < |r| ==> r[i] != c
    ensures |r| < |s| ==> s[|r|] == c
  {
    if |s| == 0 || s[0] == c then [] else [s[0]] + BeforeFirst(s[1..], c)
  }
}

=== FILE: wrappers.dfy ===
/** Option and Result values for the model's partial operations. */
module Wrappers {

  /** A value that may be absent: Python's `None` versus a present value. */
  datatype Option<+T> = None | Some(value: T) {

    /** The present value, or `default` when absent. */
    function GetOr(default: T): T {
      match this
      case Some(v) => v
      case None => default
    }
  }

  /** The outcome of an operation that can raise: a value or the reason it failed. */
  datatype Result<+R, +E> = Success(value: R) | Failure(error: E)
}

=== FILE: writing.dfy ===
/**
 * What the batch loop does with each delivered message in the two incremental downloaders:
 * parse it, record its media id (two-phase downloader only), write it to every open file with
 * the run's `is_first` flag, and clear the flag. And the progress record a save takes from the
 * loop's counters.
 */
module Writing {
  import opened Wrappers
  import opened Messages
  import opened Inventory
  import opened Sinks
  import opened ProgressStore
  import opened FetchLoop
  import Html

  /** The two downloaders: the single-phase one may download media inline; the two-phase one
      never does in Phase 1 and tracks media ids instead. */
  datatype Variant = SinglePhase(downloadMedia: bool) | TwoPhase

  /** The per-run writing state: the `is_first` flag, the media inventory and the open files. */
  datatype Writer = Writer(isFirst: bool, inventory: seq<int>, sinks: Sinks)

  /** The record the variant's parser builds in the loop. */
  function Parse(v: Variant, m: Message): Record {
    match v
    case SinglePhase(d) => ParseLegacy(m, d)
    case TwoPhase => ParseTwoPhase(m, false)
  }

  /** The records of `ms`, in order. */
  function Records(v: Variant, ms: seq<Message>): (rs: seq<Record>)
    ensures |rs| == |ms|
  {
    if |ms| == 0 then [] else Records(v, ms[..|ms| - 1]) + [Parse(v, ms[|ms| - 1])]
  }

  lemma {:induction false} RecordAt(v: Variant, ms: seq<Message>, i: int)
    requires 0 <= i < |ms|
    ensures Records(v, ms)[i] == Parse(v, ms[i])
  {
    if i < |ms| - 1 {
      RecordAt(v, ms[..|ms| - 1], i);
    }
  }

  /** The inventory after the loop has seen `ms`: unchanged by the single-phase downloader. */
  function InventoryAfter(v: Variant, inv: seq<int>, ms: seq<Message>): seq<int> {
    if v.TwoPhase? then TrackAll(inv, MediaIds(ms)) else inv
  }

  /** One delivered message: its record goes to every open file, the two-phase downloader
      records its id if it carries media, and the next record is no longer the first. */
  function Write(v: Variant, enc: Record -> string, w: Writer, m: Message): (w': Writer)
    ensures !w'.isFirst
    ensures w'.sinks == WriteRecord(w.sinks, Parse(v, m), w.isFirst, enc)
    ensures v.SinglePhase? ==> w'.inventory == w.inventory
    ensures v.TwoPhase? && m.media.None? ==> w'.inventory == w.inventory
    ensures v.TwoPhase? && m.media.Some? ==> w'.inventory == Track(w.inventory, m.id)
  {
    Writer(false, if v.TwoPhase? then TrackMedia(w.inventory, m) else w.inventory,
           WriteRecord(w.sinks, Parse(v, m), w.isFirst, enc))
  }

  /** The progress dictionary a save inside the loop builds: the current offset and count, and
      for the two-phase downloader `media_downloaded` false and the current inventory. */
  function Snapshot(v: Variant, c: Counters<Writer>): (p: Progress)
    ensures p.lastMessageId == c.offset && p.totalDownloaded == c.total
    ensures p.textComplete.None?
    ensures v.SinglePhase? ==> p.mediaDownloaded.None? && p.mediaIds.None?
    ensures v.TwoPhase? ==> p.mediaDownloaded == Some(false) && p.mediaIds == Some(c.writer.inventory)
  {
    if v.TwoPhase? then Progress(c.offset, c.total, Some(false), Some(c.writer.inventory), None)
    else Progress(c.offset, c.total, None, None, None)
  }

  /** The loop's hooks for a variant. */
  function HooksOf(v: Variant, enc: Record -> string): Hooks<Message, Writer> {
    Hooks((m: Message) => m.id, (w: Writer, m: Message) => Write(v, enc, w, m), (c: Counters<Writer>) => Snapshot(v, c))
  }

  /** The state the loop starts from: the stored offset and count, `is_first` exactly when the
      count is zero, and freshly opened files. */
  function Start(p: Progress, inv: seq<int>, s: Sinks): (c: Counters<Writer>)
    ensures c.total == p.totalDownloaded && c.offset == p.lastMessageId
    ensures c.writer.isFirst <==> p.totalDownloaded == 0
  {
    Counters(p.totalDownloaded, p.lastMessageId, Writer(p.totalDownloaded == 0, inv, s))
  }

  /** After the loop has delivered `ms`, the files hold exactly their records, written with the
      run's starting `is_first`, and the inventory has recorded their media ids in order;
      `is_first` survives only an empty run. */
  lemma {:induction false} AfterWrites(v: Variant, enc: Record -> string, start: Counters<Writer>, ms: seq<Message>)
    ensures After(HooksOf(v, enc), start, ms).writer ==
      Writer(start.writer.isFirst && |ms| == 0,
             InventoryAfter(v, start.writer.inventory, ms),
             WriteAll(start.writer.sinks, Records(v, ms), start.writer.isFirst, enc))
  {
    if |ms| > 0 {
      var pre := ms[..|ms| - 1];
      var m := ms[|ms| - 1];
      AfterWrites(v, enc, start, pre);
      assert ms == pre + [m];
      WriteAllSnoc(start.writer.sinks, Records(v, pre), Parse(v, m), start.writer.isFirst, enc);
      assert Records(v, ms) == Records(v, pre) + [Parse(v, m)];
      if v.TwoPhase? {
        TrackMediaStep(start.writer.inventory, pre, m);
      }
    }
  }

  /** Every record the two-phase downloader writes can be rendered: one flagged as having media
      always carries its kind. */
  lemma TwoPhaseRecordsRender(ms: seq<Message>)
    ensures AllRenderable(Records(TwoPhase, ms))
  {
    forall i | 0 <= i < |ms|
      ensures Html.Renderable(Records(TwoPhase, ms)[i])
    {
      RecordAt(TwoPhase, ms, i);
    }
  }
}
